=== FILE: README.md ===
# approxis-groundtruth in Dafny

This project models the core of approxis-groundtruth. The tool builds a byte-level ground truth for x86/x64 binaries. It takes a binary and the debug symbols of that binary: a PDB dump for a PE file, or a DWARF/ELF symbol dump for an ELF file. It returns the bytes of the `.text` section, each with a list of flags. The flags record whether a byte is code, data, alignment or padding, whether it starts or ends a function or an instruction, and whether that instruction is a jump, call, return or interrupt.

The model covers:

- the data model: flags, bytes, instructions, sections, holes and symbols;
- the symbol loaders, from the parsed YAML document onwards;
- the disassembler adapter;
- every pass of the PE and the ELF drivers, run in the order each driver uses;
- the plain-text dump and the statistics of the YAML dump.

How the model is built:

- Every pass is a pure function over `seq<Byte>`.
- A Rust panic and a `process::exit` become an `Err` value. This covers an index out of range, an `unwrap` of a missing sub-record (`ProcSym`, `Thunk32Sym`, `LabelSym`, `DataSym`) and an unsigned subtraction below zero. Some other fields the source unwraps are mandatory in the model's documents instead; "## Left out" lists them.
- A flag list is a sequence with `Vec::dedup` semantics: only neighbouring duplicates are removed, so a flag can appear twice.
- The decoding library is a function-typed parameter, `Disassembler.Decoder`. Nothing is assumed about what it returns.

Modules, in dependency order:

- `Wrappers`: `Option` and `Result`.
- `Vectors`: the `Vec` operations `any`, `dedup` and a stable `sort_by`.
- `Text`: ASCII lower-casing, `contains` and `replace`.
- `GroundTruth`: the data model.
- `Parser`: the loaders.
- `Disassembler`: the decoder adapter.
- `BytePasses`: trim, rebase and the byte flags.
- `CodePass`: the disassembly pass.
- `Alignment`: holes, alignment bytes and the end of the section.
- `Symbols`: the symbol passes.
- `Dumper`: the dumps.
- `Pipeline`: the two drivers.

The flag invariant `BytePasses.Grows(a, b, gained)` appears throughout. It says three things:

- the vector keeps its length, and every byte keeps its offset and value;
- no flag is lost;
- every new flag comes from `gained`.

## Model

| member | source | states |
|---|---|---|
| Vectors.Any | src/groundtruth.rs:44-46 | the `iter().any` scan is true exactly when the value is in the sequence |
| Vectors.Dedup | src/parser.rs:119-123 | `dedup` keeps the same elements, never grows, keeps the first element and leaves no two neighbours equal |
| Vectors.DedupAppend | src/parser.rs:119-123 | deduplicating two parts whose boundary elements differ gives the deduplicated parts one after the other. With the first-element clause of `Dedup`, this makes every run of equal neighbours one element and keeps equal elements of different runs |
| Vectors.DedupMergesOnlyNeighbours | src/groundtruth.rs:85 | an example, not a general property: [1, 1, 2, 1] becomes [1, 2, 1]: only neighbours are merged |
| Vectors.DedupKeepsDuplicateFree | src/groundtruth.rs:80-86 | a sequence without neighbouring duplicates is left unchanged by `dedup` |
| Vectors.DedupIdempotent | src/parser.rs:119-123 | running `dedup` twice gives the same result as running it once |
| Vectors.DedupKeepsPrefix | src/groundtruth.rs:80-86 | pushing flags and then deduplicating never disturbs a duplicate-free list that was already there |
| Vectors.SortByKeyCorrect | src/parser.rs:113-117 | the stable sort returns a permutation of its input, ordered by key, with the elements of equal key in their original order |
| Vectors.SortByKey | src/parser.rs:113-117 | the sort keeps the number of elements; `Vectors.SortByKeyCorrect` states that it is the stable sort by key |
| Vectors.DedupSorted | src/parser.rs:113-123 | deduplicating a sorted sequence keeps it sorted |
| Vectors.SortDedup | src/parser.rs:113-123 | sort then dedup gives a sorted sequence, free of neighbouring duplicates, with the same elements as the input |
| Text.ToLower | src/b2g.rs:288 | lower-casing keeps the length, leaves no upper-case letter and keeps every other character |
| Text.Contains | src/b2g.rs:294 | `contains` is true exactly when the needle occurs at some index |
| Text.RemoveAll | src/b2g.rs:291 | `replace(pat, "")` never lengthens the string and changes it exactly when the pattern occurs in it |
| Text.RemoveAllSplitsAtFirst | src/b2g.rs:291 | when the pattern first occurs at index i, the result is the text before i followed by what the pass leaves of the text after that occurrence |
| Text.RemoveAllIsOnePass | src/b2g.rs:291 | an example, not a general property: the removal makes a single pass: "vvecec" becomes "vec", which still contains "vec" |
| GroundTruth.SetFlags | src/groundtruth.rs:80-86 | after push-then-dedup, a flag is present exactly when it was there before or was added; the list has no neighbouring duplicates; a duplicate-free old list is a prefix of the new one |
| GroundTruth.FlagListIsNotASet | src/groundtruth.rs:80-86 | an example, not a general property: because only neighbours are deduplicated, adding CODE to [CODE, DATA] gives [CODE, DATA, CODE] |
| GroundTruth.WithFlags | src/groundtruth.rs:80-86 | `Byte::set_flags` keeps the offset and value and adds exactly the given flags |
| GroundTruth.IsCode | src/groundtruth.rs:44-46 | a byte is code exactly when CODE is in its flags |
| GroundTruth.IsData | src/groundtruth.rs:48-50 | a byte is data exactly when DATA is in its flags |
| GroundTruth.IsAlignment | src/groundtruth.rs:52-54 | a byte is alignment exactly when INSTRUCTION_ALIGNMENT is in its flags |
| GroundTruth.IsInstructionJump | src/groundtruth.rs:56-58 | true exactly when INSTRUCTION_JUMP is in the flags |
| GroundTruth.IsInstructionReturn | src/groundtruth.rs:60-62 | true exactly when INSTRUCTION_RET is in the flags |
| GroundTruth.IsInstructionStart | src/groundtruth.rs:64-66 | true exactly when INSTRUCTION_START is in the flags |
| GroundTruth.IsInstructionInterrupt | src/groundtruth.rs:68-70 | true exactly when INSTRUCTION_INT is in the flags |
| GroundTruth.IsFunctionStart | src/groundtruth.rs:72-74 | true exactly when FUNCTION_START is in the flags |
| GroundTruth.InstructionWithFlags | src/groundtruth.rs:108-114 | `Instruction::set_flags` keeps every other field and adds exactly the given flags, without neighbouring duplicates |
| GroundTruth.InstructionIsAlignment | src/groundtruth.rs:105-107 | an instruction is alignment exactly when INSTRUCTION_ALIGNMENT is in its flags. The source repeats `Byte::is_alignment` for instructions, so this member has the same contract as `GroundTruth.IsAlignment` |
| Parser.AsU64 | src/parser.rs:149-161 | `as u64` gives the value modulo 2^64: non-negative values are unchanged and negative ones wrap around |
| Parser.AsU8 | src/parser.rs:149-161 | `as u8` keeps the low eight bits, so values 0..255 are unchanged |
| Parser.PdbArchitecture | src/parser.rs:126-136 | "x86" gives X86 with base 0x400000; "x64" gives X64; any other machine type gives Unknown; every non-x86 type gets base 0x140000000 |
| Parser.ElfArchitecture | src/parser.rs:285-295 | "ELFCLASS32" gives X86 with base 0x400000; "ELFCLASS64" gives X64; any other class gives Unknown; every non-32-bit class gets base 0x140000000. The source repeats the PDB mapping with the ELF class names, so this member has the same shape of contract as `Parser.PdbArchitecture` |
| Parser.ParseData | src/parser.rs:185-197 | a data symbol starts with size 0; a missing display name becomes "PLACEHOLDER"; offset and segment are converted as the casts do |
| Parser.ParseFunction | src/parser.rs:149-161 | the procedure keeps its name; its offset, segment and code size are cast as `as u64` and `as u8` do, so a non-negative offset or size is unchanged; it has no children yet |
| Parser.ParseThunk | src/parser.rs:164-170 | offset, segment and length are cast as `as u64` and `as u8` do; a non-negative offset or length is unchanged |
| Parser.ParseLabel | src/parser.rs:173-182 | the label keeps its name; its offset and segment are cast as `as u64` and `as u8` do |
| Parser.ThunkFunction | src/parser.rs:82-89 | the function pushed for a thunk is called "<Thunk>", covers exactly the thunk's offset, segment and size, and has no children |
| Parser.Dispatch | src/parser.rs:68-101 | each procedure kind yields one function; S_THUNK32 yields the thunk and its stand-in function; S_LABEL32 one label; the two data kinds one datum; a missing sub-record is an error; any other kind yields nothing |
| Parser.CollectRecords | src/parser.rs:68-104 | the record loop fails exactly when some record lacks the sub-record its kind reads. On success each of the four collections holds exactly the accumulated entries plus those some record yields, and every thunk has its stand-in function |
| Parser.CollectModules | src/parser.rs:62-104 | modules without `Modi` are skipped. The loop fails exactly when some module holds a malformed record. On success functions, labels, data and thunks are each exactly those the records yield |
| Parser.LoadPdb | src/parser.rs:32-146 | a missing TpiStream or DbiStream is an error, in that order. On success every collection is sorted by offset and free of neighbouring duplicates, and holds exactly the functions, labels, data or thunks the records yield. Every thunk has its stand-in function, and architecture and image base follow the machine type |
| Parser.SectionIndices | src/parser.rs:243-246 | the section map holds exactly the section names, each mapped to its last index |
| Parser.ParseElfFunction | src/parser.rs:305-343 | no function when the section, size or value is missing; an error exactly when the section name is unknown; otherwise a function at the symbol's value, with its size, in that section's index, with no children |
| Parser.CollectElfFunctions | src/parser.rs:262-272 | the symbol loop fails exactly when some complete function symbol names an unknown section; on success it collects exactly the functions of the complete `STT_FUNC` entries |
| Parser.LoadElf | src/parser.rs:211-302 | missing `Symbols` is an error; on success the functions are exactly those of the function symbols, sorted by offset and deduplicated, and architecture and image base follow the file class |
| Parser.LoadElfGivesNoChildren | src/parser.rs:305-343 | every function the ELF loader returns has neither child labels nor child data |
| Parser.DuplicateSectionNameLastWins | src/parser.rs:243-246 | an example, not a general property: a section name that occurs twice maps to its later index |
| Disassembler.ModeOf | src/disassembler.rs:47-51 | decoding uses 32-bit mode exactly for X86, and 64-bit mode otherwise |
| Disassembler.GroupFlag | src/disassembler.rs:85-105 | exactly the group ids 1..5 yield a flag, and the flag maps back to its group id |
| Disassembler.GroupTableIsBijective | src/disassembler.rs:15-24 | the group ids 1..5 and the five control-flow flags correspond one to one; no other id yields a flag |
| Disassembler.ApplyGroups | src/disassembler.rs:85-105 | after the group loop a flag is present exactly when it was there before or some group of the instruction maps to it |
| Disassembler.MsvcLeaOperandShape | src/disassembler.rs:112-125 | the operand check accepts exactly `<r or e><stem>, dword ptr [<r or e><stem>]` with the same two-letter lower-case stem on both sides |
| Disassembler.MsvcLeaOperandAccepts | src/disassembler.rs:112-125 | "edi, dword ptr [edi]" and "rsi, dword ptr [esi]" match: the stem repeats, and the prefixes may differ |
| Disassembler.MsvcLeaOperandRejects | src/disassembler.rs:112-125 | "edi, dword ptr [esi]" (another stem) and "edi, qword ptr [edi]" (another size) do not match |
| Disassembler.IsMsvcLeaOperand | src/disassembler.rs:112-125 | the position-by-position operand check; `Disassembler.MsvcLeaOperandShape` states the operands it accepts |
| Disassembler.IsAlignmentInstruction | src/disassembler.rs:107-125 | every `nop` is padding; a `lea` is padding exactly when its operand has the MSVC form; no other mnemonic is |
| Disassembler.BuildInstruction | src/disassembler.rs:70-127 | the instruction keeps the decoder's text, bytes and address, its length is the byte count, its flags are exactly those of its groups plus ALIGNMENT for a `nop` or the MSVC `lea`, and it carries nothing but instruction flags |
| Disassembler.BuildAll | src/disassembler.rs:70-130 | one instruction per decoded instruction, in decoder order |
| Disassembler.DisassembleCapstone | src/disassembler.rs:41-131 | succeeds exactly when the decoder does, in the architecture's mode, and then returns the built instructions; otherwise it returns the fixed error text |
| Disassembler.DisassembleZydis | src/disassembler.rs:133-139 | the Zydis backend always succeeds with no instructions |
| Disassembler.Disassemble | src/disassembler.rs:26-39 | the backend switch: Zydis gives nothing; Capstone succeeds exactly when the decoder does; whatever the backend, instructions carry only instruction flags |
| BytePasses.GrowsTrans | src/b2g.rs:212-235 | two passes that each only add flags compose into one that adds the union of their flags |
| BytePasses.MarkAt | src/groundtruth.rs:80-86 | indexing a byte to set flags panics exactly when the index is out of range; otherwise only that byte changes, and it gains the flags |
| BytePasses.Trim | src/b2g.rs:237-241 | the two drains succeed exactly when start <= end <= length, and leave exactly bytes start..end |
| BytePasses.Rebase | src/b2g.rs:243-248 | byte i gets offset base + i; values, flags and length are unchanged |
| BytePasses.MarkRange | src/b2g.rs:218-221 | the counting loop fails exactly when the range passes the end; otherwise it flags exactly the bytes of the range |
| BytePasses.MarkChildData | src/b2g.rs:217-222 | fails exactly when some child datum passes the end; otherwise exactly the bytes that some child datum covers gain DATA |
| BytePasses.MarkCodeRange | src/b2g.rs:225-233 | a PE body past the end panics while an ELF body stops at the end; the bytes of the body that are not DATA gain CODE and nothing else changes |
| BytePasses.SetFunctionFlags | src/b2g.rs:213-234 | one function: its child data become DATA, then its non-DATA body bytes become CODE; fails exactly when something does not fit |
| BytePasses.SetByteFlags | src/b2g.rs:212-235 | fails exactly when some function does not fit; a byte is DATA exactly when it was or some child data covers it; it is CODE exactly when it was, or it was not DATA and some function claims it before any child data covers it |
| BytePasses.LaterChildDataKeepsCode | src/b2g.rs:212-235 | child data of a later function does not remove CODE set by an earlier one, so a byte can end up both CODE and DATA |
| CodePass.NonDataIndicesSpec | src/b2g.rs:133-148 | the walk's positions are exactly the non-DATA indices of the body within the vector, in increasing order |
| CodePass.Values | src/b2g.rs:147 | the function buffer holds the values at the collected positions, in order |
| CodePass.NonDataIndices | src/b2g.rs:133-148 | every collected position lies in the body and in the vector; `CodePass.NonDataIndicesSpec` states which positions they are |
| CodePass.InstructionFirst | src/b2g.rs:175-187 | an instruction's first byte is never before the function's offset plus the instruction's buffer offset; for ELF it is exactly there |
| CodePass.InstructionLast | src/b2g.rs:185-192 | an instruction's last byte lies length - 1 bytes after its first, so never before it; for ELF it is the function's offset plus the buffer offset plus length - 1 |
| CodePass.BodyWalk | src/b2g.rs:133-148 | a PE body past the end panics and an ELF body stops there; the walk collects exactly the non-DATA body bytes and their values, adds CODE, READABLE and EXECUTABLE to them, and leaves every other byte unchanged |
| CodePass.InlineShift | src/b2g.rs:175-183 | the additional offset never falls below its start value |
| CodePass.InlineShiftFindsByte | src/b2g.rs:170-197 | with one block of child data in the body, the shifted index of every instruction is the byte the decoder was given at that buffer offset |
| CodePass.MarkInstruction | src/b2g.rs:185-198 | fails exactly when the instruction's first or last byte is outside the vector; otherwise the first byte gains INSTRUCTION_START and the instruction's flags, and the last byte gains INSTRUCTION_END |
| CodePass.MarkInstructions | src/b2g.rs:169-204 | succeeds exactly when every instruction fits, and then every instruction is marked |
| CodePass.MarkEnds | src/b2g.rs:150-154 | fails exactly when the entry byte or the last body byte lies outside the vector; otherwise it adds only FUNCTION_START on the entry byte and FUNCTION_END on the last body byte |
| CodePass.AfterBodyWalk | src/b2g.rs:150-205 | succeeds exactly when both ends lie in the vector, the decoder accepts the buffer and every built instruction fits. On success the ends are marked, the instructions are exactly the ones built from the decoder's output, and each carries INSTRUCTION_START and its flags on its first byte and INSTRUCTION_END on its last. Only function, instruction and instruction-group flags are added |
| CodePass.DisassembleFunction | src/b2g.rs:129-206 | succeeds exactly when an ELF body reaches past the end (which stops the pass) or the body fits and decodes with every instruction inside the vector. A PE function past the end is an error. Only the pass's flags are added, a new CODE flag goes only on a byte that was not DATA, and when the pass goes on every returned instruction is marked |
| CodePass.DisassemblePass | src/b2g.rs:129-206 | succeeds exactly when every function before the first ELF stop fits and decodes. The instructions are those of each such function in order, and a PE body past the end is an error. Only the pass's flags are added, and CODE never lands on a byte that was DATA. When every body fits, each function's entry and last byte carry FUNCTION_START and FUNCTION_END, and every instruction is marked |
| CodePass.ElfStopSkipsLaterFunctions | src/b2g.rs:632-640 | an ELF function that reaches past the vector ends the pass: the later functions make no difference and no instruction is kept |
| CodePass.SingleBlockPositions | src/b2g.rs:133-148 | with one DATA block inside the body, the positions are the body before the block followed by the body after it |
| Alignment.HolesAreMaximalRuns | src/b2g.rs:471-501 | every hole is a run of flagless bytes that cannot be extended, with size equal to its length; its start is the run's first index, except for a trailing hole, whose start is one lower |
| Alignment.HolesAreOrdered | src/b2g.rs:471-501 | holes come in increasing order, separated by at least one flagged byte |
| Alignment.HolesCoverFlaglessBytes | src/b2g.rs:471-501 | every flagless byte lies in some hole |
| Alignment.HoleSizesCountFlaglessBytes | src/b2g.rs:471-501 | the hole sizes add up to the number of flagless bytes |
| Alignment.Holes | src/b2g.rs:471-501 | every reported hole covers at least one byte and ends inside the vector |
| Alignment.HoleScan | src/b2g.rs:477-498 | every hole the scan closes covers at least one byte and ends inside the vector |
| Alignment.HoleInstructionsInHole | src/b2g.rs:439-450 | with a decoder that stays in its buffer, every instruction decoded from a hole lies within the hole |
| Alignment.TrailingHoleStartsOneEarly | src/b2g.rs:491-498 | an example, not a general property: a trailing hole records its start one byte early: after a code byte, a flagless last byte gives Hole(0, 1, 1) |
| Alignment.FlaglessVectorStartsBeforeVector | src/b2g.rs:491-498 | when no byte has a flag, the single hole starts at -1, which is an underflow in the source |
| Alignment.HoleStartBelowZero | src/b2g.rs:491-498 | some hole starts below zero exactly when the vector is non-empty and no byte has a flag |
| Alignment.MarkInt3 | src/b2g.rs:425-437 | a byte gains ALIGNMENT exactly when it is 0xCC and neither CODE nor DATA; nothing else changes |
| Alignment.MarkPadding | src/b2g.rs:446-465 | succeeds exactly when every alignment instruction fits in the vector. On success a byte has ALIGNMENT exactly when it had it before or some alignment instruction covers it, and no other byte or flag changes |
| Alignment.AlignHole | src/b2g.rs:439-468 | a hole whose slice is out of range panics, and a decoder failure ends the program. The hole succeeds exactly when its slice is valid, it decodes and its padding fits. On success a byte has ALIGNMENT exactly when it had it or a padding instruction decoded from the hole covers it. If the decoder stays within its buffer, only bytes in start..end change |
| Alignment.AlignHoles | src/b2g.rs:439-468 | succeeds exactly when every hole aligns. On success a byte has ALIGNMENT exactly when it had it or a padding instruction decoded from some hole covers it. Only ALIGNMENT is added, and with a decoder that stays in its buffer only inside holes |
| Alignment.DetectAlignment | src/b2g.rs:425-469 | succeeds exactly when every hole of the 0xCC-marked vector aligns. On success a byte has ALIGNMENT exactly when it had it, or it is 0xCC and neither CODE nor DATA, or a padding instruction decoded from a hole covers it. CODE and DATA are exactly as before |
| Alignment.GrowsKeepsOtherFlags | src/b2g.rs:425-469 | a flag the pass cannot add is present afterwards exactly when it was present before |
| Alignment.UnclassifiedVectorFaults | src/b2g.rs:439-498 | a non-empty vector with no flags and no 0xCC byte makes the alignment pass fail, through the hole that starts at -1 |
| Alignment.FreeTail | src/b2g.rs:404-423 | the longest suffix without CODE or DATA: all of it is unclaimed, and the byte before it is claimed |
| Alignment.EndOfSection | src/b2g.rs:404-423 | the result is a prefix of the input, and every removed byte is neither CODE nor DATA |
| Alignment.ScanFreeTail | src/b2g.rs:404-423 | the size the reverse loop returns is the vector's length less the number of 0x00 bytes in the unclaimed tail |
| Alignment.DetectEndOfSection | src/b2g.rs:404-423 | the reverse loop removes as many bytes as there are 0x00 bytes in the unclaimed tail |
| Alignment.ZeroTailIsRemoved | src/b2g.rs:404-423 | when the unclaimed tail is all 0x00, exactly the tail is removed |
| Alignment.EndOfSectionCutsByCount | src/b2g.rs:404-423 | an example, not a general property: the pass counts zeros but cuts from the end, so a trailing 0xCC is removed in place of a zero before it |
| Symbols.RetainNonEmpty | src/b2g.rs:208-210 | keeps exactly the functions of non-zero size. The length is kept exactly when all of them are non-empty. `Symbols.RetainNonEmptyAppend` states the order |
| Symbols.RetainNonEmptyAppend | src/b2g.rs:208-210 | filtering a concatenation filters each part and keeps the parts in order, so the kept functions keep their order and multiplicity |
| Symbols.RetainNonEmptyIdempotent | src/b2g.rs:208-210 | filtering twice gives the same result as filtering once |
| Symbols.PreprocessFunctions | src/b2g.rs:208-210 | only the function list changes, and it keeps exactly the non-empty functions |
| Symbols.PreprocessKeepsOrder | src/b2g.rs:208-210 | splitting the function list anywhere, the kept functions of the first part come before those of the second |
| Symbols.LabelsInside | src/b2g.rs:309-322 | a label is selected exactly when it is in the segment and strictly inside the body |
| Symbols.DataInside | src/b2g.rs:325-336 | a data symbol is selected exactly when it is in the segment and strictly inside the body |
| Symbols.Attach | src/b2g.rs:307-337 | the old children stay as a prefix; the appended children are exactly the symbols strictly inside the body; nothing else changes |
| Symbols.CreateRelationships | src/b2g.rs:305-338 | every function is attached against the complete symbol lists, and only the functions change |
| Symbols.EntryIsNeverAChild | src/b2g.rs:317-318 | a symbol at a function's entry point is never attached to that function |
| Symbols.CutEndScanSize | src/b2g.rs:252-270 | the cut size stays positive exactly when the old one was, lies at or before every unnamed datum after the entry point, and is either the old size or the distance to one of those data |
| Symbols.CutEndScanData | src/b2g.rs:252-270 | only data sizes change; a changed datum was unnamed, starts between the new and the old end, and reaches at most to the old end |
| Symbols.CutEndScan | src/b2g.rs:252-270 | the scan keeps the number of data and never grows the size |
| Symbols.CutEnd | src/b2g.rs:250-272 | the size never grows and stays positive. The new end is the old end or the start of an unnamed datum, and no unnamed datum inside the body starts before it. Named data are untouched. Each changed datum is unnamed, starts between the new and the old end, and reaches at most the old end |
| Symbols.CutEndSingleDatum | src/b2g.rs:250-272 | with one unnamed datum inside the body, the function ends where the datum starts, and the datum runs to the old end |
| Symbols.CutInLineDataEnd | src/b2g.rs:250-272 | each function is cut, and only the functions change |
| Symbols.AscendingDataIsCutOnce | src/b2g.rs:259-269 | an example, not a general property: with two unnamed data in ascending order, the second lies outside the already cut body and keeps size 0 |
| Symbols.CountMatches | src/b2g.rs:293-297 | the count is at most the number of labels. It is 0 exactly when no label matches, and all of them exactly when every label does. `Symbols.CountMatchesCountsLabels` gives the exact count |
| Symbols.CountMatchesCountsLabels | src/b2g.rs:285-297 | the count is exactly the number of labels whose lower-case name contains the base name |
| Symbols.SizeJumpTable | src/b2g.rs:277-300 | only the size of a datum changes, and unnamed data are untouched. A named datum gets four bytes per label whose lower-case name contains its base name |
| Symbols.JumpTableSize | src/b2g.rs:285-300 | a named datum's size is four times the number of labels whose lower-case name contains its base name. It is at most 4 per label, and 0 exactly when no label matches |
| Symbols.JumpTableEmpty | src/b2g.rs:285-300 | a named datum's table is at most 4 bytes per label, and empty exactly when no label name contains its base name |
| Symbols.CutMid | src/b2g.rs:274-303 | only the data sizes change, each sized against the function's labels |
| Symbols.CutInLineDataMid | src/b2g.rs:274-303 | each function is cut, and only the functions change |
| Symbols.VecNameCountsEveryLabel | src/b2g.rs:288-296 | a datum named "Vec" has an empty base name, so every label matches and its size is 4 per label |
| Symbols.SizedThenCut | src/b2g.rs:250-303 | sizing the data first and then cutting the end gives the cut of the sized head followed by the sized rest |
| Symbols.CutThenSized | src/b2g.rs:250-303 | cutting the end first and then sizing the data gives the same head-and-rest shape |
| Symbols.CutsCommute | src/b2g.rs:250-303 | the end cut and the middle cut touch disjoint data, so either order gives the same function |
| Symbols.CutKeepsFunctionsNonEmpty | src/b2g.rs:97-107 | after filtering, attaching and both cuts, every function still has positive size |
| Dumper.FlagLetters | src/dumper.rs:49-74 | the letters a code byte shows before its C: each of F, N, J, 3, R and I appears exactly when its flag is set, and they appear in that order. C, D and U are not among them |
| Dumper.RunLength | src/dumper.rs:82-150 | a line extends over bytes that continue its kind, and stops at the first byte that does not |
| Dumper.KindOf | src/dumper.rs:46-139 | a line's kind is code for a CODE byte, else data for a DATA byte, else alignment for an ALIGNMENT byte, else unknown |
| Dumper.NextStart | src/dumper.rs:82-150 | the next line starts after at least one byte; every byte before it continues the line's kind, and the byte at it does not |
| Dumper.LineAt | src/dumper.rs:44-150 | a line shows the address of its first byte plus the image base. Its text is that byte's letters in brackets followed by one letter for each further byte before the next line start |
| Dumper.ByteLines | src/dumper.rs:40-154 | there are no more lines than bytes, and none only when no byte is left. The first line shows the byte's offset plus the image base. `Dumper.ByteLinesAt` states every line |
| Dumper.LineStarts | src/dumper.rs:40-154 | the line starts from index i: i first, then each start right after the run of the one before, the last run reaching the end of the bytes |
| Dumper.ByteLinesAt | src/dumper.rs:40-154 | there is one line per line start, and line k is the line at the k-th start, showing that byte's offset plus the image base |
| Dumper.LineSpans | src/dumper.rs:40-154 | every line covers at least one byte, and together the lines cover every byte exactly once |
| Dumper.LettersCountKinds | src/dumper.rs:40-154 | for code, data and unknown, the number of C, D or U letters equals the number of bytes of that kind |
| Dumper.InstructionStartBeginsLine | src/dumper.rs:82-96 | an example, not a general property: a byte that starts an instruction always starts a new line, even inside a code run: the example `push`, body byte, `ret` gives two lines, at 0x400000 and 0x400002 |
| Dumper.PlainDump | src/dumper.rs:24-160 | two header lines per section, led by the first section's banner and summary, plus one line per run for every `.text` section. `Dumper.PlainDumpLayout` states where each section's lines go |
| Dumper.PlainDumpLayout | src/dumper.rs:32-157 | section k gets its banner and summary at its offset, followed by the byte lines exactly when it is called `.text`; the next section begins right after |
| Dumper.PlainDumpEnds | src/dumper.rs:32-157 | the dump ends right after the last section's lines |
| Dumper.IdentifiedAndFlagless | src/dumper.rs:203-204 | identified bytes and flagless bytes add up to the total |
| Dumper.Identified | src/dumper.rs:203-204 | the number of identified bytes is at most the number of bytes |
| Dumper.IdentifiedIsOutsideHoles | src/dumper.rs:203-204 | the identified bytes are exactly the bytes outside the holes |
| Pipeline.ReadBytes | src/pe.rs:60-68 | byte i of the file becomes a byte at offset i with the file's value and no flags |
| Pipeline.FindText | src/b2g.rs:80-86 | none exactly when no section is called ".text"; otherwise the first such section |
| Pipeline.LateStagesKeep | src/b2g.rs:115-119 | the passes after the byte flags add no DATA flag and end of section only cuts the tail, so the layout and the DATA bytes survive |
| Pipeline.FlagsOnFreshVector | src/b2g.rs:212-240 | on a vector without flags, a byte ends up DATA exactly when some function's child data covers it |
| Pipeline.PeText | src/b2g.rs:88-95 | an index error exactly when the section reaches past the end of the file; otherwise exactly the section's bytes, byte i at 0x1000 plus i holding the file's byte at the section offset plus i, with no flags |
| Pipeline.PeFunctions | src/b2g.rs:97-107 | every function left after the filter, the relationships and both cuts has a non-empty body |
| Pipeline.FlagAndDisassemble | src/b2g.rs:109-113 | succeeds exactly when every function's child data and (PE) body fit and the disassembly pass succeeds on the flagged vector. The instructions are those of the pass. On success the bytes keep their number and layout, and a byte is DATA exactly when some function's child data covers it |
| Pipeline.PreparePe | src/b2g.rs:88-113 | succeeds exactly when the section lies inside the file and the flag and disassembly passes succeed. On success there are exactly the section's raw size of bytes at 0x1000 plus their index, DATA comes exactly from child data, and all functions are non-empty |
| Pipeline.HoleStatistics | src/b2g.rs:380-385 | the debug print's hole count (the ELF driver repeats it at lines 772-777) fails with an index error exactly when the vector is non-empty and no byte has a flag; otherwise it yields the number of bytes with a flag |
| Pipeline.FinishText | src/b2g.rs:115-126 | succeeds exactly when the alignment pass succeeds and the cut section is not a non-empty vector without any flag; after a successful alignment pass every failure is the debug print's index error. On success the bytes are exactly the aligned bytes cut at the end of the section, so at most as many, with the same CODE bytes, the same layout and the same DATA bytes. The functions and instructions pass through, and the dump is exactly the plain dump of the sections over the final bytes, with two lines per section plus the text lines |
| Pipeline.CutOutLaidOut | src/b2g.rs:605-612 | cutting a vector laid out at its file offsets and rebasing it puts byte i at the base plus i, holding the file's byte at the cut's start plus i |
| Pipeline.ElfCutOut | src/b2g.rs:605-612 | after the cut, exactly the section's raw size of bytes; byte i is DATA exactly when child data covers file offset start plus i |
| Pipeline.DisassembleElf | src/b2g.rs:596-603 | the flag and disassembly passes on the whole file succeed exactly when the ELF conditions hold; the result is the reference disassembly, laid out at file offsets, with DATA exactly from child data |
| Pipeline.PrepareElf | src/b2g.rs:596-612 | succeeds exactly when the flag and disassembly passes succeed on the whole file and the section lies inside it. The bytes and instructions are those of the passes, cut to the section and rebased. Exactly its raw size of bytes sit at its address plus their index, holding the file's bytes, DATA comes from child data at file offsets, and the functions are the non-empty ones of the dump |
| Pipeline.ProcessPe | src/b2g.rs:78-127 | no text section ends the program. Otherwise the run succeeds exactly when the section lies in the file, the flag, disassembly and alignment passes succeed, and the cut section keeps some flag. Its instructions are those of the disassembly pass, and its bytes are exactly the disassembled section after the alignment pass, cut at the end of the section. On success the bytes are at most the section's raw size, each at 0x1000 plus its index, holding the file's byte there. A byte is DATA exactly when some function's child data covers it, the functions are exactly the PDB functions after the four symbol passes, all non-empty, and the dump is exactly the plain dump of the sections over the final bytes, with two lines per section plus the text lines |
| Pipeline.ProcessElf | src/b2g.rs:581-626 | no text section ends the program. Otherwise the run succeeds exactly when the passes on the whole file succeed, the section lies in the file, the alignment pass succeeds and the cut section keeps some flag. Its instructions are those of the disassembly pass, and its bytes are exactly the cut-out, rebased section after the alignment pass, cut at the end of the section. On success the bytes sit at the section's address plus their index, holding the file's bytes. A byte is DATA exactly when child data covers its file offset, so never when the dump's functions have no child data. The functions are exactly the non-empty ones of the dump, in order, and the dump is exactly the plain dump of the sections over the final bytes, with two lines per section plus the text lines |
| Pipeline.ElfWithoutChildDataHasNoData | src/parser.rs:305-343 | every function the ELF loader returns has no child data, so no non-empty function covers any position; with `Pipeline.ProcessElf`, no byte of an ELF run on a loaded dump is DATA |

## Left out

- Reading files, loading YAML text, goblin's header parsing and writing dumps are left out. This is I/O and foreign code. The loaders start from a typed document, and the drivers take the file's bytes and section table as parameters.
- The YAML dump's timestamp and its floating-point `accuracy` are left out, because they depend on the clock and on floating-point arithmetic. Its byte counts are modelled in `Dumper.Identified`.
- Hexadecimal formatting of the plain dump is left out: lines are modelled as address and flag-string values.
- The debug print and the logging are left out, because they only write to the console. The exception is the debug print's call to `detect_holes`, which runs whatever the log level and can fail; it is modelled in `Pipeline.HoleStatistics`.
- The command line in main.rs is left out.
- The decoding library is left out; it is a parameter. Its results are not assumed to lie within the buffer, except where a contract names `Alignment.DecoderStaysInBuffer`.
- `get_flags` is modelled as reading the `flags` field.
- Text.ToLower: only ASCII letters are lower-cased; Unicode case mapping is left out.
- Arithmetic is on unbounded integers. The u64 wrap-around of symbol offsets is modelled in `Parser.AsU64`. An overflow of additions such as `offset + size` past 2^64 is not modelled.
- Some YAML fields that the loaders `unwrap` are mandatory fields of the model's document datatypes, so their panic is not modelled. For a PDB these are the DBI `Modules` list, the `Records` list of a present `Modi`, each record's `Kind`, the `MachineType`, and the fields inside a present sub-record. For an ELF dump they are the `Sections` list with each section's `Name`, each symbol's `Name` and the `FileHeader`'s `Class`. A document without one of these cannot be written in the model.
- The loop over the TpiStream records is left out: it collects nothing. Its panic when `Records` is missing is not modelled.
- CodePass.InlineShift: its contract states only a lower bound. That the shifted index finds the right byte is proved only for a body with one data block (`CodePass.InlineShiftFindsByte`), which is also the case the source handles.
- Dumper.LettersCountKinds: does not count the N letter. A code byte that is also alignment shows N inside a code line, so N letters do not match alignment bytes one to one.
- Alignment.AlignHole: only the claim that changes stay inside the hole depends on the decoder. It holds when the decoder never reports an instruction beyond its buffer; the success condition and the ALIGNMENT flags are stated for any decoder.
- Pipeline.ProcessPe: states the final bytes as the alignment pass's output cut at the end of the section, through `Pipeline.Finished`. It does not restate each final byte's CODE and ALIGNMENT flags; they follow from the contracts of `Alignment.DetectAlignment` and `CodePass.DisassemblePass` on the arguments `Pipeline.Finished` names.
- Pipeline.ProcessElf: the same scope as `Pipeline.ProcessPe`.
- CodePass.DisassemblePass: the function and instruction marks are stated only when every function body fits in the vector. An ELF function past the end stops the pass, and the functions after it are not marked.

=== FILE: alignment.dfy ===
/** The passes that run after the code is known: finding the runs of
    unclassified bytes (`detect_holes`), marking padding (`detect_alignment_bytes`)
    and cutting the zero tail of the section (`detect_end_of_section`). */
module Alignment {
  import opened Wrappers
  import opened Vectors
  import opened GroundTruth
  import opened BytePasses
  import opened Disassembler

  /** A byte with no flag at all. */
  predicate Flagless(b: Byte) {
    |b.flags| == 0
  }

  /** The first byte a hole really covers: `end` is its last byte and it
      has `size` bytes. */
  function FirstIndex(h: Hole): int {
    h.end + 1 - h.size
  }

  /** Bytes `lo ..= hi` are flagless and the run cannot be extended on
      either side. */
  ghost predicate MaximalRun(bytes: seq<Byte>, lo: int, hi: int) {
    && 0 <= lo <= hi < |bytes|
    && (forall k :: lo <= k <= hi ==> Flagless(bytes[k]))
    && (lo == 0 || !Flagless(bytes[lo - 1]))
    && (hi == |bytes| - 1 || !Flagless(bytes[hi + 1]))
  }

  /** The state of the scan before index `i`: the last `run` bytes are
      flagless and the byte before them (if any) is not. */
  ghost predicate RunBefore(bytes: seq<Byte>, i: nat, run: nat) {
    && run <= i <= |bytes|
    && (forall k :: i - run <= k < i ==> Flagless(bytes[k]))
    && (i - run == 0 || !Flagless(bytes[i - run - 1]))
  }

  /** The loop of `detect_holes` from index `i` on, with `run` flagless
      bytes seen just before `i`. A run ended by a flagged byte becomes
      `Hole(offset - size, offset - 1, size)`; a run reaching the end of the
      vector becomes `Hole(len - 1 - size, len - 1, size)`, whose start is
      one less than the first byte of the run. */
  function HoleScan(bytes: seq<Byte>, i: nat, run: nat): (r: seq<Hole>)
    requires run <= i <= |bytes|
    ensures forall h :: h in r ==> 1 <= h.size && h.end < |bytes|
    decreases |bytes| - i
  {
    if i == |bytes| then
      if run > 0 then [Hole(|bytes| - 1 - run, |bytes| - 1, run)] else []
    else if Flagless(bytes[i]) then
      HoleScan(bytes, i + 1, run + 1)
    else
      (if run > 0 then [Hole(i - run, i - 1, run)] else []) + HoleScan(bytes, i + 1, 0)
  }

  /** `detect_holes`: every hole it reports covers at least one byte and
      ends inside the vector. */
  function Holes(bytes: seq<Byte>): (r: seq<Hole>)
    ensures forall h :: h in r ==> 1 <= h.size && h.end < |bytes|
  {
    HoleScan(bytes, 0, 0)
  }

  /** The start the scan records: the first byte of the run, except for a
      run that reaches the end of the vector, whose start is one byte early. */
  ghost predicate StartAsRecorded(bytes: seq<Byte>, h: Hole) {
    h.start == FirstIndex(h) - (if h.end == |bytes| - 1 then 1 else 0)
  }

  lemma {:induction false} HoleScanSound(bytes: seq<Byte>, i: nat, run: nat)
    requires RunBefore(bytes, i, run)
    ensures forall h :: h in HoleScan(bytes, i, run) ==>
      && h.size >= 1
      && MaximalRun(bytes, FirstIndex(h), h.end)
      && StartAsRecorded(bytes, h)
      && FirstIndex(h) >= i - run
    decreases |bytes| - i
  {
    if i == |bytes| {
      if run > 0 {
        ClosedRunSound(bytes, i, run, Hole(|bytes| - 1 - run, |bytes| - 1, run));
      }
    } else if Flagless(bytes[i]) {
      RunBeforeStep(bytes, i, run);
      HoleScanSound(bytes, i + 1, run + 1);
      assert HoleScan(bytes, i, run) == HoleScan(bytes, i + 1, run + 1);
    } else {
      RunBeforeStep(bytes, i, run);
      HoleScanSound(bytes, i + 1, 0);
      var pending := if run > 0 then [Hole(i - run, i - 1, run)] else [];
      assert HoleScan(bytes, i, run) == pending + HoleScan(bytes, i + 1, 0);
      if run > 0 {
        ClosedRunSound(bytes, i, run, pending[0]);
      }
    }
  }

  /** The hole the scan records when a run ends, at a flagged byte or at the
      end of the vector, is that run. */
  lemma ClosedRunSound(bytes: seq<Byte>, i: nat, run: nat, h: Hole)
    requires RunBefore(bytes, i, run) && run > 0
    requires i == |bytes| || !Flagless(bytes[i])
    requires h == if i == |bytes| then Hole(|bytes| - 1 - run, |bytes| - 1, run) else Hole(i - run, i - 1, run)
    ensures h.size >= 1 && MaximalRun(bytes, FirstIndex(h), h.end) && StartAsRecorded(bytes, h)
    ensures FirstIndex(h) >= i - run
  {
    assert FirstIndex(h) == i - run && h.end == i - 1;
  }

  /** Every hole is a maximal run of flagless bytes (from `FirstIndex` to
      `end`), and its recorded start is the run's first byte except for the
      run at the end of the vector, where it is one byte earlier. */
  lemma HolesAreMaximalRuns(bytes: seq<Byte>)
    ensures forall h :: h in Holes(bytes) ==>
      h.size >= 1 && MaximalRun(bytes, FirstIndex(h), h.end) && StartAsRecorded(bytes, h)
  {
    HoleScanSound(bytes, 0, 0);
  }

  /** Consecutive holes are separated by at least one flagged byte. */
  ghost predicate Ordered(holes: seq<Hole>) {
    forall a, b :: 0 <= a < b < |holes| ==> holes[a].end + 1 < FirstIndex(holes[b])
  }

  lemma OrderedCons(h: Hole, rest: seq<Hole>)
    requires Ordered(rest)
    requires forall x :: x in rest ==> h.end + 1 < FirstIndex(x)
    ensures Ordered([h] + rest)
  {
    var holes := [h] + rest;
    forall a, b | 0 <= a < b < |holes| ensures holes[a].end + 1 < FirstIndex(holes[b]) {
      assert holes[b] == rest[b - 1];
      if a > 0 {
        assert holes[a] == rest[a - 1];
      }
    }
  }

  lemma {:induction false} HoleScanOrdered(bytes: seq<Byte>, i: nat, run: nat)
    requires RunBefore(bytes, i, run)
    ensures Ordered(HoleScan(bytes, i, run))
    decreases |bytes| - i
  {
    if i < |bytes| {
      RunBeforeStep(bytes, i, run);
      if Flagless(bytes[i]) {
        HoleScanOrdered(bytes, i + 1, run + 1);
        assert HoleScan(bytes, i, run) == HoleScan(bytes, i + 1, run + 1);
      } else {
        HoleScanOrdered(bytes, i + 1, 0);
        HoleScanStartsAfter(bytes, i + 1);
        HoleScanOrderedStep(bytes, i, run);
      }
    } else {
      assert |HoleScan(bytes, i, run)| <= 1;
    }
  }

  /** One step of the scan keeps its state: a flagless byte extends the
      run, a flagged one starts a new, empty run after it. */
  lemma RunBeforeStep(bytes: seq<Byte>, i: nat, run: nat)
    requires RunBefore(bytes, i, run) && i < |bytes|
    ensures Flagless(bytes[i]) ==> RunBefore(bytes, i + 1, run + 1)
    ensures !Flagless(bytes[i]) ==> RunBefore(bytes, i + 1, 0)
  {
  }

  /** At a flagged byte the scan records the pending run, if any, in front
      of the holes that start after the byte. */
  lemma {:induction false} HoleScanOrderedStep(bytes: seq<Byte>, i: nat, run: nat)
    requires run <= i < |bytes| && !Flagless(bytes[i])
    requires Ordered(HoleScan(bytes, i + 1, 0))
    requires forall h :: h in HoleScan(bytes, i + 1, 0) ==> FirstIndex(h) >= i + 1
    ensures Ordered(HoleScan(bytes, i, run))
  {
    var rest := HoleScan(bytes, i + 1, 0);
    var pending := if run > 0 then [Hole(i - run, i - 1, run)] else [];
    assert HoleScan(bytes, i, run) == pending + rest;
    PendingBeforeRest(pending, rest, i, run);
  }

  /** A pending run that ends just before byte `i`, put in front of ordered
      holes that start after `i`, keeps the holes ordered. */
  lemma PendingBeforeRest(pending: seq<Hole>, rest: seq<Hole>, i: nat, run: nat)
    requires run <= i
    requires pending == if run > 0 then [Hole(i - run, i - 1, run)] else []
    requires Ordered(rest)
    requires forall h :: h in rest ==> FirstIndex(h) >= i + 1
    ensures Ordered(pending + rest)
  {
    if run > 0 {
      OrderedCons(pending[0], rest);
    } else {
      assert pending + rest == rest;
    }
  }

  /** A scan that starts at `i` with no run records only holes from `i` on. */
  lemma HoleScanStartsAfter(bytes: seq<Byte>, i: nat)
    requires RunBefore(bytes, i, 0)
    ensures forall h :: h in HoleScan(bytes, i, 0) ==> FirstIndex(h) >= i
  {
    HoleScanSound(bytes, i, 0);
  }

  /** The holes come in increasing order, with at least one flagged byte
      between consecutive holes. */
  lemma HolesAreOrdered(bytes: seq<Byte>)
    ensures Ordered(Holes(bytes))
  {
    HoleScanOrdered(bytes, 0, 0);
  }

  lemma {:induction false} HoleScanComplete(bytes: seq<Byte>, i: nat, run: nat)
    requires RunBefore(bytes, i, run)
    ensures forall k :: i - run <= k < |bytes| && Flagless(bytes[k]) ==>
      exists h :: h in HoleScan(bytes, i, run) && FirstIndex(h) <= k <= h.end
    decreases |bytes| - i
  {
    if i == |bytes| {
      if run > 0 {
        assert Hole(|bytes| - 1 - run, |bytes| - 1, run) in HoleScan(bytes, i, run);
      }
    } else if Flagless(bytes[i]) {
      HoleScanComplete(bytes, i + 1, run + 1);
    } else {
      HoleScanComplete(bytes, i + 1, 0);
      var rest := HoleScan(bytes, i + 1, 0);
      var holes := HoleScan(bytes, i, run);
      forall k | i - run <= k < |bytes| && Flagless(bytes[k])
        ensures exists h :: h in holes && FirstIndex(h) <= k <= h.end
      {
        if k < i {
          assert Hole(i - run, i - 1, run) in holes;
        } else {
          var h :| h in rest && FirstIndex(h) <= k <= h.end;
          assert h in holes;
        }
      }
    }
  }

  /** Every flagless byte lies in some hole. */
  lemma HolesCoverFlaglessBytes(bytes: seq<Byte>)
    ensures forall k :: 0 <= k < |bytes| && Flagless(bytes[k]) ==>
      exists h :: h in Holes(bytes) && FirstIndex(h) <= k <= h.end
  {
    HoleScanComplete(bytes, 0, 0);
  }

  function SumSizes(holes: seq<Hole>): nat {
    if |holes| == 0 then 0 else holes[0].size + SumSizes(holes[1..])
  }

  function FlaglessCount(bytes: seq<Byte>): nat {
    if |bytes| == 0 then 0 else (if Flagless(bytes[0]) then 1 else 0) + FlaglessCount(bytes[1..])
  }

  lemma {:induction false} SumSizesConcat(a: seq<Hole>, b: seq<Hole>)
    ensures SumSizes(a + b) == SumSizes(a) + SumSizes(b)
    decreases |a|
  {
    if |a| == 0 {
      assert a + b == b;
    } else {
      assert (a + b)[0] == a[0];
      assert (a + b)[1..] == a[1..] + b;
      SumSizesConcat(a[1..], b);
    }
  }

  lemma {:induction false} HoleScanSizes(bytes: seq<Byte>, i: nat, run: nat)
    requires run <= i <= |bytes|
    ensures SumSizes(HoleScan(bytes, i, run)) == run + FlaglessCount(bytes[i..])
    decreases |bytes| - i
  {
    if i < |bytes| {
      assert bytes[i..][1..] == bytes[i + 1..];
      if Flagless(bytes[i]) {
        HoleScanSizes(bytes, i + 1, run + 1);
      } else {
        HoleScanSizes(bytes, i + 1, 0);
        var prefix := if run > 0 then [Hole(i - run, i - 1, run)] else [];
        SumSizesConcat(prefix, HoleScan(bytes, i + 1, 0));
      }
    }
  }

  /** The hole sizes add up to the number of flagless bytes: the statistics
      line "identified bytes = len - sum of hole sizes" counts exactly the
      bytes with at least one flag. */
  lemma HoleSizesCountFlaglessBytes(bytes: seq<Byte>)
    ensures SumSizes(Holes(bytes)) == FlaglessCount(bytes)
  {
    HoleScanSizes(bytes, 0, 0);
    assert bytes[0..] == bytes;
  }

  /** A flagless last byte after a flagged one: the hole covers only byte 1,
      yet its start is recorded as 0, the flagged byte. */
  lemma TrailingHoleStartsOneEarly()
    ensures Holes([Byte(0, 0x90, [Code]), Byte(1, 0, [])]) == [Hole(0, 1, 1)]
  {
  }

  /** When no byte has a flag, the trailing hole's start is -1: the unsigned
      subtraction underflows in the original. */
  lemma {:induction false} FlaglessVectorStartsBeforeVector(bytes: seq<Byte>)
    requires |bytes| > 0
    requires forall k :: 0 <= k < |bytes| ==> Flagless(bytes[k])
    ensures Holes(bytes) == [Hole(-1, |bytes| - 1, |bytes|)]
  {
    FlaglessScan(bytes, 0);
  }

  /** No byte of a non-empty vector has a flag. */
  predicate Unclassified(bytes: seq<Byte>) {
    |bytes| > 0 && forall k :: 0 <= k < |bytes| ==> Flagless(bytes[k])
  }

  /** `detect_holes` computes a start below zero, an underflow of its
      unsigned subtraction, exactly when no byte of a non-empty vector has a
      flag. */
  lemma HoleStartBelowZero(bytes: seq<Byte>)
    ensures (exists h :: h in Holes(bytes) && h.start < 0) <==> Unclassified(bytes)
  {
    if Unclassified(bytes) {
      FlaglessVectorStartsBeforeVector(bytes);
      assert Hole(-1, |bytes| - 1, |bytes|) in Holes(bytes);
    }
    if h :| h in Holes(bytes) && h.start < 0 {
      HolesAreMaximalRuns(bytes);
      assert MaximalRun(bytes, FirstIndex(h), h.end) && StartAsRecorded(bytes, h);
      assert FirstIndex(h) == 0 && h.end == |bytes| - 1;
    }
  }

  lemma {:induction false} FlaglessScan(bytes: seq<Byte>, i: nat)
    requires i <= |bytes| && |bytes| > 0
    requires forall k :: 0 <= k < |bytes| ==> Flagless(bytes[k])
    ensures HoleScan(bytes, i, i) == [Hole(-1, |bytes| - 1, |bytes|)]
    decreases |bytes| - i
  {
    if i < |bytes| {
      FlaglessScan(bytes, i + 1);
    }
  }

  // ------------------------------------------------------------ alignment

  /** The first loop of `detect_alignment_bytes`: every 0xCC (`int3`) byte
      that is neither CODE nor DATA gets INSTRUCTION_ALIGNMENT. */
  function MarkInt3(bytes: seq<Byte>): (r: seq<Byte>)
    ensures Grows(bytes, r, {InstructionAlignment})
    ensures forall i :: 0 <= i < |bytes| ==>
      (InstructionAlignment in r[i].flags <==>
         InstructionAlignment in bytes[i].flags
         || (bytes[i].value == 0xCC && Code !in bytes[i].flags && Data !in bytes[i].flags))
  {
    seq(|bytes|, i requires 0 <= i < |bytes| =>
      if !IsCode(bytes[i]) && !IsData(bytes[i]) && bytes[i].value == 0xCC
      then WithFlags(bytes[i], [InstructionAlignment])
      else bytes[i])
  }

  /** The decoder never reports an instruction reaching past its buffer. */
  ghost predicate DecoderStaysInBuffer(decode: Decoder) {
    forall m, buffer :: decode(m, buffer).Some? ==>
      forall raw :: raw in decode(m, buffer).value ==> raw.address + |raw.bytes| <= |buffer|
  }

  /** Every alignment instruction of `insns`, placed at `start`, lies
      inside a vector of `n` bytes (an empty one always does). */
  ghost predicate PaddingFits(n: nat, start: nat, insns: seq<Instruction>) {
    forall insn :: insn in insns && InstructionIsAlignment(insn) ==>
      insn.length == 0 || start + insn.offset + insn.length <= n
  }

  /** Byte `i` belongs to an alignment instruction of `insns` placed at `start`. */
  ghost predicate InPadding(start: nat, insns: seq<Instruction>, i: int) {
    exists insn :: insn in insns && InstructionIsAlignment(insn) &&
      start + insn.offset <= i < start + insn.offset + insn.length
  }

  /** Both predicates split into the first instruction and the rest. */
  lemma PaddingCons(n: nat, start: nat, insns: seq<Instruction>)
    requires |insns| > 0
    ensures PaddingFits(n, start, insns) <==>
      (InstructionIsAlignment(insns[0]) ==> insns[0].length == 0 || start + insns[0].offset + insns[0].length <= n)
      && PaddingFits(n, start, insns[1..])
    ensures forall i :: InPadding(start, insns, i) <==>
      (InstructionIsAlignment(insns[0]) && start + insns[0].offset <= i < start + insns[0].offset + insns[0].length)
      || InPadding(start, insns[1..], i)
  {
    assert forall insn :: insn in insns <==> insn == insns[0] || insn in insns[1..];
  }

  /** The loop over a hole's decoded instructions: every byte of every
      alignment instruction gets INSTRUCTION_ALIGNMENT, and an instruction
      reaching past the vector panics. */
  function MarkPadding(bytes: seq<Byte>, start: nat, insns: seq<Instruction>): (r: Result<seq<Byte>, Fault>)
    ensures r.Ok? <==> PaddingFits(|bytes|, start, insns)
    ensures r.Ok? ==> Grows(bytes, r.value, {InstructionAlignment})
    ensures r.Ok? ==> forall i :: 0 <= i < |bytes| ==>
      (InstructionAlignment in r.value[i].flags <==>
         InstructionAlignment in bytes[i].flags || InPadding(start, insns, i))
    ensures r.Ok? ==> forall i :: 0 <= i < |bytes| && r.value[i] != bytes[i] ==> InPadding(start, insns, i)
    decreases |insns|
  {
    if |insns| == 0 then Ok(bytes)
    else
      var insn := insns[0];
      PaddingCons(|bytes|, start, insns);
      var marked :- if InstructionIsAlignment(insn)
        then MarkRange(bytes, start + insn.offset, insn.length, InstructionAlignment)
        else Ok(bytes);
      var r := MarkPadding(marked, start, insns[1..]);
      if r.Ok? then
        GrowsTrans(bytes, marked, r.value, {InstructionAlignment}, {InstructionAlignment});
        r
      else r
  }

  function ValuesOf(bytes: seq<Byte>): (r: seq<u8>)
    ensures |r| == |bytes|
    ensures forall k :: 0 <= k < |r| ==> r[k] == bytes[k].value
  {
    seq(|bytes|, k requires 0 <= k < |bytes| => bytes[k].value)
  }

  /** `bytes[start..end]` is a valid slice. */
  predicate ValidHole(bytes: seq<Byte>, h: Hole) {
    0 <= h.start <= h.end <= |bytes|
  }

  /** What the decoder makes of a hole's values, `bytes[start..end]`. */
  function HoleInstructions(bytes: seq<Byte>, h: Hole, architecture: Architecture, decode: Decoder)
    : Result<seq<Instruction>, string>
    requires ValidHole(bytes, h)
  {
    Disassemble(ValuesOf(bytes[h.start..h.end]), architecture, Capstone, decode)
  }

  /** The hole is a valid slice, it decodes, and its padding fits the vector. */
  ghost predicate HoleAligns(bytes: seq<Byte>, h: Hole, architecture: Architecture, decode: Decoder) {
    && ValidHole(bytes, h)
    && HoleInstructions(bytes, h, architecture, decode).Ok?
    && PaddingFits(|bytes|, h.start, HoleInstructions(bytes, h, architecture, decode).value)
  }

  /** Byte `i` belongs to a padding instruction decoded from hole `h`. */
  ghost predicate PaddingOf(bytes: seq<Byte>, h: Hole, architecture: Architecture, decode: Decoder, i: int) {
    && ValidHole(bytes, h)
    && HoleInstructions(bytes, h, architecture, decode).Ok?
    && InPadding(h.start, HoleInstructions(bytes, h, architecture, decode).value, i)
  }

  /** Growing flags changes neither the length nor the values, so a hole
      decodes the same before and after. */
  lemma GrowsKeepsHoles(a: seq<Byte>, b: seq<Byte>, gained: set<Flag>, h: Hole, architecture: Architecture, decode: Decoder)
    requires Grows(a, b, gained)
    ensures ValidHole(a, h) == ValidHole(b, h)
    ensures ValidHole(a, h) ==>
      HoleInstructions(a, h, architecture, decode) == HoleInstructions(b, h, architecture, decode)
    ensures HoleAligns(a, h, architecture, decode) == HoleAligns(b, h, architecture, decode)
    ensures forall i :: PaddingOf(a, h, architecture, decode, i) == PaddingOf(b, h, architecture, decode, i)
  {
    if ValidHole(a, h) {
      assert ValuesOf(a[h.start..h.end]) == ValuesOf(b[h.start..h.end]);
    }
  }

  /** One hole of the second loop: the values of `bytes[start..end]` (the
      end index excluded) are decoded and the alignment instructions among
      them are marked. A range that is not a valid slice panics, and so do
      a decoder failure and a padding instruction past the vector. */
  function AlignHole(bytes: seq<Byte>, h: Hole, architecture: Architecture, decode: Decoder)
    : (r: Result<seq<Byte>, Fault>)
    ensures !ValidHole(bytes, h) ==> r == Err(IndexOutOfRange)
    ensures ValidHole(bytes, h) && decode(ModeOf(architecture), ValuesOf(bytes[h.start..h.end])).None? ==>
      r.Err? && r.error.DisassemblyFailed?
    ensures r.Ok? <==> HoleAligns(bytes, h, architecture, decode)
    ensures r.Ok? ==> Grows(bytes, r.value, {InstructionAlignment})
    ensures r.Ok? ==> forall i :: 0 <= i < |bytes| ==>
      (InstructionAlignment in r.value[i].flags <==>
         InstructionAlignment in bytes[i].flags || PaddingOf(bytes, h, architecture, decode, i))
    ensures r.Ok? && DecoderStaysInBuffer(decode) ==>
      forall i :: 0 <= i < |bytes| && r.value[i] != bytes[i] ==> h.start <= i < h.end
  {
    if !ValidHole(bytes, h) then Err(IndexOutOfRange)
    else
      match HoleInstructions(bytes, h, architecture, decode)
      case Err(message) => Err(DisassemblyFailed(message))
      case Ok(insns) =>
        assert DecoderStaysInBuffer(decode) ==>
          forall i :: InPadding(h.start, insns, i) ==> h.start <= i < h.end
        by {
          if DecoderStaysInBuffer(decode) {
            HoleInstructionsInHole(bytes, h, architecture, decode);
            PaddingInside(h.start, h.end, insns);
          }
        }
        MarkPadding(bytes, h.start, insns)
  }

  /** A decoder that stays in its buffer yields instructions that end
      inside the hole they were decoded from. */
  lemma HoleInstructionsInHole(bytes: seq<Byte>, h: Hole, architecture: Architecture, decode: Decoder)
    requires ValidHole(bytes, h) && DecoderStaysInBuffer(decode)
    requires HoleInstructions(bytes, h, architecture, decode).Ok?
    ensures forall insn :: insn in HoleInstructions(bytes, h, architecture, decode).value ==>
      insn.offset + insn.length <= h.end - h.start
  {
    var buffer := ValuesOf(bytes[h.start..h.end]);
    var insns := HoleInstructions(bytes, h, architecture, decode).value;
    var raws := decode(ModeOf(architecture), buffer).value;
    forall insn | insn in insns ensures insn.offset + insn.length <= h.end - h.start {
      var k :| 0 <= k < |insns| && insns[k] == insn;
      assert raws[k] in raws;
    }
  }

  /** Padding of instructions that end inside `[start, end)` lies there too. */
  lemma PaddingInside(start: nat, end: nat, insns: seq<Instruction>)
    requires forall insn :: insn in insns ==> insn.offset + insn.length <= end - start
    ensures forall i :: InPadding(start, insns, i) ==> start <= i < end
  {
  }

  /** Some hole of `holes` decodes to a padding instruction covering byte `i`. */
  ghost predicate PaddingOfAny(bytes: seq<Byte>, holes: seq<Hole>, architecture: Architecture, decode: Decoder, i: int) {
    exists h :: h in holes && PaddingOf(bytes, h, architecture, decode, i)
  }

  /** The second loop of `detect_alignment_bytes`, over the holes in order.
      It succeeds exactly when every hole aligns, and it marks exactly the
      bytes of the padding instructions decoded from the holes. */
  function AlignHoles(bytes: seq<Byte>, holes: seq<Hole>, architecture: Architecture, decode: Decoder)
    : (r: Result<seq<Byte>, Fault>)
    ensures r.Ok? <==> forall h :: h in holes ==> HoleAligns(bytes, h, architecture, decode)
    ensures r.Ok? ==> Grows(bytes, r.value, {InstructionAlignment})
    ensures r.Ok? ==> forall i :: 0 <= i < |bytes| ==>
      (InstructionAlignment in r.value[i].flags <==>
         InstructionAlignment in bytes[i].flags || PaddingOfAny(bytes, holes, architecture, decode, i))
    ensures r.Ok? && DecoderStaysInBuffer(decode) ==>
      forall i :: 0 <= i < |bytes| && r.value[i] != bytes[i] ==> exists h :: h in holes && h.start <= i < h.end
    decreases |holes|
  {
    if |holes| == 0 then Ok(bytes)
    else
      assert forall h :: h in holes <==> h == holes[0] || h in holes[1..];
      match AlignHole(bytes, holes[0], architecture, decode)
      case Err(e) => Err(e)
      case Ok(marked) =>
        AlignHolesStep(bytes, marked, holes, architecture, decode);
        var r := AlignHoles(marked, holes[1..], architecture, decode);
        if r.Ok? then
          GrowsTrans(bytes, marked, r.value, {InstructionAlignment}, {InstructionAlignment});
          assert DecoderStaysInBuffer(decode) ==>
            forall i :: 0 <= i < |bytes| && r.value[i] != bytes[i] ==> exists h :: h in holes && h.start <= i < h.end
          by {
            if DecoderStaysInBuffer(decode) {
              ChangesInHoles(bytes, marked, r.value, holes);
            }
          }
          r
        else r
  }

  /** Changes inside the first hole followed by changes inside the other
      holes are changes inside the holes. */
  lemma ChangesInHoles(bytes: seq<Byte>, marked: seq<Byte>, final: seq<Byte>, holes: seq<Hole>)
    requires |holes| > 0 && |marked| == |bytes| && |final| == |bytes|
    requires forall i :: 0 <= i < |bytes| && marked[i] != bytes[i] ==> holes[0].start <= i < holes[0].end
    requires forall i :: 0 <= i < |bytes| && final[i] != marked[i] ==>
      exists h :: h in holes[1..] && h.start <= i < h.end
    ensures forall i :: 0 <= i < |bytes| && final[i] != bytes[i] ==> exists h :: h in holes && h.start <= i < h.end
  {
    forall i | 0 <= i < |bytes| && final[i] != bytes[i]
      ensures exists h :: h in holes && h.start <= i < h.end
    {
      if final[i] != marked[i] {
        var h :| h in holes[1..] && h.start <= i < h.end;
        assert h in holes;
      } else {
        assert holes[0] in holes;
      }
    }
  }

  /** After the first hole, the rest of the holes align and mark on the
      marked vector exactly as on the original one. */
  lemma AlignHolesStep(bytes: seq<Byte>, marked: seq<Byte>, holes: seq<Hole>, architecture: Architecture, decode: Decoder)
    requires |holes| > 0 && Grows(bytes, marked, {InstructionAlignment})
    ensures (forall h :: h in holes[1..] ==> HoleAligns(marked, h, architecture, decode)) <==>
      (forall h :: h in holes[1..] ==> HoleAligns(bytes, h, architecture, decode))
    ensures forall i :: PaddingOfAny(marked, holes[1..], architecture, decode, i) <==>
      PaddingOfAny(bytes, holes[1..], architecture, decode, i)
    ensures forall i :: PaddingOfAny(bytes, holes, architecture, decode, i) <==>
      PaddingOf(bytes, holes[0], architecture, decode, i) || PaddingOfAny(bytes, holes[1..], architecture, decode, i)
  {
    forall h | h in holes[1..]
      ensures HoleAligns(marked, h, architecture, decode) == HoleAligns(bytes, h, architecture, decode)
      ensures forall i :: PaddingOf(marked, h, architecture, decode, i) == PaddingOf(bytes, h, architecture, decode, i)
    {
      GrowsKeepsHoles(bytes, marked, {InstructionAlignment}, h, architecture, decode);
    }
    assert forall h :: h in holes <==> h == holes[0] || h in holes[1..];
  }

  /** Every hole of the vector, once its 0xCC bytes are marked, aligns. */
  ghost predicate AlignmentSucceeds(bytes: seq<Byte>, architecture: Architecture, decode: Decoder) {
    forall h :: h in Holes(MarkInt3(bytes)) ==> HoleAligns(bytes, h, architecture, decode)
  }

  /** `detect_alignment_bytes`: 0xCC bytes first, then the padding
      instructions found by decoding each hole of the vector so marked. Only
      INSTRUCTION_ALIGNMENT is ever added, so CODE and DATA are exactly as
      before. */
  function DetectAlignment(bytes: seq<Byte>, architecture: Architecture, decode: Decoder)
    : (r: Result<seq<Byte>, Fault>)
    ensures r.Ok? <==> AlignmentSucceeds(bytes, architecture, decode)
    ensures r.Ok? ==> Grows(bytes, r.value, {InstructionAlignment})
    ensures r.Ok? ==> forall i :: 0 <= i < |bytes| ==>
      (InstructionAlignment in r.value[i].flags <==>
         || InstructionAlignment in bytes[i].flags
         || (bytes[i].value == 0xCC && Code !in bytes[i].flags && Data !in bytes[i].flags)
         || PaddingOfAny(bytes, Holes(MarkInt3(bytes)), architecture, decode, i))
    ensures r.Ok? ==> forall i :: 0 <= i < |bytes| ==>
      (Code in r.value[i].flags <==> Code in bytes[i].flags) && (Data in r.value[i].flags <==> Data in bytes[i].flags)
  {
    var marked := MarkInt3(bytes);
    var holes := Holes(marked);
    forall h | h in holes
      ensures HoleAligns(marked, h, architecture, decode) == HoleAligns(bytes, h, architecture, decode)
      ensures forall i :: PaddingOf(marked, h, architecture, decode, i) == PaddingOf(bytes, h, architecture, decode, i)
    {
      GrowsKeepsHoles(bytes, marked, {InstructionAlignment}, h, architecture, decode);
    }
    var r := AlignHoles(marked, holes, architecture, decode);
    if r.Ok? then
      GrowsTrans(bytes, marked, r.value, {InstructionAlignment}, {InstructionAlignment});
      GrowsKeepsOtherFlags(bytes, r.value, {InstructionAlignment}, Code);
      GrowsKeepsOtherFlags(bytes, r.value, {InstructionAlignment}, Data);
      r
    else r
  }

  /** A flag outside `gained` is present after growing exactly when it was
      present before. */
  lemma GrowsKeepsOtherFlags(a: seq<Byte>, b: seq<Byte>, gained: set<Flag>, f: Flag)
    requires Grows(a, b, gained) && f !in gained
    ensures forall i :: 0 <= i < |a| ==> (f in b[i].flags <==> f in a[i].flags)
  {
  }

  /** A non-empty vector in which no byte is classified (and none is 0xCC)
      makes the alignment pass fail: its only hole starts at -1. */
  lemma UnclassifiedVectorFaults(bytes: seq<Byte>, architecture: Architecture, decode: Decoder)
    requires |bytes| > 0
    requires forall k :: 0 <= k < |bytes| ==> Flagless(bytes[k]) && bytes[k].value != 0xCC
    ensures DetectAlignment(bytes, architecture, decode).Err?
  {
    var marked := MarkInt3(bytes);
    assert forall k :: 0 <= k < |marked| ==> marked[k] == bytes[k];
    FlaglessVectorStartsBeforeVector(marked);
    assert Hole(-1, |bytes| - 1, |bytes|) in Holes(marked);
  }

  // ------------------------------------------------------------ end of section

  /** The byte is CODE or DATA. */
  predicate Claimed(b: Byte) {
    IsCode(b) || IsData(b)
  }

  /** The length of the longest suffix without a CODE or DATA byte. */
  function FreeTail(bytes: seq<Byte>): (r: nat)
    ensures r <= |bytes|
    ensures forall i :: |bytes| - r <= i < |bytes| ==> !Claimed(bytes[i])
    ensures r < |bytes| ==> Claimed(bytes[|bytes| - r - 1])
    decreases |bytes|
  {
    if |bytes| == 0 || Claimed(bytes[|bytes| - 1]) then 0
    else 1 + FreeTail(bytes[..|bytes| - 1])
  }

  /** The number of 0x00 bytes from index `k` on. */
  function ZerosFrom(bytes: seq<Byte>, k: nat): (r: nat)
    requires k <= |bytes|
    ensures r <= |bytes| - k
    decreases |bytes| - k
  {
    if k == |bytes| then 0 else (if bytes[k].value == 0 then 1 else 0) + ZerosFrom(bytes, k + 1)
  }

  /** What `detect_end_of_section` keeps: it drops as many bytes from the end
      as there are 0x00 bytes in the free tail, whichever bytes they are. */
  function EndOfSection(bytes: seq<Byte>): (r: seq<Byte>)
    ensures r <= bytes
    ensures forall i :: |r| <= i < |bytes| ==> !Claimed(bytes[i])
  {
    bytes[..|bytes| - ZerosFrom(bytes, |bytes| - FreeTail(bytes))]
  }

  /** `detect_end_of_section`: the reverse loop, then the truncation. */
  method DetectEndOfSection(bytes: seq<Byte>) returns (r: seq<Byte>)
    ensures r == EndOfSection(bytes)
    ensures |bytes| - |r| == ZerosFrom(bytes, |bytes| - FreeTail(bytes))
  {
    var size := ScanFreeTail(bytes);
    r := bytes[..size];
  }

  /** The reverse loop of `detect_end_of_section`: it stops at the first
      CODE or DATA byte from the end and counts the 0x00 bytes it passes; the
      size it returns is the vector's length less that count. */
  method ScanFreeTail(bytes: seq<Byte>) returns (size: nat)
    ensures size == |bytes| - ZerosFrom(bytes, |bytes| - FreeTail(bytes))
  {
    size := |bytes|;
    var k := |bytes|;
    while k > 0
      invariant 0 <= k <= |bytes|
      invariant forall i :: k <= i < |bytes| ==> !Claimed(bytes[i])
      invariant size == |bytes| - ZerosFrom(bytes, k)
      decreases k
    {
      var b := bytes[k - 1];
      if IsCode(b) || IsData(b) {
        break;
      }
      if b.value == 0 {
        size := size - 1;
      }
      k := k - 1;
    }
    FreeTailAt(bytes, k);
  }

  /** The free tail starts at `k` when everything from `k` on is unclaimed
      and the byte before `k` (if any) is claimed. */
  lemma {:induction false} FreeTailAt(bytes: seq<Byte>, k: nat)
    requires k <= |bytes|
    requires forall i :: k <= i < |bytes| ==> !Claimed(bytes[i])
    requires k == 0 || Claimed(bytes[k - 1])
    ensures FreeTail(bytes) == |bytes| - k
    decreases |bytes|
  {
    if k < |bytes| {
      FreeTailAt(bytes[..|bytes| - 1], k);
    }
  }

  /** When every byte of the free tail is 0x00, exactly the free tail goes. */
  lemma {:induction false} ZeroTailIsRemoved(bytes: seq<Byte>)
    requires forall i :: |bytes| - FreeTail(bytes) <= i < |bytes| ==> bytes[i].value == 0
    ensures EndOfSection(bytes) == bytes[..|bytes| - FreeTail(bytes)]
  {
    AllZeros(bytes, |bytes| - FreeTail(bytes));
  }

  lemma {:induction false} AllZeros(bytes: seq<Byte>, k: nat)
    requires k <= |bytes|
    requires forall i :: k <= i < |bytes| ==> bytes[i].value == 0
    ensures ZerosFrom(bytes, k) == |bytes| - k
    decreases |bytes| - k
  {
    if k < |bytes| {
      AllZeros(bytes, k + 1);
    }
  }

  /** The truncation counts zeros but cuts from the end: a trailing 0xCC
      alignment byte goes while the 0x00 byte before it stays. */
  lemma EndOfSectionCutsByCount()
    ensures var bytes := [Byte(0, 0x90, [Code]), Byte(1, 0, []), Byte(2, 0xCC, [InstructionAlignment])];
      EndOfSection(bytes) == bytes[..2]
  {
    var bytes := [Byte(0, 0x90, [Code]), Byte(1, 0, []), Byte(2, 0xCC, [InstructionAlignment])];
    assert Claimed(bytes[0]);
    assert !Claimed(bytes[1]) && !Claimed(bytes[2]);
    FreeTailAt(bytes, 1);
    assert ZerosFrom(bytes, 3) == 0;
    assert ZerosFrom(bytes, 2) == 0;
    assert ZerosFrom(bytes, 1) == 1;
  }
}

=== FILE: bytepasses.dfy ===
/** The simple passes over the byte vector of a binary: trimming it to the
    text section, rebasing the offsets, and marking the bytes that the debug
    symbols already classify as code or data (`set_byte_flags`). Each pass is a
    function from the old vector to the new one; an indexing panic of the
    original becomes `Err(IndexOutOfRange)`. */
module BytePasses {
  import opened Wrappers
  import opened Vectors
  import opened GroundTruth

  /** The ways a pass ends the program: an out-of-range index or an unsigned
      underflow (a panic), a decoder error (logged, then `exit(1)`), or a
      binary without a ".text" section (logged, then `exit(1)`). */
  datatype Fault =
    | IndexOutOfRange
    | DisassemblyFailed(message: string)
    | MissingTextSection

  /** The PE and ELF passes differ only in a few guards; `Format` selects them. */
  datatype Format = Pe | Elf

  function Elements(s: seq<Flag>): set<Flag> {
    set f | f in s
  }

  /** `b` is `a` with some flags added, all of them from `gained`; offsets and
      values are untouched and no flag is lost. */
  ghost predicate Grows(a: seq<Byte>, b: seq<Byte>, gained: set<Flag>) {
    && |a| == |b|
    && (forall i :: 0 <= i < |a| ==> b[i].offset == a[i].offset && b[i].value == a[i].value)
    && (forall i, g :: 0 <= i < |a| && g in a[i].flags ==> g in b[i].flags)
    && (forall i, g :: 0 <= i < |b| && g in b[i].flags ==> g in a[i].flags || g in gained)
  }

  lemma GrowsTrans(a: seq<Byte>, b: seq<Byte>, c: seq<Byte>, s: set<Flag>, t: set<Flag>)
    requires Grows(a, b, s) && Grows(b, c, t)
    ensures Grows(a, c, s + t)
  {
  }

  /** `bytes[i].set_flags(added)`, panicking when `i` is out of range. */
  function MarkAt(bytes: seq<Byte>, i: int, added: seq<Flag>): (r: Result<seq<Byte>, Fault>)
    ensures r.Ok? <==> 0 <= i < |bytes|
    ensures r.Ok? ==> Grows(bytes, r.value, Elements(added))
    ensures r.Ok? ==> forall f :: f in added ==> f in r.value[i].flags
    ensures r.Ok? ==> forall j :: 0 <= j < |bytes| && j != i ==> r.value[j] == bytes[j]
  {
    if 0 <= i < |bytes| then Ok(bytes[i := WithFlags(bytes[i], added)]) else Err(IndexOutOfRange)
  }

  /** `trim_byte_vector`: `drain(..start)` then `drain(end - start..)`. It
      keeps exactly the bytes `start .. end` and panics unless
      `start <= end <= |bytes|` (a first drain past the end, the unsigned
      subtraction `end - start`, or a second drain past the end). */
  function Trim(bytes: seq<Byte>, start: nat, end: nat): (r: Result<seq<Byte>, Fault>)
    ensures r.Ok? <==> start <= end <= |bytes|
    ensures r.Ok? ==> |r.value| == end - start
    ensures r.Ok? ==> forall i :: 0 <= i < |r.value| ==> r.value[i] == bytes[start + i]
  {
    if start > |bytes| then Err(IndexOutOfRange)
    else
      var rest := bytes[start..];
      if end < start || end - start > |rest| then Err(IndexOutOfRange)
      else Ok(rest[..end - start])
  }

  /** `rebase_byte_vector`: byte `i` gets offset `base + i`; values and flags stay. */
  function Rebase(bytes: seq<Byte>, base: nat): (r: seq<Byte>)
    ensures |r| == |bytes|
    ensures forall i :: 0 <= i < |r| ==>
      r[i].offset == base + i && r[i].value == bytes[i].value && r[i].flags == bytes[i].flags
  {
    seq(|bytes|, i requires 0 <= i < |bytes| => bytes[i].(offset := base + i))
  }

  /** The loop `for i in 0..count { bytes[first + i].set_flags([f]) }`. */
  function MarkRange(bytes: seq<Byte>, first: nat, count: nat, f: Flag): (r: Result<seq<Byte>, Fault>)
    ensures r.Ok? <==> count == 0 || first + count <= |bytes|
    ensures r.Ok? ==> Grows(bytes, r.value, {f})
    ensures r.Ok? ==> forall i :: first <= i < first + count ==> f in r.value[i].flags
    ensures r.Ok? ==> forall i :: 0 <= i < |bytes| && !(first <= i < first + count) ==> r.value[i] == bytes[i]
    decreases count
  {
    if count == 0 then Ok(bytes)
    else
      var marked :- MarkAt(bytes, first, [f]);
      assert Elements([f]) == {f};
      var r := MarkRange(marked, first + 1, count - 1, f);
      if r.Ok? then GrowsTrans(bytes, marked, r.value, {f}, {f}); r else r
  }

  /** Byte `i` lies inside one of the data symbols. */
  ghost predicate Covers(data: seq<DataSymbol>, i: int) {
    exists d :: d in data && d.offset <= i < d.offset + d.size
  }

  /** Every non-empty data symbol lies inside a vector of `n` bytes. */
  ghost predicate DataFits(data: seq<DataSymbol>, n: nat) {
    forall d :: d in data ==> d.size == 0 || d.offset + d.size <= n
  }

  /** The loop over a function's child data: every byte of every child gets
      DATA. There is no bounds guard, so a child reaching past the vector panics. */
  function MarkChildData(bytes: seq<Byte>, data: seq<DataSymbol>): (r: Result<seq<Byte>, Fault>)
    ensures r.Ok? <==> DataFits(data, |bytes|)
    ensures r.Ok? ==> Grows(bytes, r.value, {Data})
    ensures r.Ok? ==> forall i :: 0 <= i < |bytes| && Covers(data, i) ==> Data in r.value[i].flags
    ensures r.Ok? ==> forall i :: 0 <= i < |bytes| && !Covers(data, i) ==> r.value[i] == bytes[i]
    decreases |data|
  {
    if |data| == 0 then Ok(bytes)
    else
      var d := data[0];
      assert forall i :: Covers(data, i) <==> d.offset <= i < d.offset + d.size || Covers(data[1..], i) by {
        forall i ensures Covers(data, i) ==> d.offset <= i < d.offset + d.size || Covers(data[1..], i) {
          if Covers(data, i) {
            var e :| e in data && e.offset <= i < e.offset + e.size;
            if e != d {
              assert e in data[1..];
            }
          }
        }
      }
      assert DataFits(data, |bytes|) <==> (d.size == 0 || d.offset + d.size <= |bytes|) && DataFits(data[1..], |bytes|) by {
        if (d.size == 0 || d.offset + d.size <= |bytes|) && DataFits(data[1..], |bytes|) {
          forall e | e in data ensures e.size == 0 || e.offset + e.size <= |bytes| {
            if e != d {
              assert e in data[1..];
            }
          }
        }
      }
      var marked :- MarkRange(bytes, d.offset, d.size, Data);
      var r := MarkChildData(marked, data[1..]);
      if r.Ok? then GrowsTrans(bytes, marked, r.value, {Data}, {Data}); r else r
  }

  /** The body loop of `set_byte_flags`: every byte of the function that is
      not already DATA gets CODE. The PE loop has no bounds guard and panics
      past the end; the ELF loop stops (`break`) at the end of the vector. */
  function MarkCodeRange(bytes: seq<Byte>, first: nat, count: nat, format: Format): (r: Result<seq<Byte>, Fault>)
    ensures r.Ok? <==> format == Elf || count == 0 || first + count <= |bytes|
    ensures r.Ok? ==> Grows(bytes, r.value, {Code})
    ensures r.Ok? ==> forall i :: 0 <= i < |bytes| ==>
      (Code in r.value[i].flags <==> Code in bytes[i].flags || (first <= i < first + count && Data !in bytes[i].flags))
    decreases count
  {
    if count == 0 then Ok(bytes)
    else if first >= |bytes| then
      if format == Elf then Ok(bytes) else Err(IndexOutOfRange)
    else if IsData(bytes[first]) then
      MarkCodeRange(bytes, first + 1, count - 1, format)
    else
      var marked := bytes[first := WithFlags(bytes[first], [Code])];
      assert Grows(bytes, marked, {Code});
      var r := MarkCodeRange(marked, first + 1, count - 1, format);
      if r.Ok? then GrowsTrans(bytes, marked, r.value, {Code}, {Code}); r else r
  }

  /** Byte `i` lies in the body of function `f`. */
  predicate InBody(f: Function, i: int) {
    f.offset <= i < f.offset + f.size
  }

  /** The function's body lies inside a vector of `n` bytes. */
  predicate BodyFits(f: Function, n: nat) {
    f.size == 0 || f.offset + f.size <= n
  }

  /** Some function's body holds byte `i`, and neither that function nor
      any function before it has child data covering `i`: the first-come
      condition under which `set_byte_flags` makes a non-DATA byte CODE. */
  ghost predicate ClaimedAsCode(functions: seq<Function>, i: int) {
    exists j :: 0 <= j < |functions| && InBody(functions[j], i)
      && forall k :: 0 <= k <= j ==> !Covers(functions[k].data, i)
  }

  lemma {:induction false} ClaimedAsCodeUnfold(functions: seq<Function>, i: int)
    requires |functions| > 0
    ensures ClaimedAsCode(functions, i) <==>
      !Covers(functions[0].data, i) && (InBody(functions[0], i) || ClaimedAsCode(functions[1..], i))
  {
    var rest := functions[1..];
    if ClaimedAsCode(functions, i) {
      var j :| 0 <= j < |functions| && InBody(functions[j], i)
        && forall k :: 0 <= k <= j ==> !Covers(functions[k].data, i);
      if j > 0 {
        assert rest[j - 1] == functions[j];
        assert forall k :: 0 <= k <= j - 1 ==> !Covers(rest[k].data, i) by {
          forall k | 0 <= k <= j - 1 ensures !Covers(rest[k].data, i) {
            assert rest[k] == functions[k + 1];
          }
        }
      }
    }
    if !Covers(functions[0].data, i) && ClaimedAsCode(rest, i) {
      var j :| 0 <= j < |rest| && InBody(rest[j], i) && forall k :: 0 <= k <= j ==> !Covers(rest[k].data, i);
      assert functions[j + 1] == rest[j];
      forall k | 0 <= k <= j + 1 ensures !Covers(functions[k].data, i) {
        if k > 0 {
          assert functions[k] == rest[k - 1];
        }
      }
    }
  }

  /** Every function's child data and (for PE) body lie inside `n` bytes. */
  ghost predicate FunctionsFit(functions: seq<Function>, n: nat, format: Format) {
    forall f :: f in functions ==> DataFits(f.data, n) && (format == Elf || BodyFits(f, n))
  }

  /** One iteration of `set_byte_flags`: the function's child data become
      DATA, then its body bytes that are not DATA (now) become CODE. */
  function SetFunctionFlags(bytes: seq<Byte>, f: Function, format: Format): (r: Result<seq<Byte>, Fault>)
    ensures r.Ok? <==> DataFits(f.data, |bytes|) && (format == Elf || BodyFits(f, |bytes|))
    ensures r.Ok? ==> Grows(bytes, r.value, {Code, Data})
    ensures r.Ok? ==> forall i :: 0 <= i < |bytes| ==>
      (Data in r.value[i].flags <==> Data in bytes[i].flags || Covers(f.data, i))
    ensures r.Ok? ==> forall i :: 0 <= i < |bytes| ==>
      (Code in r.value[i].flags <==>
         Code in bytes[i].flags || (InBody(f, i) && Data !in bytes[i].flags && !Covers(f.data, i)))
  {
    var withData :- MarkChildData(bytes, f.data);
    var withCode :- MarkCodeRange(withData, f.offset, f.size, format);
    GrowsTrans(bytes, withData, withCode, {Data}, {Code});
    Ok(withCode)
  }

  lemma {:induction false} FunctionsFitUnfold(functions: seq<Function>, n: nat, format: Format)
    requires |functions| > 0
    ensures FunctionsFit(functions, n, format) <==>
      DataFits(functions[0].data, n) && (format == Elf || BodyFits(functions[0], n))
      && FunctionsFit(functions[1..], n, format)
  {
    if DataFits(functions[0].data, n) && (format == Elf || BodyFits(functions[0], n))
       && FunctionsFit(functions[1..], n, format) {
      forall g | g in functions ensures DataFits(g.data, n) && (format == Elf || BodyFits(g, n)) {
        if g != functions[0] {
          assert g in functions[1..];
        }
      }
    }
  }

  lemma {:induction false} CoveredByUnfold(functions: seq<Function>, i: int)
    requires |functions| > 0
    ensures (exists g :: g in functions && Covers(g.data, i)) <==>
      Covers(functions[0].data, i) || exists g :: g in functions[1..] && Covers(g.data, i)
  {
    if exists g :: g in functions && Covers(g.data, i) {
      var g :| g in functions && Covers(g.data, i);
      if g != functions[0] {
        assert g in functions[1..];
      }
    }
  }

  /** `set_byte_flags`: for each function in order, first its child data
      become DATA, then its body bytes that are not DATA become CODE.
      A byte ends up DATA exactly when it was DATA or some function's child
      data covers it, and ends up CODE exactly when it was CODE or was not DATA
      and is claimed as code; no other flag changes. */
  function SetByteFlags(bytes: seq<Byte>, functions: seq<Function>, format: Format): (r: Result<seq<Byte>, Fault>)
    ensures r.Ok? <==> FunctionsFit(functions, |bytes|, format)
    ensures r.Ok? ==> Grows(bytes, r.value, {Code, Data})
    ensures r.Ok? ==> forall i :: 0 <= i < |bytes| ==>
      (Data in r.value[i].flags <==> Data in bytes[i].flags || exists f :: f in functions && Covers(f.data, i))
    ensures r.Ok? ==> forall i :: 0 <= i < |bytes| ==>
      (Code in r.value[i].flags <==> Code in bytes[i].flags || (Data !in bytes[i].flags && ClaimedAsCode(functions, i)))
    decreases |functions|
  {
    if |functions| == 0 then Ok(bytes)
    else
      FunctionsFitUnfold(functions, |bytes|, format);
      var step :- SetFunctionFlags(bytes, functions[0], format);
      var r := SetByteFlags(step, functions[1..], format);
      if r.Ok? then
        SetByteFlagsStep(bytes, step, r.value, functions);
        r
      else r
  }

  /** The inductive step of `SetByteFlags`: one function's flags followed by
      the remaining functions' flags. */
  lemma {:induction false} SetByteFlagsStep(bytes: seq<Byte>, step: seq<Byte>, last: seq<Byte>, functions: seq<Function>)
    requires |functions| > 0
    requires Grows(bytes, step, {Code, Data})
    requires forall i :: 0 <= i < |bytes| ==>
      (Data in step[i].flags <==> Data in bytes[i].flags || Covers(functions[0].data, i))
    requires forall i :: 0 <= i < |bytes| ==>
      (Code in step[i].flags <==>
         Code in bytes[i].flags || (InBody(functions[0], i) && Data !in bytes[i].flags && !Covers(functions[0].data, i)))
    requires Grows(step, last, {Code, Data})
    requires forall i :: 0 <= i < |step| ==>
      (Data in last[i].flags <==> Data in step[i].flags || exists f :: f in functions[1..] && Covers(f.data, i))
    requires forall i :: 0 <= i < |step| ==>
      (Code in last[i].flags <==> Code in step[i].flags || (Data !in step[i].flags && ClaimedAsCode(functions[1..], i)))
    ensures Grows(bytes, last, {Code, Data})
    ensures forall i :: 0 <= i < |bytes| ==>
      (Data in last[i].flags <==> Data in bytes[i].flags || exists f :: f in functions && Covers(f.data, i))
    ensures forall i :: 0 <= i < |bytes| ==>
      (Code in last[i].flags <==> Code in bytes[i].flags || (Data !in bytes[i].flags && ClaimedAsCode(functions, i)))
  {
    GrowsTrans(bytes, step, last, {Code, Data}, {Code, Data});
    assert {Code, Data} + {Code, Data} == {Code, Data};
    forall i | 0 <= i < |bytes|
      ensures (Data in last[i].flags <==> Data in bytes[i].flags || exists f :: f in functions && Covers(f.data, i))
      ensures (Code in last[i].flags <==> Code in bytes[i].flags || (Data !in bytes[i].flags && ClaimedAsCode(functions, i)))
    {
      CoveredByUnfold(functions, i);
      ClaimedAsCodeUnfold(functions, i);
    }
  }

  /** Child data of a LATER function does not clear CODE set by an earlier
      one: the same byte can end up both CODE and DATA. */
  lemma LaterChildDataKeepsCode()
    ensures var bytes := [Byte(0, 0x90, [])];
      var first := Function("a", 0, 1, 1, [], []);
      var second := Function("b", 0, 1, 1, [], [DataSymbol("", 0, 1, 1)]);
      var r := SetByteFlags(bytes, [first, second], Pe);
      r.Ok? && Code in r.value[0].flags && Data in r.value[0].flags
  {
    var bytes := [Byte(0, 0x90, [])];
    var first := Function("a", 0, 1, 1, [], []);
    var second := Function("b", 0, 1, 1, [], [DataSymbol("", 0, 1, 1)]);
    var functions := [first, second];
    assert DataFits(second.data, 1);
    assert FunctionsFit(functions, |bytes|, Pe) by {
      forall f | f in functions ensures DataFits(f.data, 1) && BodyFits(f, 1) {
        assert f == first || f == second;
      }
    }
    var r := SetByteFlags(bytes, functions, Pe);
    assert Covers(second.data, 0) by {
      assert DataSymbol("", 0, 1, 1) in second.data;
    }
    assert second in functions;
    assert Data in r.value[0].flags;
    assert ClaimedAsCode(functions, 0) by {
      assert !Covers(first.data, 0);
      assert InBody(functions[0], 0);
    }
  }
}

=== FILE: codepass.dfy ===
/** The `disassemble` pass: for every function, its non-DATA body bytes are
    marked CODE/READABLE/EXECUTABLE and collected into a buffer, the entry
    and last byte get FUNCTION_START/FUNCTION_END, the buffer is decoded, and
    each decoded instruction marks its first and last byte and copies its
    own flags onto its first byte. */
module CodePass {
  import opened Wrappers
  import opened Vectors
  import opened GroundTruth
  import opened BytePasses
  import opened Disassembler

  /** The flags the body walk adds to each collected byte. */
  const WalkFlags: set<Flag> := {Code, Readable, Executable}

  /** Every flag the pass can add to a byte. */
  const PassFlags: set<Flag> :=
    WalkFlags + {FunctionStart, FunctionEnd, InstructionStart, InstructionEnd} + InstructionFlags

  predicate StrictlyIncreasing(s: seq<nat>) {
    forall a, b :: 0 <= a < b < |s| ==> s[a] < s[b]
  }

  /** The indices in `first .. first + count` (and inside the vector) of the
      bytes that are not DATA, in increasing order. */
  function NonDataIndices(bytes: seq<Byte>, first: nat, count: nat): (r: seq<nat>)
    ensures forall k :: 0 <= k < |r| ==> first <= r[k] < first + count && r[k] < |bytes|
    decreases count
  {
    if count == 0 || first >= |bytes| then []
    else (if Data in bytes[first].flags then [] else [first]) + NonDataIndices(bytes, first + 1, count - 1)
  }

  /** `NonDataIndices` lists exactly the non-DATA indices of the range, each
      once and in increasing order. */
  lemma {:induction false} NonDataIndicesSpec(bytes: seq<Byte>, first: nat, count: nat)
    ensures forall i :: i in NonDataIndices(bytes, first, count) <==>
      first <= i < first + count && i < |bytes| && Data !in bytes[i].flags
    ensures StrictlyIncreasing(NonDataIndices(bytes, first, count))
    decreases count
  {
    if count > 0 && first < |bytes| {
      NonDataIndicesSpec(bytes, first + 1, count - 1);
    }
  }

  function Values(bytes: seq<Byte>, positions: seq<nat>): (r: seq<u8>)
    requires forall k :: 0 <= k < |positions| ==> positions[k] < |bytes|
    ensures |r| == |positions|
    ensures forall k :: 0 <= k < |r| ==> r[k] == bytes[positions[k]].value
  {
    seq(|positions|, k requires 0 <= k < |positions| => bytes[positions[k]].value)
  }

  /** A byte the body walk has collected. */
  predicate Walked(b: Byte) {
    Code in b.flags && Readable in b.flags && Executable in b.flags
  }

  /** The state after the body loop: the updated bytes, the buffer of
      collected values, the byte indices they came from, and whether the loop
      ran to its end (the ELF guard returns from the whole pass instead). */
  datatype Walk = Walk(bytes: seq<Byte>, buffer: seq<u8>, positions: seq<nat>, complete: bool)

  /** The body loop of `disassemble`. DATA bytes are skipped; every other byte
      gets CODE, READABLE and EXECUTABLE and its value is collected. Reaching
      the end of the vector panics for PE and ends the pass for ELF. */
  function BodyWalk(bytes: seq<Byte>, first: nat, count: nat, format: Format): (r: Result<Walk, Fault>)
    ensures r.Ok? <==> format == Elf || count == 0 || first + count <= |bytes|
    ensures r.Ok? ==> (r.value.complete <==> count == 0 || first + count <= |bytes|)
    ensures r.Ok? ==> r.value.positions == NonDataIndices(bytes, first, count)
    ensures r.Ok? ==> r.value.buffer == Values(bytes, r.value.positions)
    ensures r.Ok? ==> Grows(bytes, r.value.bytes, WalkFlags)
    ensures r.Ok? ==> forall i :: i in r.value.positions ==> Walked(r.value.bytes[i])
    ensures r.Ok? ==> forall i :: 0 <= i < |bytes| && i !in r.value.positions ==> r.value.bytes[i] == bytes[i]
    decreases count
  {
    if count == 0 then Ok(Walk(bytes, [], [], true))
    else if first >= |bytes| then
      if format == Elf then Ok(Walk(bytes, [], [], false)) else Err(IndexOutOfRange)
    else if IsData(bytes[first]) then
      BodyWalk(bytes, first + 1, count - 1, format)
    else
      var marked := bytes[first := WithFlags(bytes[first], [Code, Readable, Executable])];
      var w :- BodyWalk(marked, first + 1, count - 1, format);
      var r := w.(buffer := [bytes[first].value] + w.buffer, positions := [first] + w.positions);
      BodyWalkStep(bytes, marked, first, count, w, r);
      Ok(r)
  }

  /** The step of `BodyWalk` that collects byte `first`. */
  lemma {:induction false} BodyWalkStep(bytes: seq<Byte>, marked: seq<Byte>, first: nat, count: nat, w: Walk, r: Walk)
    requires 0 < count && first < |bytes| && Data !in bytes[first].flags
    requires marked == bytes[first := WithFlags(bytes[first], [Code, Readable, Executable])]
    requires w.positions == NonDataIndices(marked, first + 1, count - 1)
    requires w.buffer == Values(marked, w.positions)
    requires Grows(marked, w.bytes, WalkFlags)
    requires forall i :: i in w.positions ==> Walked(w.bytes[i])
    requires forall i :: 0 <= i < |marked| && i !in w.positions ==> w.bytes[i] == marked[i]
    requires r == w.(buffer := [bytes[first].value] + w.buffer, positions := [first] + w.positions)
    ensures r.positions == NonDataIndices(bytes, first, count)
    ensures r.buffer == Values(bytes, r.positions)
    ensures Grows(bytes, r.bytes, WalkFlags)
    ensures forall i :: i in r.positions ==> Walked(r.bytes[i])
    ensures forall i :: 0 <= i < |bytes| && i !in r.positions ==> r.bytes[i] == bytes[i]
  {
    BodyWalkStepPositions(bytes, marked, first, count, w.positions);
    NonDataIndicesSpec(bytes, first + 1, count - 1);
    assert first !in w.positions;
    assert Grows(bytes, marked, WalkFlags);
    GrowsTrans(bytes, marked, w.bytes, WalkFlags, WalkFlags);
  }

  lemma {:induction false} BodyWalkStepPositions(bytes: seq<Byte>, marked: seq<Byte>, first: nat, count: nat, ps: seq<nat>)
    requires 0 < count && first < |bytes| && Data !in bytes[first].flags
    requires marked == bytes[first := WithFlags(bytes[first], [Code, Readable, Executable])]
    requires ps == NonDataIndices(marked, first + 1, count - 1)
    ensures [first] + ps == NonDataIndices(bytes, first, count)
    ensures [bytes[first].value] + Values(marked, ps) == Values(bytes, [first] + ps)
  {
    NonDataIndicesSame(bytes, marked, first + 1, count - 1);
  }

  /** Only DATA membership from `first` on decides `NonDataIndices`. */
  lemma {:induction false} NonDataIndicesSame(a: seq<Byte>, b: seq<Byte>, first: nat, count: nat)
    requires |a| == |b|
    requires forall i :: first <= i < |a| ==> (Data in a[i].flags <==> Data in b[i].flags)
    ensures NonDataIndices(a, first, count) == NonDataIndices(b, first, count)
    decreases count
  {
    if count > 0 && first < |a| {
      NonDataIndicesSame(a, b, first + 1, count - 1);
    }
  }

  /** The `additional_offset` loop: walks the child data in order and adds the
      size of each one that starts at or before the shifted position. */
  function InlineShift(data: seq<DataSymbol>, position: nat, shift: nat): (r: nat)
    ensures shift <= r
    decreases |data|
  {
    if |data| == 0 then shift
    else InlineShift(data[1..], position, if position + shift >= data[0].offset then shift + data[0].size else shift)
  }

  /** The byte index of an instruction's first byte: the function's offset
      plus the instruction's buffer offset, plus (PE only) the in-line shift. */
  function InstructionFirst(f: Function, insn: Instruction, format: Format): (r: nat)
    ensures f.offset + insn.offset <= r
    ensures format == Elf ==> r == f.offset + insn.offset
  {
    (if format == Pe then InlineShift(f.data, insn.offset + f.offset, 0) else 0) + f.offset + insn.offset
  }

  /** The byte index of an instruction's last byte: for a non-empty
      instruction never before its first byte, and exactly `length - 1`
      after it. */
  function InstructionLast(f: Function, insn: Instruction, format: Format): (r: int)
    ensures insn.length >= 1 ==> InstructionFirst(f, insn, format) <= r
    ensures r - InstructionFirst(f, insn, format) + 1 == insn.length
    ensures format == Elf ==> r == f.offset + insn.offset + insn.length - 1
  {
    InstructionFirst(f, insn, format) + insn.length - 1
  }

  predicate InstructionFits(f: Function, insn: Instruction, format: Format, n: nat) {
    InstructionFirst(f, insn, format) < n && 0 <= InstructionLast(f, insn, format) < n
  }

  function FlagsOf(insns: seq<Instruction>): set<Flag> {
    set insn, g | insn in insns && g in insn.flags :: g
  }

  /** One iteration of the instruction loop: INSTRUCTION_START on the first
      byte, INSTRUCTION_END on the last byte, and the instruction's own flags
      on the first byte; an index outside the vector panics. */
  function MarkInstruction(bytes: seq<Byte>, f: Function, insn: Instruction, format: Format)
    : (r: Result<seq<Byte>, Fault>)
    ensures r.Ok? <==> InstructionFits(f, insn, format, |bytes|)
    ensures r.Ok? ==> Grows(bytes, r.value, {InstructionStart, InstructionEnd} + Elements(insn.flags))
    ensures r.Ok? ==> InstructionMarked(r.value, f, insn, format)
  {
    var first := InstructionFirst(f, insn, format);
    var b1 :- MarkAt(bytes, first, [InstructionStart]);
    var b2 :- MarkAt(b1, InstructionLast(f, insn, format), [InstructionEnd]);
    var b3 := MarkAt(b2, first, insn.flags).value;
    assert Elements([InstructionStart]) == {InstructionStart};
    assert Elements([InstructionEnd]) == {InstructionEnd};
    GrowsTrans(bytes, b1, b2, {InstructionStart}, {InstructionEnd});
    GrowsTrans(bytes, b2, b3, {InstructionStart} + {InstructionEnd}, Elements(insn.flags));
    Ok(b3)
  }

  /** The first and last byte of the instruction carry its marks. */
  ghost predicate InstructionMarked(bytes: seq<Byte>, f: Function, insn: Instruction, format: Format) {
    && InstructionFits(f, insn, format, |bytes|)
    && InstructionStart in bytes[InstructionFirst(f, insn, format)].flags
    && InstructionEnd in bytes[InstructionLast(f, insn, format)].flags
    && forall g :: g in insn.flags ==> g in bytes[InstructionFirst(f, insn, format)].flags
  }

  /** The loop over the decoded instructions. It succeeds exactly when every
      instruction's first and last byte lie inside the vector, adds no flag
      but the marks, and leaves every instruction marked. */
  function MarkInstructions(bytes: seq<Byte>, f: Function, insns: seq<Instruction>, format: Format)
    : (r: Result<seq<Byte>, Fault>)
    ensures r.Ok? <==> forall insn :: insn in insns ==> InstructionFits(f, insn, format, |bytes|)
    ensures r.Ok? ==> Grows(bytes, r.value, {InstructionStart, InstructionEnd} + FlagsOf(insns))
    ensures r.Ok? ==> forall insn :: insn in insns ==> InstructionMarked(r.value, f, insn, format)
    decreases |insns|
  {
    if |insns| == 0 then Ok(bytes)
    else
      assert forall i :: i in insns <==> i == insns[0] || i in insns[1..] by {
        assert insns == [insns[0]] + insns[1..];
      }
      var b :- MarkInstruction(bytes, f, insns[0], format);
      var r := MarkInstructions(b, f, insns[1..], format);
      if r.Ok? then
        MarkInstructionsStep(bytes, b, r.value, f, insns, format);
        r
      else r
  }

  lemma {:induction false} MarkInstructionsStep(bytes: seq<Byte>, b: seq<Byte>, last: seq<Byte>, f: Function,
                                               insns: seq<Instruction>, format: Format)
    requires |insns| > 0
    requires Grows(bytes, b, {InstructionStart, InstructionEnd} + Elements(insns[0].flags))
    requires InstructionMarked(b, f, insns[0], format)
    requires Grows(b, last, {InstructionStart, InstructionEnd} + FlagsOf(insns[1..]))
    requires forall insn :: insn in insns[1..] ==> InstructionMarked(last, f, insn, format)
    ensures Grows(bytes, last, {InstructionStart, InstructionEnd} + FlagsOf(insns))
    ensures forall insn :: insn in insns ==> InstructionMarked(last, f, insn, format)
  {
    assert Elements(insns[0].flags) <= FlagsOf(insns) by {
      forall g | g in Elements(insns[0].flags) ensures g in FlagsOf(insns) {
        assert insns[0] in insns && g in insns[0].flags;
      }
    }
    assert FlagsOf(insns[1..]) <= FlagsOf(insns) by {
      forall g | g in FlagsOf(insns[1..]) ensures g in FlagsOf(insns) {
        var insn :| insn in insns[1..] && g in insn.flags;
        assert insn in insns;
      }
    }
    GrowsTrans(bytes, b, last, {InstructionStart, InstructionEnd} + Elements(insns[0].flags),
               {InstructionStart, InstructionEnd} + FlagsOf(insns[1..]));
    GrowsWiden(bytes, last, {InstructionStart, InstructionEnd} + Elements(insns[0].flags)
               + ({InstructionStart, InstructionEnd} + FlagsOf(insns[1..])),
               {InstructionStart, InstructionEnd} + FlagsOf(insns));
    assert InstructionMarked(last, f, insns[0], format);
    forall insn | insn in insns ensures InstructionMarked(last, f, insn, format) {
      if insn != insns[0] {
        assert insn in insns[1..];
      }
    }
  }

  /** What one function contributes: the updated bytes, its instructions, and
      whether the pass stops here (the ELF guard's `return`). */
  datatype Step = Step(bytes: seq<Byte>, instructions: seq<Instruction>, stop: bool)

  /** The values the decoder is given for function `f`: its non-DATA body bytes. */
  function BodyBuffer(bytes: seq<Byte>, f: Function): seq<u8> {
    Values(bytes, NonDataIndices(bytes, f.offset, f.size))
  }

  /** Function `f`'s entry and last byte lie in a vector of `n` bytes, the
      decoder accepts `buffer`, and every decoded instruction fits. */
  ghost predicate Decodes(n: nat, f: Function, buffer: seq<u8>, architecture: Architecture, format: Format,
                          decode: Decoder) {
    && f.offset < n && 1 <= f.offset + f.size <= n
    && decode(ModeOf(architecture), buffer).Some?
    && forall insn :: insn in BuildAll(decode(ModeOf(architecture), buffer).value) ==>
         InstructionFits(f, insn, format, n)
  }

  /** The decoder accepts `buffer` and every instruction it yields is
      marked in `bytes` for function `f`. */
  ghost predicate InstructionsMarked(bytes: seq<Byte>, f: Function, buffer: seq<u8>, architecture: Architecture,
                                     format: Format, decode: Decoder) {
    && decode(ModeOf(architecture), buffer).Some?
    && forall insn :: insn in BuildAll(decode(ModeOf(architecture), buffer).value) ==>
         InstructionMarked(bytes, f, insn, format)
  }

  /** One iteration of `disassemble`. It fails exactly when a PE body does
      not fit, or when a body that fits has an end outside the vector, does
      not decode, or decodes to an instruction outside the vector. */
  function DisassembleFunction(bytes: seq<Byte>, f: Function, architecture: Architecture, format: Format, decode: Decoder)
    : (r: Result<Step, Fault>)
    ensures r.Ok? <==>
      || (format == Elf && !BodyFits(f, |bytes|))
      || (BodyFits(f, |bytes|) && Decodes(|bytes|, f, BodyBuffer(bytes, f), architecture, format, decode))
    ensures format == Elf && !BodyFits(f, |bytes|) ==> r.Ok? && r.value.stop
    ensures r.Ok? ==> (r.value.stop <==> !BodyFits(f, |bytes|))
    ensures r.Ok? && r.value.stop ==> format == Elf && r.value.instructions == []
    ensures r.Ok? ==> Grows(bytes, r.value.bytes, PassFlags)
    ensures r.Ok? ==> forall i :: 0 <= i < |bytes| && Code in r.value.bytes[i].flags ==>
      Code in bytes[i].flags || Data !in bytes[i].flags
    ensures r.Ok? && !r.value.stop ==>
      && FunctionMarked(bytes, r.value.bytes, f)
      && InstructionsMarked(r.value.bytes, f, BodyBuffer(bytes, f), architecture, format, decode)
      && r.value.instructions == BuildAll(decode(ModeOf(architecture), BodyBuffer(bytes, f)).value)
  {
    var w :- BodyWalk(bytes, f.offset, f.size, format);
    if !w.complete then
      GrowsWiden(bytes, w.bytes, WalkFlags, PassFlags);
      NonDataIndicesSpec(bytes, f.offset, f.size);
      Ok(Step(w.bytes, [], true))
    else
      assert w.buffer == BodyBuffer(bytes, f);
      var s :- AfterBodyWalk(w.bytes, f, w.buffer, architecture, format, decode);
      InstructionFlagsOnly(s.instructions);
      FunctionStepFacts(bytes, f, w, s.bytes, s.instructions);
      assert FunctionMarked(bytes, s.bytes, f);
      Ok(s)
  }

  /** The rest of one iteration of `disassemble` once the body walk has
      covered the whole body and collected `buffer`: function start and end,
      then the decoded instructions. A decoder failure ends the program. */
  function AfterBodyWalk(walked: seq<Byte>, f: Function, buffer: seq<u8>, architecture: Architecture, format: Format,
                         decode: Decoder): (r: Result<Step, Fault>)
    ensures r.Ok? <==> Decodes(|walked|, f, buffer, architecture, format, decode)
    ensures r.Ok? ==> !r.value.stop && Grows(walked, r.value.bytes, MarksAfterWalk(r.value.instructions))
    ensures r.Ok? ==> FunctionStart in r.value.bytes[f.offset].flags
    ensures r.Ok? ==> FunctionEnd in r.value.bytes[f.offset + f.size - 1].flags
    ensures r.Ok? ==> r.value.instructions == BuildAll(decode(ModeOf(architecture), buffer).value)
    ensures r.Ok? ==> InstructionsMarked(r.value.bytes, f, buffer, architecture, format, decode)
    ensures r.Ok? ==> OnlyInstructionFlags(r.value.instructions)
  {
    var b2 :- MarkEnds(walked, f);
    match Disassemble(buffer, architecture, Capstone, decode)
    case Err(message) => Err(DisassemblyFailed(message))
    case Ok(insns) =>
      var b3 :- MarkInstructions(b2, f, insns, format);
      AfterWalk(walked, b2, b3, insns, f.offset, f.offset + f.size - 1);
      Ok(Step(b3, insns, false))
  }

  /** What a completed iteration of `disassemble` leaves behind. */
  lemma {:induction false} FunctionStepFacts(bytes: seq<Byte>, f: Function, w: Walk, b3: seq<Byte>, insns: seq<Instruction>)
    requires w.positions == NonDataIndices(bytes, f.offset, f.size)
    requires Grows(bytes, w.bytes, WalkFlags)
    requires forall i :: i in w.positions ==> Walked(w.bytes[i])
    requires forall i :: 0 <= i < |bytes| && i !in w.positions ==> w.bytes[i] == bytes[i]
    requires f.size == 0 || f.offset + f.size <= |bytes|
    requires FlagsOf(insns) <= InstructionFlags
    requires Grows(w.bytes, b3, MarksAfterWalk(insns))
    ensures Grows(bytes, b3, PassFlags)
    ensures forall i :: 0 <= i < |bytes| && Code in b3[i].flags ==> Code in bytes[i].flags || Data !in bytes[i].flags
    ensures forall i :: InBody(f, i) && Data !in bytes[i].flags ==> Walked(b3[i])
  {
    NonDataIndicesSpec(bytes, f.offset, f.size);
    assert Code !in MarksAfterWalk(insns);
    GrowsTrans(bytes, w.bytes, b3, WalkFlags, MarksAfterWalk(insns));
    GrowsWiden(bytes, b3, WalkFlags + MarksAfterWalk(insns), PassFlags);
  }

  /** The flags the pass adds after the body walk. */
  function MarksAfterWalk(insns: seq<Instruction>): set<Flag> {
    {FunctionStart, FunctionEnd, InstructionStart, InstructionEnd} + FlagsOf(insns)
  }

  lemma InstructionFlagsOnly(insns: seq<Instruction>)
    requires OnlyInstructionFlags(insns)
    ensures FlagsOf(insns) <= InstructionFlags
  {
    forall g | g in FlagsOf(insns) ensures g in InstructionFlags {
      var insn :| insn in insns && g in insn.flags;
      var k :| 0 <= k < |insns| && insns[k] == insn;
    }
  }

  /** Function start on the entry byte, then function end on the last
      body byte; either index outside the vector panics. */
  function MarkEnds(walked: seq<Byte>, f: Function): (r: Result<seq<Byte>, Fault>)
    ensures r.Ok? <==> f.offset < |walked| && 0 <= f.offset + f.size - 1 < |walked|
    ensures r.Ok? ==> Grows(walked, r.value, {FunctionStart, FunctionEnd})
    ensures r.Ok? ==> FunctionStart in r.value[f.offset].flags
    ensures r.Ok? ==> FunctionEnd in r.value[f.offset + f.size - 1].flags
  {
    var b1 :- MarkAt(walked, f.offset, [FunctionStart]);
    var b2 :- MarkAt(b1, f.offset + f.size - 1, [FunctionEnd]);
    assert Elements([FunctionStart]) == {FunctionStart};
    assert Elements([FunctionEnd]) == {FunctionEnd};
    GrowsTrans(walked, b1, b2, {FunctionStart}, {FunctionEnd});
    assert {FunctionStart} + {FunctionEnd} == {FunctionStart, FunctionEnd};
    Ok(b2)
  }

  lemma {:induction false} AfterWalk(walked: seq<Byte>, b2: seq<Byte>, b3: seq<Byte>,
                                     insns: seq<Instruction>, entry: int, last: int)
    requires 0 <= entry < |walked| && 0 <= last < |walked|
    requires Grows(walked, b2, {FunctionStart, FunctionEnd})
    requires FunctionStart in b2[entry].flags && FunctionEnd in b2[last].flags
    requires Grows(b2, b3, {InstructionStart, InstructionEnd} + FlagsOf(insns))
    ensures Grows(walked, b3, MarksAfterWalk(insns))
    ensures FunctionStart in b3[entry].flags && FunctionEnd in b3[last].flags
  {
    GrowsTrans(walked, b2, b3, {FunctionStart, FunctionEnd}, {InstructionStart, InstructionEnd} + FlagsOf(insns));
    GrowsWiden(walked, b3, {FunctionStart, FunctionEnd} + ({InstructionStart, InstructionEnd} + FlagsOf(insns)),
               MarksAfterWalk(insns));
  }

  /** The result of the pass: the updated bytes and every decoded instruction. */
  datatype Disassembly = Disassembly(bytes: seq<Byte>, instructions: seq<Instruction>)

  ghost predicate BodiesFit(functions: seq<Function>, n: nat) {
    forall f :: f in functions ==> BodyFits(f, n)
  }

  /** Function `f` has been fully processed in `after`: entry and last byte
      marked, every body byte that was not DATA in `before` walked. */
  ghost predicate FunctionMarked(before: seq<Byte>, after: seq<Byte>, f: Function) {
    && |after| == |before|
    && f.offset < |before| && 1 <= f.offset + f.size <= |before|
    && FunctionStart in after[f.offset].flags
    && FunctionEnd in after[f.offset + f.size - 1].flags
    && forall i :: InBody(f, i) && Data !in before[i].flags ==> Walked(after[i])
  }

  /** The bodies of the first `k` functions fit in a vector of `n` bytes. */
  predicate FitsBefore(functions: seq<Function>, k: nat, n: nat)
    requires k <= |functions|
  {
    forall j :: 0 <= j < k ==> BodyFits(functions[j], n)
  }

  /** Every function the pass reaches (all for PE; for ELF, those up to the
      first body that does not fit) either ends an ELF pass or fits and
      decodes. */
  ghost predicate FunctionsDecode(bytes: seq<Byte>, functions: seq<Function>, architecture: Architecture,
                                  format: Format, decode: Decoder) {
    forall k :: 0 <= k < |functions| && FitsBefore(functions, k, |bytes|) ==>
      FunctionDecodes(bytes, functions[k], architecture, format, decode)
  }

  /** Function `f` ends an ELF pass, or it fits and decodes. */
  ghost predicate FunctionDecodes(bytes: seq<Byte>, f: Function, architecture: Architecture, format: Format,
                                  decode: Decoder) {
    || (format == Elf && !BodyFits(f, |bytes|))
    || (BodyFits(f, |bytes|) && Decodes(|bytes|, f, BodyBuffer(bytes, f), architecture, format, decode))
  }

  /** The instructions of the functions in order, each function's being what
      the decoder makes of its non-DATA body bytes in `bytes`, up to the first
      body that does not fit. */
  function PassInstructions(bytes: seq<Byte>, functions: seq<Function>, architecture: Architecture, decode: Decoder)
    : seq<Instruction>
    decreases |functions|
  {
    if |functions| == 0 || !BodyFits(functions[0], |bytes|) then []
    else match decode(ModeOf(architecture), BodyBuffer(bytes, functions[0]))
      case None => []
      case Some(raws) => BuildAll(raws) + PassInstructions(bytes, functions[1..], architecture, decode)
  }

  /** `disassemble`: the functions in order. A PE function that does not fit
      in the vector panics; the first ELF function that does not fit ends the
      pass, and the functions after it are never looked at. The pass adds only
      its own flags, never makes a DATA byte CODE, collects the instructions
      of every function it reaches, and when every body fits it marks every
      function and every instruction. */
  function DisassemblePass(bytes: seq<Byte>, functions: seq<Function>, architecture: Architecture,
                           format: Format, decode: Decoder): (r: Result<Disassembly, Fault>)
    ensures r.Ok? <==> FunctionsDecode(bytes, functions, architecture, format, decode)
    ensures format == Pe && !BodiesFit(functions, |bytes|) ==> r.Err?
    ensures r.Ok? ==> r.value.instructions == PassInstructions(bytes, functions, architecture, decode)
    ensures r.Ok? ==> Grows(bytes, r.value.bytes, PassFlags)
    ensures r.Ok? ==> forall i :: 0 <= i < |bytes| && Code in r.value.bytes[i].flags ==>
      Code in bytes[i].flags || Data !in bytes[i].flags
    ensures r.Ok? && BodiesFit(functions, |bytes|) ==>
      forall f :: f in functions ==> FunctionMarked(bytes, r.value.bytes, f)
    ensures r.Ok? && BodiesFit(functions, |bytes|) ==>
      forall f :: f in functions ==>
        InstructionsMarked(r.value.bytes, f, BodyBuffer(bytes, f), architecture, format, decode)
    decreases |functions|
  {
    if |functions| == 0 then Ok(Disassembly(bytes, []))
    else
      assert FitsBefore(functions, 0, |bytes|);
      match DisassembleFunction(bytes, functions[0], architecture, format, decode)
      case Err(e) => Err(e)
      case Ok(s) =>
        if s.stop then
          assert !BodiesFit(functions, |bytes|);
          assert forall k :: 0 < k <= |functions| ==> !FitsBefore(functions, k, |bytes|);
          Ok(Disassembly(s.bytes, []))
        else
          assert BodiesFit(functions, |bytes|) <==> BodyFits(functions[0], |bytes|) && BodiesFit(functions[1..], |bytes|) by {
            forall g | g in functions && g != functions[0] ensures g in functions[1..] {
            }
          }
          PassDecodesStep(bytes, s.bytes, functions, architecture, format, decode);
          match DisassemblePass(s.bytes, functions[1..], architecture, format, decode)
          case Err(e) => Err(e)
          case Ok(rest) =>
            PassStep(bytes, s.bytes, rest.bytes, functions);
            PassMarksStep(bytes, s.bytes, rest.bytes, functions, architecture, format, decode);
            Ok(Disassembly(rest.bytes, s.instructions + rest.instructions))
  }

  lemma {:induction false} PassStep(bytes: seq<Byte>, step: seq<Byte>, last: seq<Byte>, functions: seq<Function>)
    requires |functions| > 0
    requires Grows(bytes, step, PassFlags)
    requires forall i :: 0 <= i < |bytes| && Code in step[i].flags ==> Code in bytes[i].flags || Data !in bytes[i].flags
    requires FunctionMarked(bytes, step, functions[0])
    requires Grows(step, last, PassFlags)
    requires forall i :: 0 <= i < |step| && Code in last[i].flags ==> Code in step[i].flags || Data !in step[i].flags
    requires BodiesFit(functions[1..], |step|) ==> forall f :: f in functions[1..] ==> FunctionMarked(step, last, f)
    ensures Grows(bytes, last, PassFlags)
    ensures forall i :: 0 <= i < |bytes| && Code in last[i].flags ==> Code in bytes[i].flags || Data !in bytes[i].flags
    ensures BodiesFit(functions[1..], |bytes|) ==> forall f :: f in functions ==> FunctionMarked(bytes, last, f)
  {
    assert Data !in PassFlags;
    GrowsTrans(bytes, step, last, PassFlags, PassFlags);
    assert PassFlags + PassFlags == PassFlags;
    if BodiesFit(functions[1..], |bytes|) {
      forall f | f in functions ensures FunctionMarked(bytes, last, f) {
        if f != functions[0] {
          assert f in functions[1..];
          assert FunctionMarked(step, last, f);
        }
      }
    }
  }

  /** Growing flags other than DATA keeps a body's decoder input. */
  lemma GrowsKeepsBodyBuffer(a: seq<Byte>, b: seq<Byte>, gained: set<Flag>, f: Function)
    requires Grows(a, b, gained) && Data !in gained
    ensures BodyBuffer(a, f) == BodyBuffer(b, f)
  {
    NonDataIndicesSame(a, b, f.offset, f.size);
    var ps := NonDataIndices(a, f.offset, f.size);
    assert Values(a, ps) == Values(b, ps);
  }

  /** Growing flags keeps every instruction mark. */
  lemma GrowsKeepsInstructionsMarked(a: seq<Byte>, b: seq<Byte>, gained: set<Flag>, f: Function, buffer: seq<u8>,
                                     architecture: Architecture, format: Format, decode: Decoder)
    requires Grows(a, b, gained) && InstructionsMarked(a, f, buffer, architecture, format, decode)
    ensures InstructionsMarked(b, f, buffer, architecture, format, decode)
  {
  }

  lemma {:induction false} PassInstructionsSame(a: seq<Byte>, b: seq<Byte>, functions: seq<Function>,
                                                architecture: Architecture, decode: Decoder)
    requires Grows(a, b, PassFlags)
    ensures PassInstructions(a, functions, architecture, decode) == PassInstructions(b, functions, architecture, decode)
    decreases |functions|
  {
    if |functions| > 0 {
      assert Data !in PassFlags;
      GrowsKeepsBodyBuffer(a, b, PassFlags, functions[0]);
      PassInstructionsSame(a, b, functions[1..], architecture, decode);
    }
  }

  /** After a first function that fits and decodes, what the pass still
      needs and still collects is read off the rest of the functions, on the
      updated bytes. */
  lemma PassDecodesStep(bytes: seq<Byte>, step: seq<Byte>, functions: seq<Function>, architecture: Architecture,
                        format: Format, decode: Decoder)
    requires |functions| > 0 && Grows(bytes, step, PassFlags)
    requires BodyFits(functions[0], |bytes|)
    requires Decodes(|bytes|, functions[0], BodyBuffer(bytes, functions[0]), architecture, format, decode)
    ensures FunctionsDecode(bytes, functions, architecture, format, decode) <==>
      FunctionsDecode(step, functions[1..], architecture, format, decode)
    ensures PassInstructions(bytes, functions, architecture, decode) ==
      BuildAll(decode(ModeOf(architecture), BodyBuffer(bytes, functions[0])).value)
      + PassInstructions(step, functions[1..], architecture, decode)
  {
    PassInstructionsSame(bytes, step, functions[1..], architecture, decode);
    if FunctionsDecode(bytes, functions, architecture, format, decode) {
      RestDecodes(bytes, step, functions, architecture, format, decode);
    }
    if FunctionsDecode(step, functions[1..], architecture, format, decode) {
      AllDecode(bytes, step, functions, architecture, format, decode);
    }
  }

  lemma RestDecodes(bytes: seq<Byte>, step: seq<Byte>, functions: seq<Function>, architecture: Architecture,
                    format: Format, decode: Decoder)
    requires |functions| > 0 && Grows(bytes, step, PassFlags)
    requires BodyFits(functions[0], |bytes|)
    requires FunctionsDecode(bytes, functions, architecture, format, decode)
    ensures FunctionsDecode(step, functions[1..], architecture, format, decode)
  {
    var rest := functions[1..];
    forall k | 0 <= k < |rest| && FitsBefore(rest, k, |step|)
      ensures FunctionDecodes(step, rest[k], architecture, format, decode)
    {
      ShiftedFunction(bytes, step, functions, k, architecture, format, decode);
    }
  }

  lemma AllDecode(bytes: seq<Byte>, step: seq<Byte>, functions: seq<Function>, architecture: Architecture,
                  format: Format, decode: Decoder)
    requires |functions| > 0 && Grows(bytes, step, PassFlags)
    requires BodyFits(functions[0], |bytes|)
    requires Decodes(|bytes|, functions[0], BodyBuffer(bytes, functions[0]), architecture, format, decode)
    requires FunctionsDecode(step, functions[1..], architecture, format, decode)
    ensures FunctionsDecode(bytes, functions, architecture, format, decode)
  {
    forall k | 0 <= k < |functions| && FitsBefore(functions, k, |bytes|)
      ensures FunctionDecodes(bytes, functions[k], architecture, format, decode)
    {
      if k > 0 {
        ShiftedFunction(bytes, step, functions, k - 1, architecture, format, decode);
        assert FunctionDecodes(step, functions[1..][k - 1], architecture, format, decode);
      }
    }
  }

  /** Function `k` of the rest is function `k + 1` of the whole, with the
      same prefix condition and the same decoding outcome. */
  lemma ShiftedFunction(bytes: seq<Byte>, step: seq<Byte>, functions: seq<Function>, k: nat,
                        architecture: Architecture, format: Format, decode: Decoder)
    requires k + 1 < |functions| && Grows(bytes, step, PassFlags)
    requires BodyFits(functions[0], |bytes|)
    ensures functions[1..][k] == functions[k + 1]
    ensures FitsBefore(functions[1..], k, |step|) <==> FitsBefore(functions, k + 1, |bytes|)
    ensures FunctionDecodes(step, functions[k + 1], architecture, format, decode) <==>
      FunctionDecodes(bytes, functions[k + 1], architecture, format, decode)
  {
    assert Data !in PassFlags;
    assert forall j :: 0 <= j < k ==> functions[1..][j] == functions[j + 1];
    GrowsKeepsBodyBuffer(bytes, step, PassFlags, functions[k + 1]);
  }

  /** The instruction marks of the first function survive the rest of the
      pass, and the rest's marks are stated on the original bytes. */
  lemma PassMarksStep(bytes: seq<Byte>, step: seq<Byte>, last: seq<Byte>, functions: seq<Function>,
                      architecture: Architecture, format: Format, decode: Decoder)
    requires |functions| > 0 && Grows(bytes, step, PassFlags) && Grows(step, last, PassFlags)
    requires InstructionsMarked(step, functions[0], BodyBuffer(bytes, functions[0]), architecture, format, decode)
    requires BodiesFit(functions[1..], |step|) ==> forall f :: f in functions[1..] ==>
      InstructionsMarked(last, f, BodyBuffer(step, f), architecture, format, decode)
    ensures BodiesFit(functions[1..], |bytes|) ==> forall f :: f in functions ==>
      InstructionsMarked(last, f, BodyBuffer(bytes, f), architecture, format, decode)
  {
    assert Data !in PassFlags;
    GrowsKeepsInstructionsMarked(step, last, PassFlags, functions[0], BodyBuffer(bytes, functions[0]),
                                 architecture, format, decode);
    if BodiesFit(functions[1..], |bytes|) {
      forall f | f in functions ensures InstructionsMarked(last, f, BodyBuffer(bytes, f), architecture, format, decode) {
        if f != functions[0] {
          assert f in functions[1..];
          GrowsKeepsBodyBuffer(bytes, step, PassFlags, f);
        }
      }
    }
  }

  /** An ELF function that reaches past the vector ends the pass: whatever
      functions follow it, the outcome is the same and holds no instructions. */
  lemma ElfStopSkipsLaterFunctions(bytes: seq<Byte>, f: Function, rest1: seq<Function>, rest2: seq<Function>,
                                   architecture: Architecture, decode: Decoder)
    requires !BodyFits(f, |bytes|)
    ensures DisassemblePass(bytes, [f] + rest1, architecture, Elf, decode).Ok?
    ensures DisassemblePass(bytes, [f] + rest1, architecture, Elf, decode)
         == DisassemblePass(bytes, [f] + rest2, architecture, Elf, decode)
    ensures DisassemblePass(bytes, [f] + rest1, architecture, Elf, decode).value.instructions == []
  {
    assert ([f] + rest1)[0] == f && ([f] + rest2)[0] == f;
  }

  /** `lo, lo + 1, ..., hi - 1`. */
  function Range(lo: nat, hi: nat): (r: seq<nat>)
    requires lo <= hi
    ensures |r| == hi - lo
    decreases hi - lo
  {
    if lo == hi then [] else [lo] + Range(lo + 1, hi)
  }

  lemma {:induction false} RangeAt(lo: nat, hi: nat)
    requires lo <= hi
    ensures forall k :: 0 <= k < hi - lo ==> Range(lo, hi)[k] == lo + k
    decreases hi - lo
  {
    if lo < hi {
      RangeAt(lo + 1, hi);
    }
  }

  lemma {:induction false} NonDataRun(bytes: seq<Byte>, first: nat, count: nat, m: nat)
    requires m <= count && first + m <= |bytes|
    requires forall i :: first <= i < first + m ==> Data !in bytes[i].flags
    ensures NonDataIndices(bytes, first, count) == Range(first, first + m) + NonDataIndices(bytes, first + m, count - m)
    decreases m
  {
    if m > 0 {
      var run := Range(first + 1, first + m);
      var rest := NonDataIndices(bytes, first + m, count - m);
      NonDataRun(bytes, first + 1, count - 1, m - 1);
      assert NonDataIndices(bytes, first, count) == [first] + NonDataIndices(bytes, first + 1, count - 1) by {
        assert Data !in bytes[first].flags;
      }
      assert Range(first, first + m) == [first] + run;
      AppendAssoc([first], run, rest);
    }
  }

  lemma AppendAssoc<T>(a: seq<T>, b: seq<T>, c: seq<T>)
    ensures a + (b + c) == (a + b) + c
  {
  }

  lemma {:induction false} DataRun(bytes: seq<Byte>, first: nat, count: nat, m: nat)
    requires m <= count && first + m <= |bytes|
    requires forall i :: first <= i < first + m ==> Data in bytes[i].flags
    ensures NonDataIndices(bytes, first, count) == NonDataIndices(bytes, first + m, count - m)
    decreases m
  {
    if m > 0 {
      DataRun(bytes, first + 1, count - 1, m - 1);
    }
  }

  /** The non-DATA indices of a body holding one block of DATA: the bytes
      before the block, then the bytes after it. */
  lemma SingleBlockPositions(bytes: seq<Byte>, first: nat, count: nat, lo: nat, hi: nat)
    requires first <= lo <= hi <= first + count <= |bytes|
    requires forall i :: first <= i < first + count ==> (Data in bytes[i].flags <==> lo <= i < hi)
    ensures NonDataIndices(bytes, first, count) == Range(first, lo) + Range(hi, first + count)
  {
    var tail := Range(hi, first + count);
    NonDataRun(bytes, first, count, lo - first);
    DataRun(bytes, lo, count - (lo - first), hi - lo);
    NonDataRun(bytes, hi, first + count - hi, first + count - hi);
    assert NonDataIndices(bytes, first + count, 0) == [];
    assert tail + [] == tail;
    calc {
      NonDataIndices(bytes, first, count);
      Range(first, lo) + NonDataIndices(bytes, lo, count - (lo - first));
      Range(first, lo) + NonDataIndices(bytes, hi, first + count - hi);
      Range(first, lo) + (tail + NonDataIndices(bytes, first + count, 0));
      Range(first, lo) + tail;
    }
  }

  /** With one block of child data inside the body (and no other DATA byte
      there), the in-line shift sends every instruction to the byte whose
      value the decoder saw at the instruction's buffer offset. */
  lemma InlineShiftFindsByte(bytes: seq<Byte>, f: Function, d: DataSymbol)
    requires f.data == [d]
    requires f.offset <= d.offset && d.offset + d.size <= f.offset + f.size <= |bytes|
    requires forall i :: InBody(f, i) ==> (Data in bytes[i].flags <==> d.offset <= i < d.offset + d.size)
    ensures var positions := NonDataIndices(bytes, f.offset, f.size);
      forall insn: Instruction :: insn.offset < |positions| ==> InstructionFirst(f, insn, Pe) == positions[insn.offset]
  {
    SingleBlockPositions(bytes, f.offset, f.size, d.offset, d.offset + d.size);
    RangeAt(f.offset, d.offset);
    RangeAt(d.offset + d.size, f.offset + f.size);
    var positions := NonDataIndices(bytes, f.offset, f.size);
    var before := d.offset - f.offset;
    forall insn: Instruction | insn.offset < |positions|
      ensures InstructionFirst(f, insn, Pe) == positions[insn.offset]
    {
      var k := insn.offset;
      assert [d][1..] == [];
      var shift := if k + f.offset >= d.offset then d.size else 0;
      assert InlineShift(f.data, k + f.offset, 0) == InlineShift([], k + f.offset, shift);
      if k < before {
        assert positions[k] == f.offset + k;
      } else {
        assert positions[k] == d.offset + d.size + (k - before);
      }
    }
  }

  lemma GrowsWiden(a: seq<Byte>, b: seq<Byte>, s: set<Flag>, t: set<Flag>)
    requires Grows(a, b, s) && s <= t
    ensures Grows(a, b, t)
  {
  }
}

=== FILE: disassembler.dfy ===
/** The adapter around the instruction decoder: mode selection, the backend
    switch, and the translation of each decoded instruction into an
    `Instruction` with flags derived from its instruction groups and from the
    alignment ("nop"-like) patterns. The decoding library itself is a
    parameter of type `Decoder`; nothing is assumed about what it returns. */
module Disassembler {
  import opened Wrappers
  import opened Vectors
  import opened GroundTruth

  datatype Backend = Capstone | Zydis

  datatype Mode = Mode32 | Mode64

  /** What the decoding library reports for one instruction: its address
      (relative to the start of the decoded buffer), its bytes, its mnemonic,
      its operand text and its group ids. */
  datatype RawInstruction = RawInstruction(
    address: nat,
    bytes: seq<u8>,
    mnemonic: string,
    operand: string,
    groups: seq<u8>)

  /** The decoding library: decodes a whole buffer, starting at address 0, in
      the given mode; `None` when it reports an error. */
  type Decoder = (Mode, seq<u8>) -> Option<seq<RawInstruction>>

  /** Capstone's instruction group ids. */
  const GroupJump: u8 := 1
  const GroupCall: u8 := 2
  const GroupRet: u8 := 3
  const GroupInt: u8 := 4
  const GroupIret: u8 := 5

  /** The only flags an instruction can ever carry. */
  const InstructionFlags: set<Flag> :=
    {InstructionJump, InstructionCall, InstructionRet, InstructionInt, InstructionIret, InstructionAlignment}

  const DecodeError := "Could not disassemble given bytes!"

  /** 32-bit mode for x86 and 64-bit mode for every other architecture. */
  function ModeOf(architecture: Architecture): (m: Mode)
    ensures m == Mode32 <==> architecture == X86
  {
    match architecture
    case X86 => Mode32
    case X64 => Mode64
    case Unknown => Mode64
  }

  /** The flag an instruction group contributes; unknown groups add nothing. */
  function GroupFlag(group: u8): (r: Option<Flag>)
    ensures r.Some? <==> GroupJump <= group <= GroupIret
    ensures r.Some? ==> GroupOf(r.value) == Some(group)
  {
    if group == GroupCall then Some(InstructionCall)
    else if group == GroupInt then Some(InstructionInt)
    else if group == GroupIret then Some(InstructionIret)
    else if group == GroupJump then Some(InstructionJump)
    else if group == GroupRet then Some(InstructionRet)
    else None
  }

  /** The group id that stands for a flag, if any. */
  function GroupOf(f: Flag): Option<u8> {
    match f
    case InstructionJump => Some(GroupJump)
    case InstructionCall => Some(GroupCall)
    case InstructionRet => Some(GroupRet)
    case InstructionInt => Some(GroupInt)
    case InstructionIret => Some(GroupIret)
    case _ => None
  }

  /** The group table is a bijection between the ids 1..5 and the five
      control-flow flags: `GroupOf` inverts `GroupFlag`, and every other id
      maps to no flag. */
  lemma GroupTableIsBijective(group: u8, f: Flag)
    ensures GroupFlag(group) == Some(f) <==> GroupOf(f) == Some(group)
    ensures GroupFlag(group).Some? <==> 1 <= group <= 5
    ensures GroupFlag(group).Some? ==> GroupFlag(group).value in InstructionFlags
  {
  }

  /** Some group of the instruction maps to flag `f`. */
  ghost predicate GrantedBy(groups: seq<u8>, f: Flag) {
    exists g :: g in groups && GroupFlag(g) == Some(f)
  }

  /** The loop over the group ids: each recognised group pushes its flag. */
  function ApplyGroups(flags: seq<Flag>, groups: seq<u8>): (r: seq<Flag>)
    ensures forall f :: f in r <==> f in flags || GrantedBy(groups, f)
    ensures NoAdjacentDuplicates(flags) ==> NoAdjacentDuplicates(r)
    decreases |groups|
  {
    if |groups| == 0 then flags
    else
      var next := match GroupFlag(groups[0])
        case Some(f) => SetFlags(flags, [f])
        case None => flags;
      assert forall f :: GrantedBy(groups, f) <==> GrantedBy(groups[1..], f) || GroupFlag(groups[0]) == Some(f) by {
        forall f ensures GrantedBy(groups, f) ==> GrantedBy(groups[1..], f) || GroupFlag(groups[0]) == Some(f) {
          if GrantedBy(groups, f) {
            var g :| g in groups && GroupFlag(g) == Some(f);
            if g != groups[0] {
              assert g in groups[1..];
            }
          }
        }
      }
      ApplyGroups(next, groups[1..])
  }

  const LeaMiddle: string := ", dword ptr ["

  predicate IsRegisterPrefix(c: char) {
    c == 'r' || c == 'e'
  }

  predicate IsLowerLetter(c: char) {
    'a' <= c <= 'z'
  }

  /** The operand pattern `^(r|e)([a-z]{2}), dword ptr \[(r|e)\2\]$` of the
      MSVC padding `lea`, checked position by position: the two-letter
      register stem after the bracket must repeat the one before the comma,
      while the two `r`/`e` prefixes are independent. */
  predicate IsMsvcLeaOperand(op: string) {
    && |op| == 20
    && IsRegisterPrefix(op[0])
    && IsLowerLetter(op[1]) && IsLowerLetter(op[2])
    && op[3..16] == LeaMiddle
    && IsRegisterPrefix(op[16])
    && op[17..19] == op[1..3]
    && op[19] == ']'
  }

  /** The operand text `<p><stem>, dword ptr [<q><stem>]`. */
  function LeaOperand(p: char, stem: string, q: char): string {
    [p] + stem + LeaMiddle + [q] + stem + "]"
  }

  ghost predicate IsRegisterStem(stem: string) {
    |stem| == 2 && IsLowerLetter(stem[0]) && IsLowerLetter(stem[1])
  }

  /** The position-by-position check accepts exactly the operand texts built
      by `LeaOperand` from two register prefixes and one repeated stem. */
  lemma MsvcLeaOperandShape(op: string)
    ensures IsMsvcLeaOperand(op) <==>
      exists p, stem, q :: IsRegisterPrefix(p) && IsRegisterStem(stem) && IsRegisterPrefix(q)
        && op == LeaOperand(p, stem, q)
  {
    if IsMsvcLeaOperand(op) {
      var stem := op[1..3];
      assert op == LeaOperand(op[0], stem, op[16]);
    }
    if exists p, stem, q :: IsRegisterPrefix(p) && IsRegisterStem(stem) && IsRegisterPrefix(q)
        && op == LeaOperand(p, stem, q) {
      var p, stem, q :| IsRegisterPrefix(p) && IsRegisterStem(stem) && IsRegisterPrefix(q)
        && op == LeaOperand(p, stem, q);
      assert op[1..3] == stem;
      assert op[3..16] == LeaMiddle;
      assert op[17..19] == stem;
    }
  }

  /** Sample operands: the same stem on both sides matches, whatever the
      two prefixes. */
  lemma MsvcLeaOperandAccepts()
    ensures IsMsvcLeaOperand("edi, dword ptr [edi]")
    ensures IsMsvcLeaOperand("rsi, dword ptr [esi]")
  {
    var a := "edi, dword ptr [edi]";
    assert a[3..16] == LeaMiddle && a[17..19] == a[1..3];
    var b := "rsi, dword ptr [esi]";
    assert b[3..16] == LeaMiddle && b[17..19] == b[1..3];
  }

  /** Sample operands: a different stem or operand size does not match. */
  lemma MsvcLeaOperandRejects()
    ensures !IsMsvcLeaOperand("edi, dword ptr [esi]")
    ensures !IsMsvcLeaOperand("edi, qword ptr [edi]")
  {
    assert "edi, dword ptr [esi]"[17..19] == "si";
    assert "edi, qword ptr [edi]"[3..16][2] == 'q';
  }

  /** An instruction used only as padding: any `nop`, or the MSVC `lea` form. */
  predicate IsAlignmentInstruction(mnemonic: string, operand: string)
    ensures mnemonic == "nop" ==> IsAlignmentInstruction(mnemonic, operand)
    ensures mnemonic != "nop" && mnemonic != "lea" ==> !IsAlignmentInstruction(mnemonic, operand)
    ensures mnemonic == "lea" ==> (IsAlignmentInstruction(mnemonic, operand) <==> IsMsvcLeaOperand(operand))
  {
    mnemonic == "nop" || (mnemonic == "lea" && IsMsvcLeaOperand(operand))
  }

  /** Builds the `Instruction` for one decoded instruction: offset and length
      come from the decoder, the flags are the group flags plus
      `InstructionAlignment` for padding instructions, and nothing else. */
  function BuildInstruction(raw: RawInstruction): (r: Instruction)
    ensures r.mnemonic == raw.mnemonic && r.operand == raw.operand && r.bytes == raw.bytes
    ensures r.offset == raw.address && r.length == |raw.bytes|
    ensures forall f :: f in r.flags <==>
      GrantedBy(raw.groups, f) || (f == InstructionAlignment && IsAlignmentInstruction(raw.mnemonic, raw.operand))
    ensures InstructionIsAlignment(r) <==> IsAlignmentInstruction(raw.mnemonic, raw.operand)
    ensures forall f :: f in r.flags ==> f in InstructionFlags
    ensures NoAdjacentDuplicates(r.flags)
  {
    var grouped := Instruction(raw.mnemonic, raw.operand, raw.bytes, raw.address, |raw.bytes|,
                               ApplyGroups([], raw.groups));
    assert !GrantedBy(raw.groups, InstructionAlignment);
    assert forall f :: GrantedBy(raw.groups, f) ==> f in InstructionFlags;
    var afterNop := if raw.mnemonic == "nop" then InstructionWithFlags(grouped, [InstructionAlignment]) else grouped;
    if raw.mnemonic == "lea" && IsMsvcLeaOperand(raw.operand) then
      InstructionWithFlags(afterNop, [InstructionAlignment])
    else
      afterNop
  }

  /** One `Instruction` per decoded instruction, in decoder order. */
  function BuildAll(raws: seq<RawInstruction>): (r: seq<Instruction>)
    ensures |r| == |raws|
    ensures forall i :: 0 <= i < |raws| ==> r[i] == BuildInstruction(raws[i])
    decreases |raws|
  {
    if |raws| == 0 then [] else [BuildInstruction(raws[0])] + BuildAll(raws[1..])
  }

  /** Every flag of every built instruction is an instruction flag. */
  ghost predicate OnlyInstructionFlags(insns: seq<Instruction>) {
    forall i, f :: 0 <= i < |insns| && f in insns[i].flags ==> f in InstructionFlags
  }

  /** `disassemble_capstone`: decodes in the mode of the architecture and
      fails exactly when the decoder fails. */
  function DisassembleCapstone(buffer: seq<u8>, architecture: Architecture, decode: Decoder)
    : (r: Result<seq<Instruction>, string>)
    ensures r.Ok? <==> decode(ModeOf(architecture), buffer).Some?
    ensures r.Ok? ==> r.value == BuildAll(decode(ModeOf(architecture), buffer).value)
    ensures r.Err? ==> r.error == DecodeError
  {
    match decode(ModeOf(architecture), buffer)
    case None => Err(DecodeError)
    case Some(raws) => Ok(BuildAll(raws))
  }

  /** `disassemble_zydis` is a stub: it succeeds with no instructions. */
  function DisassembleZydis(buffer: seq<u8>, architecture: Architecture): (r: Result<seq<Instruction>, string>)
    ensures r.Ok? && |r.value| == 0
  {
    Ok([])
  }

  /** `disassemble`: the backend switch. Whatever the backend, the produced
      instructions follow the decoder's order, have the decoder's offsets and
      lengths, and carry only instruction flags. */
  function Disassemble(buffer: seq<u8>, architecture: Architecture, backend: Backend, decode: Decoder)
    : (r: Result<seq<Instruction>, string>)
    ensures backend == Zydis ==> r == Ok([])
    ensures backend == Capstone ==> (r.Ok? <==> decode(ModeOf(architecture), buffer).Some?)
    ensures backend == Capstone && r.Ok? ==>
      var raws := decode(ModeOf(architecture), buffer).value;
      |r.value| == |raws| &&
      forall i :: 0 <= i < |raws| ==> r.value[i].offset == raws[i].address && r.value[i].length == |raws[i].bytes|
    ensures r.Ok? ==> OnlyInstructionFlags(r.value)
  {
    match backend
    case Capstone => DisassembleCapstone(buffer, architecture, decode)
    case Zydis => DisassembleZydis(buffer, architecture)
  }
}

=== FILE: dumper.dfy ===
/** The outputs: the plain text dump, where every section gets a banner and
    a summary and the `.text` section gets one line per run of alike bytes,
    and the byte statistics of the YAML dump. */
module Dumper {
  import opened GroundTruth
  import opened Alignment

  /** How a line classifies the byte that starts it; CODE wins over DATA,
      DATA over INSTRUCTION_ALIGNMENT, and a byte with none of them is
      unknown. */
  datatype Kind = CodeKind | DataKind | AlignKind | UnknownKind

  function KindOf(b: Byte): (r: Kind)
    ensures r == CodeKind <==> IsCode(b)
    ensures r == DataKind <==> IsData(b) && !IsCode(b)
    ensures r == AlignKind <==> IsAlignment(b) && !IsCode(b) && !IsData(b)
    ensures r == UnknownKind <==> !IsAlignment(b) && !IsCode(b) && !IsData(b)
  {
    if IsCode(b) then CodeKind
    else if IsData(b) then DataKind
    else if IsAlignment(b) then AlignKind
    else UnknownKind
  }

  /** The test that lets a byte extend the current line: it has exactly the
      line's classification and does not start an instruction. */
  predicate Continues(k: Kind, b: Byte) {
    match k
    case CodeKind => IsCode(b) && !IsInstructionStart(b) && !IsData(b) && !IsAlignment(b)
    case DataKind => IsData(b) && !IsInstructionStart(b) && !IsCode(b) && !IsAlignment(b)
    case AlignKind => IsAlignment(b) && !IsInstructionStart(b) && !IsCode(b) && !IsData(b)
    case UnknownKind => !IsAlignment(b) && !IsInstructionStart(b) && !IsCode(b) && !IsData(b)
  }

  /** The letter printed for every further byte of a line. */
  function Letter(k: Kind): char {
    match k
    case CodeKind => 'C'
    case DataKind => 'D'
    case AlignKind => 'N'
    case UnknownKind => 'U'
  }

  /** The position of a flag letter in the fixed order F, N, J, 3, R, I. */
  function Rank(c: char): nat {
    if c == 'F' then 0
    else if c == 'N' then 1
    else if c == 'J' then 2
    else if c == '3' then 3
    else if c == 'R' then 4
    else if c == 'I' then 5
    else 6
  }

  /** The letters of `s` come in strictly increasing rank: each at most once,
      in the fixed order. */
  predicate Ranked(s: string) {
    forall a, c :: 0 <= a < c < |s| ==> Rank(s[a]) < Rank(s[c])
  }

  /** The letters a code byte that starts a line shows before its C:
      F (function start), N (alignment), J (jump), 3 (interrupt), R (return)
      and I (instruction start), each exactly when its flag is set, in that
      order. */
  function FlagLetters(b: Byte): (r: string)
    ensures 'C' !in r && 'D' !in r && 'U' !in r
    ensures forall d :: d in r ==> Rank(d) < 6
    ensures 'F' in r <==> IsFunctionStart(b)
    ensures 'N' in r <==> IsAlignment(b)
    ensures 'J' in r <==> IsInstructionJump(b)
    ensures '3' in r <==> IsInstructionInterrupt(b)
    ensures 'R' in r <==> IsInstructionReturn(b)
    ensures 'I' in r <==> IsInstructionStart(b)
    ensures Ranked(r)
  {
    SpelledLetters(b);
    SpelledMembers(b);
    SpelledRanked(b);
    Spelled(b)
  }

  /** The letters appended one after the other, as the dump does. */
  function Spelled(b: Byte): string {
    Mark(IsFunctionStart(b), 'F')
    + (Mark(IsAlignment(b), 'N')
    + (Mark(IsInstructionJump(b), 'J')
    + (Mark(IsInstructionInterrupt(b), '3')
    + (Mark(IsInstructionReturn(b), 'R')
    + Mark(IsInstructionStart(b), 'I')))))
  }

  /** The letter `c` when `on` holds, else nothing. */
  function Mark(on: bool, c: char): (r: string)
    ensures |r| <= 1
    ensures forall d :: d in r ==> d == c
    ensures c in r <==> on
  {
    if on then [c] else []
  }

  /** Only the six flag letters occur. */
  lemma SpelledLetters(b: Byte)
    ensures var r := Spelled(b);
      && 'C' !in r && 'D' !in r && 'U' !in r
      && (forall d :: d in r ==> Rank(d) < 6)
  {
    MarksLetters(IsFunctionStart(b), IsAlignment(b), IsInstructionJump(b), IsInstructionInterrupt(b),
                 IsInstructionReturn(b), IsInstructionStart(b));
  }

  /** The same, for any choice of the six flags. */
  lemma MarksLetters(f: bool, n: bool, j: bool, t: bool, r: bool, i: bool)
    ensures var s := Mark(f, 'F') + (Mark(n, 'N') + (Mark(j, 'J') + (Mark(t, '3') + (Mark(r, 'R') + Mark(i, 'I')))));
      && 'C' !in s && 'D' !in s && 'U' !in s
      && (forall d :: d in s ==> Rank(d) < 6)
  {
    var s := Mark(f, 'F') + (Mark(n, 'N') + (Mark(j, 'J') + (Mark(t, '3') + (Mark(r, 'R') + Mark(i, 'I')))));
    forall d | d in s ensures Rank(d) < 6 {
      assert d in Mark(f, 'F') || d in Mark(n, 'N') || d in Mark(j, 'J')
        || d in Mark(t, '3') || d in Mark(r, 'R') || d in Mark(i, 'I');
    }
    assert Rank('C') == 6 && Rank('D') == 6 && Rank('U') == 6;
  }

  /** Each letter occurs exactly when its flag is set. */
  lemma SpelledMembers(b: Byte)
    ensures var r := Spelled(b);
      && ('F' in r <==> IsFunctionStart(b))
      && ('N' in r <==> IsAlignment(b))
      && ('J' in r <==> IsInstructionJump(b))
      && ('3' in r <==> IsInstructionInterrupt(b))
      && ('R' in r <==> IsInstructionReturn(b))
      && ('I' in r <==> IsInstructionStart(b))
  {
    SpelledParts(b);
  }

  /** A letter occurs in the spelling when it occurs in one of its parts. */
  lemma SpelledParts(b: Byte)
    ensures forall d :: d in Spelled(b) <==>
      || d in Mark(IsFunctionStart(b), 'F')
      || d in Mark(IsAlignment(b), 'N')
      || d in Mark(IsInstructionJump(b), 'J')
      || d in Mark(IsInstructionInterrupt(b), '3')
      || d in Mark(IsInstructionReturn(b), 'R')
      || d in Mark(IsInstructionStart(b), 'I')
  {
  }

  lemma SpelledRanked(b: Byte)
    ensures Ranked(Spelled(b))
  {
    var i := Mark(IsInstructionStart(b), 'I');
    var r := Mark(IsInstructionReturn(b), 'R');
    var t := Mark(IsInstructionInterrupt(b), '3');
    var j := Mark(IsInstructionJump(b), 'J');
    var n := Mark(IsAlignment(b), 'N');
    var f := Mark(IsFunctionStart(b), 'F');
    assert Rank('F') == 0 && Rank('N') == 1 && Rank('J') == 2 && Rank('3') == 3 && Rank('R') == 4 && Rank('I') == 5;
    assert Ranked(i);
    RankedPrepend(r, 'R', i);
    var ri := r + i;
    RankedPrepend(t, '3', ri);
    var tri := t + ri;
    RankedPrepend(j, 'J', tri);
    var jtri := j + tri;
    RankedPrepend(n, 'N', jtri);
    var njtri := n + jtri;
    RankedPrepend(f, 'F', njtri);
  }

  /** At most the letter `c` in front of letters of higher rank keeps the
      order. */
  lemma RankedPrepend(m: string, c: char, rest: string)
    requires |m| <= 1 && forall d :: d in m ==> d == c
    requires Ranked(rest)
    requires forall d :: d in rest ==> Rank(c) < Rank(d)
    ensures Ranked(m + rest)
    ensures forall d :: d in m + rest ==> Rank(c) <= Rank(d)
  {
    var r := m + rest;
    forall a, e | 0 <= a < e < |r| ensures Rank(r[a]) < Rank(r[e]) {
      if |m| == 1 {
        assert r[e] == rest[e - 1] && rest[e - 1] in rest;
        if a > 0 {
          assert r[a] == rest[a - 1];
        } else {
          assert r[a] == m[0] && m[0] in m;
        }
      } else {
        assert r == rest;
      }
    }
  }

  /** The letters between the brackets for the byte that starts a line. */
  function HeadLetters(b: Byte): string {
    if IsCode(b) then FlagLetters(b) + "C" else [Letter(KindOf(b))]
  }

  /** The number of bytes from `j` on that extend a line of kind `k`. */
  function RunLength(bytes: seq<Byte>, j: nat, k: Kind): (n: nat)
    requires j <= |bytes|
    ensures j + n <= |bytes|
    ensures forall m :: j <= m < j + n ==> Continues(k, bytes[m])
    ensures j + n == |bytes| || !Continues(k, bytes[j + n])
    decreases |bytes| - j
  {
    if j == |bytes| || !Continues(k, bytes[j]) then 0 else 1 + RunLength(bytes, j + 1, k)
  }

  function Repeat(c: char, n: nat): (r: string)
    ensures |r| == n
    ensures forall m :: 0 <= m < n ==> r[m] == c
  {
    seq(n, m => c)
  }

  /** One line of the `.text` part: the address of its first byte and the
      flag string `[...]` followed by one letter per further byte. */
  datatype Line = Line(address: int, flags: string)

  /** The loop of `plain::dump` over the bytes from index `i`. */
  function ByteLines(bytes: seq<Byte>, i: nat, imageBase: nat): (r: seq<Line>)
    requires i <= |bytes|
    ensures |r| <= |bytes| - i
    ensures |r| == 0 <==> i == |bytes|
    ensures i < |bytes| ==> r[0].address == bytes[i].offset + imageBase
    decreases |bytes| - i
  {
    if i == |bytes| then []
    else [LineAt(bytes, i, imageBase)] + ByteLines(bytes, NextStart(bytes, i), imageBase)
  }

  /** Line `k` of the loop is the line that starts at the `k`-th line start,
      and shows the address of the byte there. */
  lemma {:induction false} ByteLinesAt(bytes: seq<Byte>, i: nat, imageBase: nat)
    requires i <= |bytes|
    ensures var r := ByteLines(bytes, i, imageBase);
      var starts := LineStarts(bytes, i);
      && |r| == |starts|
      && forall k :: 0 <= k < |r| ==>
        && r[k].address == bytes[starts[k]].offset + imageBase
        && r[k] == LineAt(bytes, starts[k], imageBase)
    decreases |bytes| - i
  {
    if i < |bytes| {
      var next := NextStart(bytes, i);
      ByteLinesAt(bytes, next, imageBase);
      var rest := ByteLines(bytes, next, imageBase);
      var later := LineStarts(bytes, next);
      var r := ByteLines(bytes, i, imageBase);
      var starts := LineStarts(bytes, i);
      assert r == [LineAt(bytes, i, imageBase)] + rest;
      assert starts == [i] + later;
      forall k | 0 <= k < |r|
        ensures r[k].address == bytes[starts[k]].offset + imageBase
        ensures r[k] == LineAt(bytes, starts[k], imageBase)
      {
        if k > 0 {
          assert r[k] == rest[k - 1] && starts[k] == later[k - 1];
        }
      }
    }
  }

  /** The indices at which the lines from `i` on start: `i` itself, then
      each line starts right after the run of the one before it, until the
      end of the bytes. */
  function LineStarts(bytes: seq<Byte>, i: nat): (r: seq<nat>)
    requires i <= |bytes|
    ensures |r| <= |bytes| - i
    ensures |r| == 0 <==> i == |bytes|
    ensures |r| > 0 ==> r[0] == i
    ensures forall k :: 0 <= k < |r| ==> i <= r[k] < |bytes|
    ensures forall k {:trigger NextStart(bytes, r[k])} :: 0 <= k < |r| - 1 ==> r[k + 1] == NextStart(bytes, r[k])
    ensures |r| > 0 ==> NextStart(bytes, r[|r| - 1]) == |bytes|
    decreases |bytes| - i
  {
    if i == |bytes| then []
    else
      var next := NextStart(bytes, i);
      var rest := LineStarts(bytes, next);
      var r := [i] + rest;
      StartsCons(bytes, i, next, rest, r);
      r
  }

  /** The chain of line starts from `i` is `i` followed by the chain from
      the next start. */
  lemma StartsCons(bytes: seq<Byte>, i: nat, next: nat, rest: seq<nat>, r: seq<nat>)
    requires i < |bytes| && next == NextStart(bytes, i) && r == [i] + rest
    requires |rest| == 0 <==> next == |bytes|
    requires |rest| > 0 ==> rest[0] == next
    requires forall k :: 0 <= k < |rest| ==> next <= rest[k] < |bytes|
    requires forall k :: 0 <= k < |rest| - 1 ==> rest[k + 1] == NextStart(bytes, rest[k])
    requires |rest| > 0 ==> NextStart(bytes, rest[|rest| - 1]) == |bytes|
    ensures forall k :: 0 <= k < |r| ==> i <= r[k] < |bytes|
    ensures forall k :: 0 <= k < |r| - 1 ==> r[k + 1] == NextStart(bytes, r[k])
    ensures NextStart(bytes, r[|r| - 1]) == |bytes|
  {
    assert forall k :: 0 < k < |r| ==> r[k] == rest[k - 1];
  }

  /** The index of the first byte after the line that starts at `i`: the
      line takes the byte at `i` and the longest run after it of bytes that
      continue its kind. */
  function NextStart(bytes: seq<Byte>, i: nat): (j: nat)
    requires i < |bytes|
    ensures i < j <= |bytes|
    ensures forall m :: i < m < j ==> Continues(KindOf(bytes[i]), bytes[m])
    ensures j == |bytes| || !Continues(KindOf(bytes[i]), bytes[j])
  {
    i + 1 + RunLength(bytes, i + 1, KindOf(bytes[i]))
  }

  /** The line that starts at byte `i`: the address of that byte, then its
      letters in brackets and one letter per further byte of the run. */
  function LineAt(bytes: seq<Byte>, i: nat, imageBase: nat): (r: Line)
    requires i < |bytes|
    ensures r.address == bytes[i].offset + imageBase
    ensures |r.flags| == |HeadLetters(bytes[i])| + 2 + (NextStart(bytes, i) - i - 1)
  {
    var b := bytes[i];
    var k := KindOf(b);
    Line(b.offset + imageBase, "[" + HeadLetters(b) + "]" + Repeat(Letter(k), RunLength(bytes, i + 1, k)))
  }

  function Sum(s: seq<nat>): nat {
    if |s| == 0 then 0 else s[0] + Sum(s[1..])
  }

  /** The number of bytes each line covers: the lines cover every byte from
      `i` on exactly once, each at least one byte. */
  function LineSpans(bytes: seq<Byte>, i: nat): (r: seq<nat>)
    requires i <= |bytes|
    ensures forall imageBase: nat {:trigger ByteLines(bytes, i, imageBase)} :: |r| == |ByteLines(bytes, i, imageBase)|
    ensures Sum(r) == |bytes| - i
    ensures forall j :: 0 <= j < |r| ==> r[j] >= 1
    decreases |bytes| - i
  {
    if i == |bytes| then []
    else
      var next := NextStart(bytes, i);
      var rest := LineSpans(bytes, next);
      assert ([next - i] + rest)[1..] == rest;
      [next - i] + rest
  }

  // ------------------------------------------------------------ letter counts

  function Occurrences(c: char, s: string): nat {
    if |s| == 0 then 0 else (if s[0] == c then 1 else 0) + Occurrences(c, s[1..])
  }

  function LineOccurrences(c: char, lines: seq<Line>): nat {
    if |lines| == 0 then 0 else Occurrences(c, lines[0].flags) + LineOccurrences(c, lines[1..])
  }

  /** The number of bytes in `lo .. hi` of kind `k`. */
  function KindCount(bytes: seq<Byte>, lo: nat, hi: nat, k: Kind): nat
    requires lo <= hi <= |bytes|
    decreases hi - lo
  {
    if lo == hi then 0 else (if KindOf(bytes[lo]) == k then 1 else 0) + KindCount(bytes, lo + 1, hi, k)
  }

  lemma {:induction false} OccurrencesConcat(c: char, s: string, t: string)
    ensures Occurrences(c, s + t) == Occurrences(c, s) + Occurrences(c, t)
    decreases |s|
  {
    if |s| == 0 {
      assert s + t == t;
    } else {
      assert (s + t)[1..] == s[1..] + t;
      OccurrencesConcat(c, s[1..], t);
    }
  }

  lemma {:induction false} OccurrencesRepeat(c: char, d: char, n: nat)
    ensures Occurrences(c, Repeat(d, n)) == if c == d then n else 0
    decreases n
  {
    if n > 0 {
      assert Repeat(d, n)[1..] == Repeat(d, n - 1);
      OccurrencesRepeat(c, d, n - 1);
    }
  }

  lemma {:induction false} OccurrencesAbsent(c: char, s: string)
    requires c !in s
    ensures Occurrences(c, s) == 0
    decreases |s|
  {
    if |s| > 0 {
      assert s == [s[0]] + s[1..];
      OccurrencesAbsent(c, s[1..]);
    }
  }

  lemma OccurrencesSingle(c: char, d: char)
    ensures Occurrences(c, [d]) == if c == d then 1 else 0
  {
    assert [d][1..] == [];
  }

  /** In the flag string of a line's first byte, the letter of a kind other
      than alignment appears once when the byte is of that kind, else never. */
  lemma HeadOccurrences(b: Byte, k: Kind)
    requires k != AlignKind
    ensures Occurrences(Letter(k), "[" + HeadLetters(b) + "]") == if KindOf(b) == k then 1 else 0
  {
    var c := Letter(k);
    var head := HeadLetters(b);
    OccurrencesConcat(c, "[" + head, "]");
    OccurrencesConcat(c, "[", head);
    OccurrencesSingle(c, '[');
    OccurrencesSingle(c, ']');
    if IsCode(b) {
      OccurrencesConcat(c, FlagLetters(b), "C");
      OccurrencesAbsent(c, FlagLetters(b));
      OccurrencesSingle(c, 'C');
    } else {
      OccurrencesSingle(c, Letter(KindOf(b)));
    }
  }

  lemma {:induction false} KindCountSplit(bytes: seq<Byte>, lo: nat, mid: nat, hi: nat, k: Kind)
    requires lo <= mid <= hi <= |bytes|
    ensures KindCount(bytes, lo, hi, k) == KindCount(bytes, lo, mid, k) + KindCount(bytes, mid, hi, k)
    decreases mid - lo
  {
    if lo < mid {
      KindCountSplit(bytes, lo + 1, mid, hi, k);
    }
  }

  /** Bytes that all have kind `run` hold `hi - lo` bytes of that kind and
      none of any other. */
  lemma {:induction false} KindCountUniform(bytes: seq<Byte>, lo: nat, hi: nat, run: Kind, k: Kind)
    requires lo <= hi <= |bytes|
    requires forall m :: lo <= m < hi ==> KindOf(bytes[m]) == run
    ensures KindCount(bytes, lo, hi, k) == if run == k then hi - lo else 0
    decreases hi - lo
  {
    if lo < hi {
      KindCountUniform(bytes, lo + 1, hi, run, k);
    }
  }

  /** The line that starts at `i` shows the letter of a kind other than
      alignment once per byte of that kind it covers. */
  lemma LineAtLetters(bytes: seq<Byte>, i: nat, imageBase: nat, k: Kind)
    requires i < |bytes|
    requires k != AlignKind
    ensures Occurrences(Letter(k), LineAt(bytes, i, imageBase).flags) == KindCount(bytes, i, NextStart(bytes, i), k)
  {
    var b := bytes[i];
    var run := KindOf(b);
    var j := NextStart(bytes, i);
    LineRunKinds(bytes, i);
    LineFlagsSplit(bytes, i, imageBase);
    OccurrencesConcat(Letter(k), "[" + HeadLetters(b) + "]", Repeat(Letter(run), j - i - 1));
    HeadOccurrences(b, k);
    OccurrencesRepeat(Letter(k), Letter(run), j - i - 1);
    assert Letter(k) == Letter(run) <==> k == run;
    KindCountUniform(bytes, i, j, run, k);
  }

  /** A line's flag string: the head in brackets, then one letter per
      further byte of the run. */
  lemma LineFlagsSplit(bytes: seq<Byte>, i: nat, imageBase: nat)
    requires i < |bytes|
    ensures LineAt(bytes, i, imageBase).flags ==
      "[" + HeadLetters(bytes[i]) + "]" + Repeat(Letter(KindOf(bytes[i])), NextStart(bytes, i) - i - 1)
  {
  }

  /** Every byte of a line has the kind of its first byte. */
  lemma LineRunKinds(bytes: seq<Byte>, i: nat)
    requires i < |bytes|
    ensures forall m :: i <= m < NextStart(bytes, i) ==> KindOf(bytes[m]) == KindOf(bytes[i])
  {
    forall m | i < m < NextStart(bytes, i) ensures KindOf(bytes[m]) == KindOf(bytes[i]) {
      ContinuesKeepsKind(KindOf(bytes[i]), bytes[m]);
    }
  }

  /** A byte that continues a line has the line's kind. */
  lemma ContinuesKeepsKind(k: Kind, b: Byte)
    requires Continues(k, b)
    ensures KindOf(b) == k
  {
  }

  /** Every byte of the `.text` section is accounted for in the dump: the
      number of C letters is the number of CODE bytes, the number of D
      letters the number of DATA bytes that are not CODE, and the number of U
      letters the number of bytes that are neither CODE, DATA nor alignment. */
  lemma {:induction false} LettersCountKinds(bytes: seq<Byte>, i: nat, imageBase: nat, k: Kind)
    requires i <= |bytes|
    requires k != AlignKind
    ensures LineOccurrences(Letter(k), ByteLines(bytes, i, imageBase)) == KindCount(bytes, i, |bytes|, k)
    decreases |bytes| - i
  {
    if i < |bytes| {
      var j := NextStart(bytes, i);
      var first := LineAt(bytes, i, imageBase);
      var rest := ByteLines(bytes, j, imageBase);
      var lines := [first] + rest;
      assert ByteLines(bytes, i, imageBase) == lines;
      assert lines[0] == first && lines[1..] == rest;
      LettersCountKinds(bytes, j, imageBase, k);
      LineAtLetters(bytes, i, imageBase, k);
      KindCountSplit(bytes, i, j, |bytes|, k);
    }
  }

  /** Three code bytes of one function: `push`, then a byte inside it, then
      a `ret` that starts its own instruction. */
  const StartExample: seq<Byte> :=
    [Byte(0, 0x55, [Code, FunctionStart, InstructionStart]),
     Byte(1, 0x8B, [Code]),
     Byte(2, 0xC3, [Code, InstructionStart, InstructionRet])]

  lemma StartExampleStarts()
    ensures NextStart(StartExample, 0) == 2 && NextStart(StartExample, 2) == 3
  {
    var bytes := StartExample;
    assert KindOf(bytes[0]) == CodeKind && KindOf(bytes[2]) == CodeKind;
    assert Continues(CodeKind, bytes[1]) && !Continues(CodeKind, bytes[2]);
    assert RunLength(bytes, 3, CodeKind) == 0;
    assert RunLength(bytes, 2, CodeKind) == 0;
    assert RunLength(bytes, 1, CodeKind) == 1;
  }

  /** A byte that starts an instruction always starts a new line, even in
      the middle of a function. */
  lemma InstructionStartBeginsLine()
    ensures var lines := ByteLines(StartExample, 0, 0x400000);
      |lines| == 2 && lines[0].address == 0x400000 && lines[1].address == 0x400002
  {
    StartExampleStarts();
    TwoLines(StartExample, 0x400000);
  }

  /** Three bytes whose runs are `[0, 2)` and `[2, 3)` make two lines. */
  lemma TwoLines(b: seq<Byte>, imageBase: nat)
    requires |b| == 3 && NextStart(b, 0) == 2 && NextStart(b, 2) == 3
    ensures var lines := ByteLines(b, 0, imageBase);
      |lines| == 2 && lines[0].address == b[0].offset + imageBase && lines[1].address == b[2].offset + imageBase
  {
    var rest := ByteLines(b, 2, imageBase);
    ByteLinesCons(b, 0, imageBase);
    ByteLinesCons(b, 2, imageBase);
    ByteLinesTwo(ByteLines(b, 0, imageBase), LineAt(b, 0, imageBase), rest, LineAt(b, 2, imageBase), ByteLines(b, 3, imageBase));
  }

  /** One step of the loop: the line at `i`, then the lines after its run. */
  lemma ByteLinesCons(bytes: seq<Byte>, i: nat, imageBase: nat)
    requires i < |bytes|
    ensures ByteLines(bytes, i, imageBase) == [LineAt(bytes, i, imageBase)] + ByteLines(bytes, NextStart(bytes, i), imageBase)
  {
  }

  lemma ByteLinesTwo(lines: seq<Line>, first: Line, rest: seq<Line>, second: Line, tail: seq<Line>)
    requires lines == [first] + rest && rest == [second] + tail && |tail| == 0
    ensures |lines| == 2 && lines[0] == first && lines[1] == second
  {
  }

  // ------------------------------------------------------------ the dumps

  /** The lines of the plain dump. */
  datatype DumpLine =
    | Banner(name: string)
    | Summary(name: string, va: nat, size: nat)
    | Bytes(line: Line)

  lemma MulSucc(n: nat, m: nat)
    ensures (1 + n) * m == m + n * m
  {
  }

  /** Whether the dump prints the byte lines after this section's header. */
  predicate IsText(s: Section) {
    s.name == ".text"
  }

  function TextSections(sections: seq<Section>): (r: nat)
    ensures r <= |sections|
  {
    if |sections| == 0 then 0 else (if IsText(sections[0]) then 1 else 0) + TextSections(sections[1..])
  }

  /** The byte lines as lines of the dump. */
  function TextLines(lines: seq<Line>): (r: seq<DumpLine>)
    ensures |r| == |lines|
    ensures forall j :: 0 <= j < |lines| ==> r[j] == Bytes(lines[j])
  {
    seq(|lines|, j requires 0 <= j < |lines| => Bytes(lines[j]))
  }

  /** `plain::dump`: two lines per section, and for every section called
      `.text` the byte lines of the whole byte vector. */
  function PlainDump(imageBase: nat, sections: seq<Section>, bytes: seq<Byte>): (r: seq<DumpLine>)
    ensures |r| == 2 * |sections| + TextSections(sections) * |ByteLines(bytes, 0, imageBase)|
    ensures |sections| > 0 ==> r[0] == Banner(sections[0].name) && r[1] == Summary(sections[0].name, sections[0].va, sections[0].rawDataSize)
  {
    if |sections| == 0 then []
    else
      var s := sections[0];
      var lines := |ByteLines(bytes, 0, imageBase)|;
      var own := if IsText(s) then TextLines(ByteLines(bytes, 0, imageBase)) else [];
      var rest := PlainDump(imageBase, sections[1..], bytes);
      var n := TextSections(sections[1..]);
      assert |own| + n * lines == TextSections(sections) * lines by {
        if IsText(s) {
          assert TextSections(sections) == 1 + n;
          MulSucc(n, lines);
        } else {
          assert TextSections(sections) == n;
        }
      }
      [Banner(s.name), Summary(s.name, s.va, s.rawDataSize)] + own + rest
  }

  /** Where the lines of section `k` begin in the plain dump, when the
      byte part has `lines` lines: two lines per earlier section, and the
      byte lines after each earlier `.text` section. */
  function DumpOffset(sections: seq<Section>, k: nat, lines: nat): nat
    requires k <= |sections|
    decreases k
  {
    if k == 0 then 0
    else 2 + (if IsText(sections[0]) then lines else 0) + DumpOffset(sections[1..], k - 1, lines)
  }

  /** The layout of the plain dump: section `k` gets its banner and its
      summary at its offset, followed by the byte lines exactly when it is
      called `.text`; the next section begins right after. */
  lemma PlainDumpLayout(imageBase: nat, sections: seq<Section>, bytes: seq<Byte>, k: nat)
    requires k < |sections|
    ensures SectionLaidOut(PlainDump(imageBase, sections, bytes), sections, k, ByteLines(bytes, 0, imageBase))
  {
    var body := ByteLines(bytes, 0, imageBase);
    PlainDumpIsSectionDumps(imageBase, sections, bytes);
    SectionDumpsLayout(sections, body, k);
  }

  /** The sections' lines one after the other, for a given byte part. */
  function SectionDumps(sections: seq<Section>, body: seq<Line>): seq<DumpLine> {
    if |sections| == 0 then [] else DumpHead(sections[0], body) + SectionDumps(sections[1..], body)
  }

  lemma {:induction false} PlainDumpIsSectionDumps(imageBase: nat, sections: seq<Section>, bytes: seq<Byte>)
    ensures PlainDump(imageBase, sections, bytes) == SectionDumps(sections, ByteLines(bytes, 0, imageBase))
    decreases |sections|
  {
    if |sections| > 0 {
      PlainDumpCons(imageBase, sections, bytes);
      PlainDumpIsSectionDumps(imageBase, sections[1..], bytes);
    }
  }

  lemma {:induction false} SectionDumpsLayout(sections: seq<Section>, body: seq<Line>, k: nat)
    requires k < |sections|
    ensures SectionLaidOut(SectionDumps(sections, body), sections, k, body)
    decreases k
  {
    var head := DumpHead(sections[0], body);
    var rest := SectionDumps(sections[1..], body);
    if k == 0 {
      PlainDumpFirst(head, rest, sections, body);
    } else {
      SectionDumpsLayout(sections[1..], body, k - 1);
      SectionLaidOutShift(head, rest, sections, k, body);
    }
  }

  /** Section `k` of `sections` sits in `r` as the dump lays it out. */
  ghost predicate SectionLaidOut(r: seq<DumpLine>, sections: seq<Section>, k: nat, body: seq<Line>)
    requires k < |sections|
  {
    var off := DumpOffset(sections, k, |body|);
    var s := sections[k];
    && DumpOffset(sections, k + 1, |body|) == off + 2 + (if IsText(s) then |body| else 0)
    && DumpOffset(sections, k + 1, |body|) <= |r|
    && r[off] == Banner(s.name)
    && r[off + 1] == Summary(s.name, s.va, s.rawDataSize)
    && (IsText(s) ==> r[off + 2..off + 2 + |body|] == TextLines(body))
  }

  /** The lines of one section: banner, summary and, for `.text`, the byte
      lines. */
  function DumpHead(s: Section, body: seq<Line>): (r: seq<DumpLine>)
    ensures |r| == 2 + (if IsText(s) then |body| else 0)
  {
    [Banner(s.name), Summary(s.name, s.va, s.rawDataSize)] + (if IsText(s) then TextLines(body) else [])
  }

  lemma PlainDumpCons(imageBase: nat, sections: seq<Section>, bytes: seq<Byte>)
    requires |sections| > 0
    ensures PlainDump(imageBase, sections, bytes)
      == DumpHead(sections[0], ByteLines(bytes, 0, imageBase)) + PlainDump(imageBase, sections[1..], bytes)
  {
  }

  lemma {:induction false} PlainDumpFirst(head: seq<DumpLine>, rest: seq<DumpLine>, sections: seq<Section>, body: seq<Line>)
    requires |sections| > 0 && head == DumpHead(sections[0], body)
    ensures SectionLaidOut(head + rest, sections, 0, body)
  {
    var r := head + rest;
    assert DumpOffset(sections[1..], 0, |body|) == 0;
    if IsText(sections[0]) {
      assert r[2..2 + |body|] == head[2..] == TextLines(body);
    }
  }

  /** The layout of section `k - 1` after the first section carries over
      to section `k` of the whole list. */
  lemma {:induction false} SectionLaidOutShift(head: seq<DumpLine>, rest: seq<DumpLine>, sections: seq<Section>, k: nat, body: seq<Line>)
    requires 0 < k < |sections| && head == DumpHead(sections[0], body)
    requires SectionLaidOut(rest, sections[1..], k - 1, body)
    ensures SectionLaidOut(head + rest, sections, k, body)
  {
    var r := head + rest;
    var off' := DumpOffset(sections[1..], k - 1, |body|);
    assert DumpOffset(sections, k, |body|) == |head| + off';
    assert DumpOffset(sections, k + 1, |body|) == |head| + DumpOffset(sections[1..], k, |body|);
    assert sections[1..][k - 1] == sections[k];
    assert r[|head| + off'] == rest[off'];
    assert r[|head| + off' + 1] == rest[off' + 1];
    if IsText(sections[k]) {
      assert r[|head| + off' + 2..|head| + off' + 2 + |body|] == rest[off' + 2..off' + 2 + |body|];
    }
  }

  /** The dump ends after the last section's lines. */
  lemma PlainDumpEnds(imageBase: nat, sections: seq<Section>, bytes: seq<Byte>)
    ensures |PlainDump(imageBase, sections, bytes)| == DumpOffset(sections, |sections|, |ByteLines(bytes, 0, imageBase)|)
  {
    PlainDumpIsSectionDumps(imageBase, sections, bytes);
    SectionDumpsEnds(sections, ByteLines(bytes, 0, imageBase));
  }

  lemma {:induction false} SectionDumpsEnds(sections: seq<Section>, body: seq<Line>)
    ensures |SectionDumps(sections, body)| == DumpOffset(sections, |sections|, |body|)
    decreases |sections|
  {
    if |sections| > 0 {
      SectionDumpsEnds(sections[1..], body);
    }
  }

  /** The number of bytes with at least one flag (`bytes_identified`). */
  function Identified(bytes: seq<Byte>): (r: nat)
    ensures r <= |bytes|
  {
    if |bytes| == 0 then 0 else (if |bytes[0].flags| > 0 then 1 else 0) + Identified(bytes[1..])
  }

  lemma {:induction false} IdentifiedAndFlagless(bytes: seq<Byte>)
    ensures Identified(bytes) + FlaglessCount(bytes) == |bytes|
    decreases |bytes|
  {
    if |bytes| > 0 {
      IdentifiedAndFlagless(bytes[1..]);
    }
  }

  /** The statistics of the YAML dump: the identified bytes are exactly the
      bytes outside the holes. */
  lemma IdentifiedIsOutsideHoles(bytes: seq<Byte>)
    ensures Identified(bytes) == |bytes| - SumSizes(Holes(bytes))
  {
    IdentifiedAndFlagless(bytes);
    HoleSizesCountFlaglessBytes(bytes);
  }
}

=== FILE: groundtruth.dfy ===
/** The ground-truth data model: byte flags, the per-byte record, decoded
    instructions and the symbol records read from a debug dump (functions,
    labels, data symbols, thunks), plus the sections of a binary and the
    "holes" (runs of unclassified bytes) found in a byte vector. */
module GroundTruth {
  import opened Vectors

  /** An unsigned 8-bit quantity (a byte value, a PDB segment, a group id). */
  type u8 = x: int | 0 <= x < 0x100

  /** The flags a byte or an instruction can carry. */
  datatype Flag =
    | Code
    | Data
    | Executable
    | Writeable
    | Readable
    | InstructionStart
    | InstructionEnd
    | FunctionStart
    | FunctionEnd
    | BlockStart
    | InstructionAlignment
    | InstructionJump
    | InstructionCall
    | InstructionRet
    | InstructionInt
    | InstructionIret

  datatype Architecture = X64 | X86 | Unknown

  /** One byte of the binary: its offset, its value and its flag list. The
      flag list is a sequence, not a set: `set_flags` only merges neighbours. */
  datatype Byte = Byte(offset: nat, value: u8, flags: seq<Flag>)

  /** One decoded instruction; `offset` is relative to the decoded buffer. */
  datatype Instruction = Instruction(
    mnemonic: string,
    operand: string,
    bytes: seq<u8>,
    offset: nat,
    length: nat,
    flags: seq<Flag>)

  datatype Section = Section(name: string, va: nat, rawDataOffset: nat, rawDataSize: nat)

  /** A run of flagless bytes. `end` is the index of the last byte of the run;
      `start` is computed by the scan and may be -1 (see `Alignment.Holes`). */
  datatype Hole = Hole(start: int, end: nat, size: nat)

  datatype Thunk = Thunk(offset: nat, segment: u8, size: nat)

  datatype DataSymbol = DataSymbol(name: string, offset: nat, segment: u8, size: nat)

  datatype Label = Label(name: string, offset: nat, segment: u8)

  datatype Function = Function(
    name: string,
    offset: nat,
    segment: u8,
    size: nat,
    labels: seq<Label>,
    data: seq<DataSymbol>)

  /** Everything read from a PDB dump. */
  datatype Pdb = Pdb(
    imageBase: nat,
    architecture: Architecture,
    functions: seq<Function>,
    data: seq<DataSymbol>,
    thunks: seq<Thunk>,
    labels: seq<Label>)

  /** Everything read from an ELF dump. */
  datatype Dwarf = Dwarf(imageBase: nat, architecture: Architecture, functions: seq<Function>)

  /** The flag update shared by `Byte::set_flags` and `Instruction::set_flags`:
      push every new flag, then `dedup`. No flag is ever lost, every new flag is
      present afterwards, and the old list survives as a prefix. */
  function SetFlags(flags: seq<Flag>, added: seq<Flag>): (r: seq<Flag>)
    ensures forall f :: f in r <==> f in flags || f in added
    ensures NoAdjacentDuplicates(r)
    ensures NoAdjacentDuplicates(flags) ==> flags <= r
  {
    assert NoAdjacentDuplicates(flags) ==> flags <= Dedup(flags + added) by {
      if NoAdjacentDuplicates(flags) {
        DedupKeepsPrefix(flags, added);
      }
    }
    Dedup(flags + added)
  }

  /** Adjacent-only deduplication: a flag that is already present but not last
      is appended again. */
  lemma FlagListIsNotASet()
    ensures SetFlags([Code, Data], [Code]) == [Code, Data, Code]
  {
    var s := [Code, Data, Code];
    assert [Code, Data] + [Code] == s;
    assert s[1..][1..] == [Code];
    assert Dedup(s[1..]) == [Data] + Dedup([Code]);
  }

  /** `Byte::set_flags`: only the flag list changes. */
  function WithFlags(b: Byte, added: seq<Flag>): (r: Byte)
    ensures r.offset == b.offset && r.value == b.value
    ensures forall f :: f in r.flags <==> f in b.flags || f in added
    ensures NoAdjacentDuplicates(r.flags)
    ensures NoAdjacentDuplicates(b.flags) ==> b.flags <= r.flags
  {
    b.(flags := SetFlags(b.flags, added))
  }

  function IsCode(b: Byte): (r: bool)
    ensures r <==> Code in b.flags
  {
    Any(b.flags, Code)
  }

  function IsData(b: Byte): (r: bool)
    ensures r <==> Data in b.flags
  {
    Any(b.flags, Data)
  }

  function IsAlignment(b: Byte): (r: bool)
    ensures r <==> InstructionAlignment in b.flags
  {
    Any(b.flags, InstructionAlignment)
  }

  function IsInstructionJump(b: Byte): (r: bool)
    ensures r <==> InstructionJump in b.flags
  {
    Any(b.flags, InstructionJump)
  }

  function IsInstructionReturn(b: Byte): (r: bool)
    ensures r <==> InstructionRet in b.flags
  {
    Any(b.flags, InstructionRet)
  }

  function IsInstructionStart(b: Byte): (r: bool)
    ensures r <==> InstructionStart in b.flags
  {
    Any(b.flags, InstructionStart)
  }

  function IsInstructionInterrupt(b: Byte): (r: bool)
    ensures r <==> InstructionInt in b.flags
  {
    Any(b.flags, InstructionInt)
  }

  function IsFunctionStart(b: Byte): (r: bool)
    ensures r <==> FunctionStart in b.flags
  {
    Any(b.flags, FunctionStart)
  }

  /** `Instruction::set_flags`: the same push-then-dedup as for bytes. */
  function InstructionWithFlags(i: Instruction, added: seq<Flag>): (r: Instruction)
    ensures r.mnemonic == i.mnemonic && r.operand == i.operand && r.bytes == i.bytes
    ensures r.offset == i.offset && r.length == i.length
    ensures forall f :: f in r.flags <==> f in i.flags || f in added
    ensures NoAdjacentDuplicates(r.flags)
  {
    i.(flags := SetFlags(i.flags, added))
  }

  function InstructionIsAlignment(i: Instruction): (r: bool)
    ensures r <==> InstructionAlignment in i.flags
  {
    Any(i.flags, InstructionAlignment)
  }
}

=== FILE: parser.dfy ===
/** The symbol loaders for PDB and ELF dumps, after the YAML text has been
    read: the dump is given as abstract records whose fields are the values
    the loaders read. A field the loader reads with `unwrap()` is a plain
    field here; a field whose absence the loader handles is an `Option`; a
    sub-record whose absence makes the loader panic is an `Option` whose
    `None` gives `Err(MalformedRecord)`. */
module Parser {
  import opened Wrappers
  import opened Vectors
  import opened GroundTruth

  /** A YAML integer as `as_i64()` returns it. */
  type i64 = x: int | -0x8000_0000_0000_0000 <= x < 0x8000_0000_0000_0000

  const U64Modulus: nat := 0x1_0000_0000_0000_0000

  /** `x as u64`: negative values wrap around. */
  function AsU64(x: i64): (r: nat)
    ensures r < U64Modulus
    ensures (r - x) % U64Modulus == 0
    ensures 0 <= x ==> r == x
  {
    if x < 0 then x + U64Modulus else x
  }

  /** `x as u8`: only the low eight bits survive. */
  function AsU8(x: int): (r: u8)
    ensures (r - x) % 0x100 == 0
    ensures 0 <= x < 0x100 ==> r == x
  {
    x % 0x100
  }

  datatype LoadError =
    | MissingTpiStream   // "Could not parse TpiStream"
    | MissingDbiStream   // "Could not parse DbiStream"
    | MissingSymbols     // "Could not parse Symbols"
    | MalformedRecord    // an `unwrap()` on a missing sub-record panics
    | UnknownSection     // an ELF symbol names a section that does not exist

  const X86ImageBase: nat := 0x400000
  const X64ImageBase: nat := 0x140000000

  /** The architecture and image base of a PDB's `MachineType`; every
      unrecognised machine is `Unknown` with the 64-bit image base. */
  function PdbArchitecture(machineType: string): (r: (Architecture, nat))
    ensures r.0 == X86 <==> machineType == "x86"
    ensures r.0 == X64 <==> machineType == "x64"
    ensures r.1 == if r.0 == X86 then X86ImageBase else X64ImageBase
  {
    if machineType == "x86" then (X86, X86ImageBase)
    else if machineType == "x64" then (X64, X64ImageBase)
    else (Unknown, X64ImageBase)
  }

  /** The same mapping for an ELF header's `Class`. */
  function ElfArchitecture(fileClass: string): (r: (Architecture, nat))
    ensures r.0 == X86 <==> fileClass == "ELFCLASS32"
    ensures r.0 == X64 <==> fileClass == "ELFCLASS64"
    ensures r.1 == if r.0 == X86 then X86ImageBase else X64ImageBase
  {
    if fileClass == "ELFCLASS32" then (X86, X86ImageBase)
    else if fileClass == "ELFCLASS64" then (X64, X64ImageBase)
    else (Unknown, X64ImageBase)
  }

  function FunctionOffset(f: Function): nat { f.offset }
  function DataOffset(d: DataSymbol): nat { d.offset }
  function LabelOffset(l: Label): nat { l.offset }
  function ThunkOffset(t: Thunk): nat { t.offset }

  // ---------------------------------------------------------------- PDB

  datatype ProcSym = ProcSym(displayName: string, offset: i64, segment: i64, codeSize: i64)

  datatype Thunk32Sym = Thunk32Sym(off: i64, seg: i64, len: i64)

  datatype LabelSym = LabelSym(displayName: string, offset: i64, segment: i64)

  datatype DataSym = DataSym(displayName: Option<string>, offset: i64, segment: i64)

  /** One symbol record of a module stream: its `Kind` and whichever
      sub-records the dump holds. */
  datatype PdbRecord = PdbRecord(
    kind: string,
    procSym: Option<ProcSym>,
    thunk32Sym: Option<Thunk32Sym>,
    labelSym: Option<LabelSym>,
    dataSym: Option<DataSym>)

  /** A DBI module; `modi` is its `Modi.Records`, absent when the module has no `Modi`. */
  datatype PdbModule = PdbModule(modi: Option<seq<PdbRecord>>)

  datatype DbiStream = DbiStream(modules: seq<PdbModule>, machineType: string)

  /** A PDB dump: whether it has a `TpiStream` (whose type records the loader
      reads but does not use) and its `DbiStream`, if any. */
  datatype PdbDocument = PdbDocument(hasTpiStream: bool, dbiStream: Option<DbiStream>)

  /** The symbols gathered so far, one collection per kind. */
  datatype Symbols = Symbols(
    functions: seq<Function>,
    labels: seq<Label>,
    data: seq<DataSymbol>,
    thunks: seq<Thunk>)

  const NoSymbols := Symbols([], [], [], [])

  function Join(a: Symbols, b: Symbols): Symbols {
    Symbols(a.functions + b.functions, a.labels + b.labels, a.data + b.data, a.thunks + b.thunks)
  }

  const Placeholder: string := "PLACEHOLDER"
  const ThunkName: string := "<Thunk>"

  /** `parse_function`: the procedure's name, and its offset, segment and
      code size cast as `as u64` and `as u8` do; the function has no
      children yet. */
  function ParseFunction(p: ProcSym): (r: Function)
    ensures r.name == p.displayName && r.labels == [] && r.data == []
    ensures r.offset == AsU64(p.offset) && r.segment == AsU8(p.segment) && r.size == AsU64(p.codeSize)
    ensures 0 <= p.offset ==> r.offset == p.offset
    ensures 0 <= p.codeSize ==> r.size == p.codeSize
  {
    Function(p.displayName, AsU64(p.offset), AsU8(p.segment), AsU64(p.codeSize), [], [])
  }

  /** `parse_thunk`: `Off`, `Seg` and `Len` cast as `as u64` and `as u8` do. */
  function ParseThunk(t: Thunk32Sym): (r: Thunk)
    ensures r.offset == AsU64(t.off) && r.segment == AsU8(t.seg) && r.size == AsU64(t.len)
    ensures 0 <= t.off ==> r.offset == t.off
    ensures 0 <= t.len ==> r.size == t.len
  {
    Thunk(AsU64(t.off), AsU8(t.seg), AsU64(t.len))
  }

  /** `parse_label`: the label's name, and its offset and segment cast as
      `as u64` and `as u8` do. */
  function ParseLabel(l: LabelSym): (r: Label)
    ensures r.name == l.displayName
    ensures r.offset == AsU64(l.offset) && r.segment == AsU8(l.segment)
    ensures 0 <= l.offset ==> r.offset == l.offset
  {
    Label(l.displayName, AsU64(l.offset), AsU8(l.segment))
  }

  /** `parse_data`: the size is always 0 (the in-line data passes compute it
      later) and a missing display name becomes "PLACEHOLDER". */
  function ParseData(d: DataSym): (r: DataSymbol)
    ensures r.size == 0
    ensures r.name == Placeholder <==> d.displayName.None? || d.displayName.value == Placeholder
    ensures d.displayName.Some? ==> r.name == d.displayName.value
    ensures r.offset == AsU64(d.offset) && r.segment == AsU8(d.segment)
  {
    var name := match d.displayName
      case Some(n) => n
      case None => Placeholder;
    DataSymbol(name, AsU64(d.offset), AsU8(d.segment), 0)
  }

  /** The function that stands for a thunk: same place and size, no children. */
  function ThunkFunction(t: Thunk): (r: Function)
    ensures r.name == ThunkName && r.labels == [] && r.data == []
    ensures r.offset == t.offset && r.segment == t.segment && r.size == t.size
  {
    Function(ThunkName, t.offset, t.segment, t.size, [], [])
  }

  predicate IsProcedureKind(kind: string) {
    kind == "S_GPROC32" || kind == "S_LPROC32" || kind == "S_PUB32"
  }

  predicate IsDataKind(kind: string) {
    kind == "S_LDATA32" || kind == "S_GDATA32"
  }

  /** The match on a record's `Kind`: what each kind contributes, and the
      panic when the sub-record it reads is missing. Unlisted kinds are ignored. */
  function Dispatch(rec: PdbRecord): (r: Result<Symbols, LoadError>)
    ensures IsProcedureKind(rec.kind) ==>
      r == if rec.procSym.None? then Err(MalformedRecord)
           else Ok(Symbols([ParseFunction(rec.procSym.value)], [], [], []))
    ensures rec.kind == "S_THUNK32" ==>
      r == if rec.thunk32Sym.None? then Err(MalformedRecord)
           else var t := ParseThunk(rec.thunk32Sym.value);
                Ok(Symbols([ThunkFunction(t)], [], [], [t]))
    ensures rec.kind == "S_LABEL32" ==>
      r == if rec.labelSym.None? then Err(MalformedRecord)
           else Ok(Symbols([], [ParseLabel(rec.labelSym.value)], [], []))
    ensures IsDataKind(rec.kind) ==>
      r == if rec.dataSym.None? then Err(MalformedRecord)
           else Ok(Symbols([], [], [ParseData(rec.dataSym.value)], []))
    ensures (!IsProcedureKind(rec.kind) && !IsDataKind(rec.kind)
             && rec.kind != "S_THUNK32" && rec.kind != "S_LABEL32") ==> r == Ok(NoSymbols)
  {
    if IsProcedureKind(rec.kind) then
      var p :- rec.procSym.ToResult(MalformedRecord);
      Ok(Symbols([ParseFunction(p)], [], [], []))
    else if rec.kind == "S_THUNK32" then
      var t :- rec.thunk32Sym.ToResult(MalformedRecord);
      var thunk := ParseThunk(t);
      Ok(Symbols([ThunkFunction(thunk)], [], [], [thunk]))
    else if rec.kind == "S_LABEL32" then
      var l :- rec.labelSym.ToResult(MalformedRecord);
      Ok(Symbols([], [ParseLabel(l)], [], []))
    else if IsDataKind(rec.kind) then
      var d :- rec.dataSym.ToResult(MalformedRecord);
      Ok(Symbols([], [], [ParseData(d)], []))
    else
      Ok(NoSymbols)
  }

  /** Every record can be dispatched without a panic. */
  ghost predicate RecordsWellFormed(records: seq<PdbRecord>) {
    forall rec :: rec in records ==> Dispatch(rec).Ok?
  }

  ghost predicate ModulesWellFormed(modules: seq<PdbModule>) {
    forall m :: m in modules && m.modi.Some? ==> RecordsWellFormed(m.modi.value)
  }

  /** The four collections of `Symbols`, as functions, so that one predicate
      and one proof serve all four. */
  function FunctionsOf(s: Symbols): seq<Function> { s.functions }
  function LabelsOf(s: Symbols): seq<Label> { s.labels }
  function DataOf(s: Symbols): seq<DataSymbol> { s.data }
  function ThunksOf(s: Symbols): seq<Thunk> { s.thunks }

  /** Some record among `records` yields `x` in the collection `part`. */
  ghost predicate YieldedBy<T>(records: seq<PdbRecord>, part: Symbols -> seq<T>, x: T) {
    exists rec :: rec in records && Dispatch(rec).Ok? && x in part(Dispatch(rec).value)
  }

  ghost predicate YieldedByModules<T>(modules: seq<PdbModule>, part: Symbols -> seq<T>, x: T) {
    exists m :: m in modules && m.modi.Some? && YieldedBy(m.modi.value, part, x)
  }

  /** What the records yield is what the first record yields plus what the rest yield. */
  lemma YieldedByCons<T>(records: seq<PdbRecord>, part: Symbols -> seq<T>)
    requires |records| > 0 && Dispatch(records[0]).Ok?
    ensures forall x :: YieldedBy(records, part, x) <==>
      x in part(Dispatch(records[0]).value) || YieldedBy(records[1..], part, x)
  {
    forall x | YieldedBy(records, part, x)
      ensures x in part(Dispatch(records[0]).value) || YieldedBy(records[1..], part, x)
    {
      var rec :| rec in records && Dispatch(rec).Ok? && x in part(Dispatch(rec).value);
      if rec != records[0] {
        assert rec in records[1..];
      }
    }
  }

  /** The same split for the modules. */
  lemma YieldedByModulesCons<T>(modules: seq<PdbModule>, part: Symbols -> seq<T>)
    requires |modules| > 0
    ensures forall x :: YieldedByModules(modules, part, x) <==>
      (modules[0].modi.Some? && YieldedBy(modules[0].modi.value, part, x)) || YieldedByModules(modules[1..], part, x)
  {
    forall x | YieldedByModules(modules, part, x)
      ensures (modules[0].modi.Some? && YieldedBy(modules[0].modi.value, part, x)) || YieldedByModules(modules[1..], part, x)
    {
      var m :| m in modules && m.modi.Some? && YieldedBy(m.modi.value, part, x);
      if m != modules[0] {
        assert m in modules[1..];
      }
    }
  }

  /** Every thunk gathered so far has its stand-in function gathered too. */
  ghost predicate ThunksCovered(s: Symbols) {
    forall t :: t in s.thunks ==> ThunkFunction(t) in s.functions
  }

  /** The loop over one module's records: appends each record's contribution
      in order; panics on the first malformed record. */
  function CollectRecords(records: seq<PdbRecord>, acc: Symbols): (r: Result<Symbols, LoadError>)
    ensures r.Ok? <==> RecordsWellFormed(records)
    ensures r.Ok? ==> forall f :: f in r.value.functions <==> f in acc.functions || YieldedBy(records, FunctionsOf, f)
    ensures r.Ok? ==> forall l :: l in r.value.labels <==> l in acc.labels || YieldedBy(records, LabelsOf, l)
    ensures r.Ok? ==> forall d :: d in r.value.data <==> d in acc.data || YieldedBy(records, DataOf, d)
    ensures r.Ok? ==> forall t :: t in r.value.thunks <==> t in acc.thunks || YieldedBy(records, ThunksOf, t)
    ensures r.Ok? && ThunksCovered(acc) ==> ThunksCovered(r.value)
    decreases |records|
  {
    if |records| == 0 then Ok(acc)
    else
      var s :- Dispatch(records[0]);
      YieldedByCons(records, FunctionsOf);
      YieldedByCons(records, LabelsOf);
      YieldedByCons(records, DataOf);
      YieldedByCons(records, ThunksOf);
      assert RecordsWellFormed(records) <==> RecordsWellFormed(records[1..]) by {
        if RecordsWellFormed(records[1..]) {
          forall rec | rec in records ensures Dispatch(rec).Ok? {
            if rec != records[0] {
              assert rec in records[1..];
            }
          }
        }
      }
      CollectRecords(records[1..], Join(acc, s))
  }

  /** The loop over the DBI modules; modules without `Modi` are skipped. */
  function CollectModules(modules: seq<PdbModule>, acc: Symbols): (r: Result<Symbols, LoadError>)
    ensures r.Ok? <==> ModulesWellFormed(modules)
    ensures r.Ok? ==> forall f :: f in r.value.functions <==> f in acc.functions || YieldedByModules(modules, FunctionsOf, f)
    ensures r.Ok? ==> forall l :: l in r.value.labels <==> l in acc.labels || YieldedByModules(modules, LabelsOf, l)
    ensures r.Ok? ==> forall d :: d in r.value.data <==> d in acc.data || YieldedByModules(modules, DataOf, d)
    ensures r.Ok? ==> forall t :: t in r.value.thunks <==> t in acc.thunks || YieldedByModules(modules, ThunksOf, t)
    ensures r.Ok? && ThunksCovered(acc) ==> ThunksCovered(r.value)
    decreases |modules|
  {
    if |modules| == 0 then Ok(acc)
    else
      YieldedByModulesCons(modules, FunctionsOf);
      YieldedByModulesCons(modules, LabelsOf);
      YieldedByModulesCons(modules, DataOf);
      YieldedByModulesCons(modules, ThunksOf);
      assert ModulesWellFormed(modules) <==>
        (modules[0].modi.Some? ==> RecordsWellFormed(modules[0].modi.value)) && ModulesWellFormed(modules[1..]) by {
        if (modules[0].modi.Some? ==> RecordsWellFormed(modules[0].modi.value)) && ModulesWellFormed(modules[1..]) {
          forall m | m in modules && m.modi.Some? ensures RecordsWellFormed(m.modi.value) {
            if m != modules[0] {
              assert m in modules[1..];
            }
          }
        }
      }
      match modules[0].modi
      case None => CollectModules(modules[1..], acc)
      case Some(records) =>
        var a :- CollectRecords(records, acc);
        CollectModules(modules[1..], a)
  }

  /** `load_pdb` after the YAML document is loaded. */
  function LoadPdb(doc: PdbDocument): (r: Result<Pdb, LoadError>)
    ensures !doc.hasTpiStream ==> r == Err(MissingTpiStream)
    ensures doc.hasTpiStream && doc.dbiStream.None? ==> r == Err(MissingDbiStream)
    ensures r.Ok? <==> doc.hasTpiStream && doc.dbiStream.Some? && ModulesWellFormed(doc.dbiStream.value.modules)
    ensures r.Ok? ==>
      var pdb := r.value;
      && SortedBy(pdb.functions, FunctionOffset) && NoAdjacentDuplicates(pdb.functions)
      && SortedBy(pdb.data, DataOffset) && NoAdjacentDuplicates(pdb.data)
      && SortedBy(pdb.labels, LabelOffset) && NoAdjacentDuplicates(pdb.labels)
      && SortedBy(pdb.thunks, ThunkOffset) && NoAdjacentDuplicates(pdb.thunks)
      && (pdb.architecture, pdb.imageBase) == PdbArchitecture(doc.dbiStream.value.machineType)
      && (forall f :: f in pdb.functions <==> YieldedByModules(doc.dbiStream.value.modules, FunctionsOf, f))
      && (forall l :: l in pdb.labels <==> YieldedByModules(doc.dbiStream.value.modules, LabelsOf, l))
      && (forall d :: d in pdb.data <==> YieldedByModules(doc.dbiStream.value.modules, DataOf, d))
      && (forall t :: t in pdb.thunks <==> YieldedByModules(doc.dbiStream.value.modules, ThunksOf, t))
      && (forall t :: t in pdb.thunks ==> ThunkFunction(t) in pdb.functions)
  {
    if !doc.hasTpiStream then Err(MissingTpiStream)
    else if doc.dbiStream.None? then Err(MissingDbiStream)
    else
      var dbi := doc.dbiStream.value;
      var s :- CollectModules(dbi.modules, NoSymbols);
      var (architecture, imageBase) := PdbArchitecture(dbi.machineType);
      Ok(Pdb(
        imageBase,
        architecture,
        SortDedup(s.functions, FunctionOffset),
        SortDedup(s.data, DataOffset),
        SortDedup(s.thunks, ThunkOffset),
        SortDedup(s.labels, LabelOffset)))
  }

  // ---------------------------------------------------------------- ELF

  /** One entry of the dump's `Symbols` list. */
  datatype ElfSymbol = ElfSymbol(
    name: string,
    symbolType: Option<string>,
    section: Option<string>,
    size: Option<i64>,
    value: Option<i64>)

  /** An ELF dump: its `Symbols` (absent or a list), the `FileHeader.Class`
      and the names of its `Sections`, in order. */
  datatype ElfDocument = ElfDocument(
    symbols: Option<seq<ElfSymbol>>,
    fileClass: string,
    sectionNames: seq<string>)

  /** The section-name map built by inserting `(name, index)` in order: a
      name that occurs more than once maps to its LAST index. */
  function SectionIndices(names: seq<string>): (m: map<string, nat>)
    ensures forall n :: n in m <==> n in names
    ensures forall n :: n in m ==> m[n] < |names| && names[m[n]] == n
    ensures forall n, j :: n in m && m[n] < j < |names| ==> names[j] != n
    decreases |names|
  {
    if |names| == 0 then map[]
    else
      var prefix := names[..|names| - 1];
      assert forall n :: n in names <==> n in prefix || n == names[|names| - 1] by {
        assert names == prefix + [names[|names| - 1]];
      }
      SectionIndices(prefix)[names[|names| - 1] := |names| - 1]
  }

  /** ELF `parse_function`: no function when the section, size or value is
      missing; a panic when the section name is unknown; otherwise the
      segment is the section's index cut to eight bits. */
  function ParseElfFunction(sym: ElfSymbol, sections: map<string, nat>): (r: Result<Option<Function>, LoadError>)
    ensures r == Ok(None) <==> sym.section.None? || sym.size.None? || sym.value.None?
    ensures r.Err? <==> sym.section.Some? && sym.size.Some? && sym.value.Some? && sym.section.value !in sections
    ensures r.Ok? && r.value.Some? ==>
      r.value.value == Function(sym.name, AsU64(sym.value.value), AsU8(sections[sym.section.value]),
                                AsU64(sym.size.value), [], [])
  {
    match (sym.section, sym.size, sym.value)
    case (Some(section), Some(size), Some(value)) =>
      if section in sections then
        Ok(Some(Function(sym.name, AsU64(value), AsU8(sections[section]), AsU64(size), [], [])))
      else
        Err(UnknownSection)
    case _ => Ok(None)
  }

  /** The symbol is a complete `STT_FUNC` entry that yields `f`. */
  ghost predicate ElfFunctionFrom(symbols: seq<ElfSymbol>, sections: map<string, nat>, f: Function) {
    exists sym :: sym in symbols && sym.symbolType == Some("STT_FUNC") && ParseElfFunction(sym, sections) == Ok(Some(f))
  }

  ghost predicate ElfSymbolsWellFormed(symbols: seq<ElfSymbol>, sections: map<string, nat>) {
    forall sym :: sym in symbols && sym.symbolType == Some("STT_FUNC") ==> ParseElfFunction(sym, sections).Ok?
  }

  /** The loop over the symbols: entries without `Type` are skipped, and only
      `STT_FUNC` entries are parsed. */
  function CollectElfFunctions(symbols: seq<ElfSymbol>, sections: map<string, nat>, acc: seq<Function>)
    : (r: Result<seq<Function>, LoadError>)
    ensures r.Ok? <==> ElfSymbolsWellFormed(symbols, sections)
    ensures r.Ok? ==> forall f :: f in r.value <==> f in acc || ElfFunctionFrom(symbols, sections, f)
    decreases |symbols|
  {
    if |symbols| == 0 then Ok(acc)
    else
      var sym := symbols[0];
      assert forall f :: ElfFunctionFrom(symbols, sections, f) <==>
        (sym.symbolType == Some("STT_FUNC") && ParseElfFunction(sym, sections) == Ok(Some(f)))
        || ElfFunctionFrom(symbols[1..], sections, f) by {
        forall f ensures ElfFunctionFrom(symbols, sections, f) ==>
          (sym.symbolType == Some("STT_FUNC") && ParseElfFunction(sym, sections) == Ok(Some(f)))
          || ElfFunctionFrom(symbols[1..], sections, f) {
          if ElfFunctionFrom(symbols, sections, f) {
            var s :| s in symbols && s.symbolType == Some("STT_FUNC") && ParseElfFunction(s, sections) == Ok(Some(f));
            if s != sym {
              assert s in symbols[1..];
            }
          }
        }
      }
      assert ElfSymbolsWellFormed(symbols, sections) <==>
        (sym.symbolType == Some("STT_FUNC") ==> ParseElfFunction(sym, sections).Ok?)
        && ElfSymbolsWellFormed(symbols[1..], sections) by {
        if (sym.symbolType == Some("STT_FUNC") ==> ParseElfFunction(sym, sections).Ok?)
           && ElfSymbolsWellFormed(symbols[1..], sections) {
          forall s | s in symbols && s.symbolType == Some("STT_FUNC") ensures ParseElfFunction(s, sections).Ok? {
            if s != sym {
              assert s in symbols[1..];
            }
          }
        }
      }
      if sym.symbolType == Some("STT_FUNC") then
        var parsed :- ParseElfFunction(sym, sections);
        var next := if parsed.Some? then acc + [parsed.value] else acc;
        CollectElfFunctions(symbols[1..], sections, next)
      else
        CollectElfFunctions(symbols[1..], sections, acc)
  }

  /** `load_elf` after the YAML document is loaded. */
  function LoadElf(doc: ElfDocument): (r: Result<Dwarf, LoadError>)
    ensures doc.symbols.None? ==> r == Err(MissingSymbols)
    ensures r.Ok? <==> doc.symbols.Some? && ElfSymbolsWellFormed(doc.symbols.value, SectionIndices(doc.sectionNames))
    ensures r.Ok? ==>
      && SortedBy(r.value.functions, FunctionOffset)
      && NoAdjacentDuplicates(r.value.functions)
      && (r.value.architecture, r.value.imageBase) == ElfArchitecture(doc.fileClass)
      && forall f :: f in r.value.functions <==>
           ElfFunctionFrom(doc.symbols.value, SectionIndices(doc.sectionNames), f)
  {
    if doc.symbols.None? then Err(MissingSymbols)
    else
      var sections := SectionIndices(doc.sectionNames);
      var functions :- CollectElfFunctions(doc.symbols.value, sections, []);
      var (architecture, imageBase) := ElfArchitecture(doc.fileClass);
      Ok(Dwarf(imageBase, architecture, SortDedup(functions, FunctionOffset)))
  }

  /** The DWARF loader gives no function child data or labels: the symbol
      passes attach children only to PDB functions. */
  lemma LoadElfGivesNoChildren(doc: ElfDocument)
    requires LoadElf(doc).Ok?
    ensures forall f :: f in LoadElf(doc).value.functions ==> |f.data| == 0 && |f.labels| == 0
  {
    var sections := SectionIndices(doc.sectionNames);
    forall f | f in LoadElf(doc).value.functions ensures |f.data| == 0 && |f.labels| == 0 {
      assert ElfFunctionFrom(doc.symbols.value, sections, f);
      var sym :| sym in doc.symbols.value && sym.symbolType == Some("STT_FUNC") && ParseElfFunction(sym, sections) == Ok(Some(f));
    }
  }

  /** A symbol in a section whose name occurs twice gets the later index. */
  lemma DuplicateSectionNameLastWins()
    ensures var sym := ElfSymbol("f", Some("STT_FUNC"), Some(".text"), Some(4), Some(16));
      ParseElfFunction(sym, SectionIndices([".text", ".data", ".text"])).value.value.segment == 2
  {
    var names := [".text", ".data", ".text"];
    assert names[2] == ".text";
    assert ".text" in SectionIndices(names);
  }
}

=== FILE: pipeline.dfy ===
/** The two `process` drivers: the order in which the passes run on a PE
    binary with its PDB symbols and on an ELF binary with its DWARF symbols,
    and what the final byte vector is known to satisfy. Reading the files and
    writing the dumps are left to the caller: the drivers take the file's
    bytes, its sections and its symbols, and return the final state and the
    plain dump. */
module Pipeline {
  import opened Wrappers
  import opened GroundTruth
  import opened BytePasses
  import opened Disassembler
  import opened CodePass
  import opened Alignment
  import opened Symbols
  import opened Dumper
  import Parser

  /** `read_pe` / `read_elf`: every byte of the file at its file offset,
      without flags. */
  function ReadBytes(raw: seq<u8>): (r: seq<Byte>)
    ensures |r| == |raw|
    ensures forall i :: 0 <= i < |r| ==> r[i].offset == i && r[i].value == raw[i] && |r[i].flags| == 0
  {
    seq(|raw|, i requires 0 <= i < |raw| => Byte(i, raw[i], []))
  }

  /** `sections.iter().find(|s| s.name == ".text")`: the first section
      called ".text", if any. */
  function FindText(sections: seq<Section>): (r: Option<Section>)
    ensures r.None? <==> forall s :: s in sections ==> s.name != ".text"
    ensures r.Some? ==> r.value.name == ".text"
    ensures r.Some? ==>
      exists j :: 0 <= j < |sections| && sections[j] == r.value && forall k :: 0 <= k < j ==> sections[k].name != ".text"
  {
    if |sections| == 0 then None
    else if sections[0].name == ".text" then Some(sections[0])
    else
      var r := FindText(sections[1..]);
      assert forall s :: s in sections ==> s == sections[0] || s in sections[1..];
      if r.Some? then
        var j :| 0 <= j < |sections[1..]| && sections[1..][j] == r.value
          && forall k :: 0 <= k < j ==> sections[1..][k].name != ".text";
        assert sections[j + 1] == r.value;
        r
      else r
  }

  /** The final state of a run: the byte vector, the functions as the
      passes left them, the instructions found, and the plain dump. */
  datatype Outcome = Outcome(
    bytes: seq<Byte>,
    functions: seq<Function>,
    instructions: seq<Instruction>,
    dump: seq<DumpLine>)

  /** The flags the disassembly pass and the alignment pass may add. */
  const LateFlags: set<Flag> := PassFlags + {InstructionAlignment}

  /** Byte `i` sits at address `base + i` and holds the file's byte at
      `start + i`. */
  ghost predicate LaidOut(bytes: seq<Byte>, raw: seq<u8>, start: nat, base: nat) {
    forall i :: 0 <= i < |bytes| ==> Placed(bytes[i], raw, start + i, base + i)
  }

  /** The byte sits at `address` and holds the file's byte at `position`. */
  ghost predicate Placed(b: Byte, raw: seq<u8>, position: nat, address: nat) {
    position < |raw| && b.offset == address && b.value == raw[position]
  }

  /** Byte `i` is DATA exactly when the child data of some function covers
      position `shift + i` of the vector `set_byte_flags` worked on. */
  ghost predicate DataFromChildren(bytes: seq<Byte>, functions: seq<Function>, shift: nat) {
    forall i :: 0 <= i < |bytes| ==>
      (Data in bytes[i].flags <==> exists f :: f in functions && Covers(f.data, shift + i))
  }

  /** The passes after `set_byte_flags` add only their own flags, which do
      not include DATA, and end of section only cuts the tail: the layout and
      the DATA bytes survive. */
  lemma LateStagesKeep(before: seq<Byte>, after: seq<Byte>, last: seq<Byte>, raw: seq<u8>, start: nat, base: nat,
                       functions: seq<Function>, shift: nat)
    requires Grows(before, after, LateFlags)
    requires last <= after
    requires LaidOut(before, raw, start, base)
    requires DataFromChildren(before, functions, shift)
    ensures |last| <= |before|
    ensures LaidOut(last, raw, start, base)
    ensures DataFromChildren(last, functions, shift)
  {
    assert Data !in LateFlags;
    GrowsKeepsOtherFlags(before, after, LateFlags, Data);
  }

  /** The text section cut out of the file read from disk and rebased. */
  lemma CutOutText(raw: seq<u8>, trimmed: seq<Byte>, rebased: seq<Byte>, start: nat, size: nat, base: nat)
    requires Trim(ReadBytes(raw), start, start + size) == Ok(trimmed)
    requires rebased == Rebase(trimmed, base)
    ensures start + size <= |raw| && |rebased| == size
    ensures LaidOut(rebased, raw, start, base)
    ensures forall i :: 0 <= i < |rebased| ==> |rebased[i].flags| == 0
  {
  }

  /** `set_byte_flags` on a vector without flags: DATA comes from the child
      data alone. */
  lemma FlagsOnFreshVector(bytes: seq<Byte>, flagged: seq<Byte>, functions: seq<Function>, format: Format)
    requires forall i :: 0 <= i < |bytes| ==> |bytes[i].flags| == 0
    requires SetByteFlags(bytes, functions, format) == Ok(flagged)
    ensures DataFromChildren(flagged, functions, 0)
    ensures |flagged| == |bytes|
  {
  }

  /** Adding flags keeps the layout. */
  lemma GrowsLaidOut(a: seq<Byte>, b: seq<Byte>, gained: set<Flag>, raw: seq<u8>, start: nat, base: nat)
    requires Grows(a, b, gained)
    requires LaidOut(a, raw, start, base)
    ensures LaidOut(b, raw, start, base)
  {
    forall i | 0 <= i < |b| ensures Placed(b[i], raw, start + i, base + i) {
      assert Placed(a[i], raw, start + i, base + i);
      assert b[i].offset == a[i].offset && b[i].value == a[i].value;
    }
  }

  /** The passes both drivers run on a vector without flags that is laid
      out in the file: `set_byte_flags`, then the disassembly of every
      function. The layout survives, and a byte is DATA exactly when some
      function's child data covers its index. */
  method FlagAndDisassemble(bytes: seq<Byte>, functions: seq<Function>, architecture: Architecture,
                            format: Format, decode: Decoder, raw: seq<u8>, start: nat, base: nat)
    returns (r: Result<Disassembly, Fault>)
    requires LaidOut(bytes, raw, start, base)
    requires forall i :: 0 <= i < |bytes| ==> |bytes[i].flags| == 0
    ensures r.Ok? <==>
      && FunctionsFit(functions, |bytes|, format)
      && FunctionsDecode(SetByteFlags(bytes, functions, format).value, functions, architecture, format, decode)
    ensures r.Ok? ==>
      r.value.instructions == PassInstructions(SetByteFlags(bytes, functions, format).value, functions, architecture, decode)
    ensures r.Ok? ==> r.value == DisassemblePass(SetByteFlags(bytes, functions, format).value, functions, architecture,
                                                 format, decode).value
    ensures r.Ok? ==> |r.value.bytes| == |bytes|
    ensures r.Ok? ==> LaidOut(r.value.bytes, raw, start, base)
    ensures r.Ok? ==> DataFromChildren(r.value.bytes, functions, 0)
  {
    var flagged :- SetByteFlags(bytes, functions, format);
    FlagsOnFreshVector(bytes, flagged, functions, format);
    GrowsLaidOut(bytes, flagged, {Code, Data}, raw, start, base);
    var disassembly :- DisassemblePass(flagged, functions, architecture, format, decode);
    GrowsWiden(flagged, disassembly.bytes, PassFlags, LateFlags);
    LateStagesKeep(flagged, disassembly.bytes, disassembly.bytes, raw, start, base, functions, 0);
    r := Ok(disassembly);
  }

  /** The text section after the alignment pass and the end-of-section
      cut. */
  ghost function Finished(bytes: seq<Byte>, architecture: Architecture, decode: Decoder): seq<Byte>
    requires AlignmentSucceeds(bytes, architecture, decode)
  {
    EndOfSection(DetectAlignment(bytes, architecture, decode).value)
  }

  /** The stages after the disassembly succeed: the alignment pass does, and
      the debug print's `detect_holes` on the cut section does not underflow. */
  ghost predicate FinishSucceeds(bytes: seq<Byte>, architecture: Architecture, decode: Decoder) {
    AlignmentSucceeds(bytes, architecture, decode) && !Unclassified(Finished(bytes, architecture, decode))
  }

  /** The hole count of the debug print (`print` in both drivers), which
      runs `detect_holes` whether or not logging is on: the number of bytes
      outside the holes. On a non-empty vector without any flag the trailing
      hole's start goes below zero, which the source's unsigned subtraction
      does not survive. */
  function HoleStatistics(bytes: seq<Byte>): (r: Result<nat, Fault>)
    ensures r.Err? <==> Unclassified(bytes)
    ensures r.Err? ==> r == Err(IndexOutOfRange)
    ensures r.Ok? ==> r.value == Identified(bytes)
  {
    HoleStartBelowZero(bytes);
    IdentifiedIsOutsideHoles(bytes);
    var holes := Holes(bytes);
    if exists h :: h in holes && h.start < 0 then Err(IndexOutOfRange)
    else Ok(|bytes| - SumSizes(holes))
  }

  /** The stages both drivers end with, on the rebased text section:
      alignment, end of section, the debug print and the plain dump. The
      final bytes are the aligned bytes cut at the end of the section; they
      keep the layout, the CODE and the DATA bytes. */
  method FinishText(bytes: seq<Byte>, functions: seq<Function>, instructions: seq<Instruction>,
                    architecture: Architecture, decode: Decoder, imageBase: nat, sections: seq<Section>,
                    raw: seq<u8>, start: nat, base: nat, shift: nat)
    returns (r: Result<Outcome, Fault>)
    requires LaidOut(bytes, raw, start, base)
    requires DataFromChildren(bytes, functions, shift)
    ensures r.Ok? <==> FinishSucceeds(bytes, architecture, decode)
    ensures AlignmentSucceeds(bytes, architecture, decode) && r.Err? ==> r == Err(IndexOutOfRange)
    ensures r.Ok? ==> r.value.bytes == Finished(bytes, architecture, decode)
    ensures r.Ok? ==> |r.value.bytes| <= |bytes|
    ensures r.Ok? ==> forall i :: 0 <= i < |r.value.bytes| ==> (Code in r.value.bytes[i].flags <==> Code in bytes[i].flags)
    ensures r.Ok? ==> LaidOut(r.value.bytes, raw, start, base)
    ensures r.Ok? ==> DataFromChildren(r.value.bytes, functions, shift)
    ensures r.Ok? ==> r.value.functions == functions && r.value.instructions == instructions
    ensures r.Ok? ==> r.value.dump == PlainDump(imageBase, sections, r.value.bytes)
    ensures r.Ok? ==>
      |r.value.dump| == 2 * |sections| + TextSections(sections) * |ByteLines(r.value.bytes, 0, imageBase)|
  {
    var aligned :- DetectAlignment(bytes, architecture, decode);
    var last := DetectEndOfSection(aligned);
    GrowsWiden(bytes, aligned, {InstructionAlignment}, LateFlags);
    GrowsKeepsOtherFlags(bytes, aligned, {InstructionAlignment}, Code);
    LateStagesKeep(bytes, aligned, last, raw, start, base, functions, shift);
    var _ :- HoleStatistics(last);
    r := Ok(Outcome(last, functions, instructions, PlainDump(imageBase, sections, last)));
  }

  /** The text section with its byte flags and disassembly, before the
      alignment pass, and the functions the passes worked with. */
  datatype Prepared = Prepared(bytes: seq<Byte>, functions: seq<Function>, instructions: seq<Instruction>)

  /** `read_pe` and the cut in `pe::PE::process`: the `size` bytes of the
      file from `start` on, without flags, rebased to 0x1000. */
  function PeText(raw: seq<u8>, start: nat, size: nat): (r: Result<seq<Byte>, Fault>)
    ensures r.Ok? <==> start + size <= |raw|
    ensures r.Err? ==> r == Err(IndexOutOfRange)
    ensures r.Ok? ==> |r.value| == size && LaidOut(r.value, raw, start, 0x1000)
    ensures r.Ok? ==> forall i :: 0 <= i < |r.value| ==> |r.value[i].flags| == 0
  {
    var trimmed :- Trim(ReadBytes(raw), start, start + size);
    var rebased := Rebase(trimmed, 0x1000);
    CutOutText(raw, trimmed, rebased, start, size, 0x1000);
    Ok(rebased)
  }

  /** The symbol passes of `pe::PE::process` on the PDB functions: filter,
      children, and both cuts. Every function left has a non-empty body. */
  function PeFunctions(pdb: Pdb): (r: seq<Function>)
    ensures forall f :: f in r ==> f.size > 0
  {
    CutKeepsFunctionsNonEmpty(pdb);
    CutInLineDataMid(CutInLineDataEnd(CreateRelationships(PreprocessFunctions(pdb)))).functions
  }

  /** The stages of the first half of `pe::PE::process` succeed: the text
      section lies inside the file, the functions' bodies and child data fit
      in it, and every function decodes. */
  ghost predicate PePrepares(pdb: Pdb, text: Section, raw: seq<u8>, decode: Decoder) {
    && text.rawDataOffset + text.rawDataSize <= |raw|
    && var rebased := PeText(raw, text.rawDataOffset, text.rawDataSize).value;
       var functions := PeFunctions(pdb);
       && FunctionsFit(functions, |rebased|, Pe)
       && FunctionsDecode(SetByteFlags(rebased, functions, Pe).value, functions, pdb.architecture, Pe, decode)
  }

  /** The text section with its byte flags and disassembly, when the first
      half of `pe::PE::process` succeeds. */
  ghost function PeDisassembly(pdb: Pdb, text: Section, raw: seq<u8>, decode: Decoder): Disassembly
    requires PePrepares(pdb, text, raw, decode)
  {
    var rebased := PeText(raw, text.rawDataOffset, text.rawDataSize).value;
    var functions := PeFunctions(pdb);
    DisassemblePass(SetByteFlags(rebased, functions, Pe).value, functions, pdb.architecture, Pe, decode).value
  }

  /** Every stage of `pe::PE::process` succeeds: there is a text section,
      the first half succeeds on it, and the alignment pass succeeds on what
      it leaves. */
  ghost predicate PeSucceeds(pdb: Pdb, sections: seq<Section>, raw: seq<u8>, decode: Decoder) {
    && FindText(sections).Some?
    && PePrepares(pdb, FindText(sections).value, raw, decode)
    && FinishSucceeds(PeDisassembly(pdb, FindText(sections).value, raw, decode).bytes, pdb.architecture, decode)
  }

  /** The first half of `pe::PE::process`: the text section is cut out of
      the file and rebased to 0x1000, the PDB functions are filtered, given
      their children and cut, and then the byte flags and the disassembly
      are computed on the section. A section that reaches past the end of
      the file is an index error. */
  method PreparePe(pdb: Pdb, text: Section, raw: seq<u8>, decode: Decoder) returns (r: Result<Prepared, Fault>)
    ensures text.rawDataOffset + text.rawDataSize > |raw| ==> r == Err(IndexOutOfRange)
    ensures r.Ok? <==> PePrepares(pdb, text, raw, decode)
    ensures r.Ok? ==> r.value.functions == PeFunctions(pdb)
    ensures r.Ok? ==> r.value.bytes == PeDisassembly(pdb, text, raw, decode).bytes
    ensures r.Ok? ==> r.value.instructions == PeDisassembly(pdb, text, raw, decode).instructions
    ensures r.Ok? ==> |r.value.bytes| == text.rawDataSize
    ensures r.Ok? ==> LaidOut(r.value.bytes, raw, text.rawDataOffset, 0x1000)
    ensures r.Ok? ==> DataFromChildren(r.value.bytes, r.value.functions, 0)
    ensures r.Ok? ==> forall f :: f in r.value.functions ==> f.size > 0
  {
    var rebased :- PeText(raw, text.rawDataOffset, text.rawDataSize);
    var functions := PeFunctions(pdb);
    var disassembly :- FlagAndDisassemble(rebased, functions, pdb.architecture, Pe, decode, raw, text.rawDataOffset, 0x1000);
    r := Ok(Prepared(disassembly.bytes, functions, disassembly.instructions));
  }

  /** `pe::PE::process`. The text section (the first section called
      ".text") is cut out of the file and rebased to 0x1000, the PDB
      functions are filtered, given their children and cut, and then the byte
      flags, the disassembly, the alignment and the end of the section are
      computed, decoding in the mode of the PDB's architecture.

      A binary without a text section ends the program; a successful run
      keeps at most the raw size of the text section, each byte at offset
      0x1000 plus its index with the value the file has there, all functions
      non-empty, and a byte is DATA exactly when some function's child data
      covers it. */
  method ProcessPe(pdb: Pdb, sections: seq<Section>, raw: seq<u8>, decode: Decoder)
    returns (r: Result<Outcome, Fault>)
    ensures FindText(sections).None? ==> r == Err(MissingTextSection)
    ensures r.Ok? <==> PeSucceeds(pdb, sections, raw, decode)
    ensures r.Ok? ==> r.value.instructions == PeDisassembly(pdb, FindText(sections).value, raw, decode).instructions
    ensures r.Ok? ==>
      r.value.bytes == Finished(PeDisassembly(pdb, FindText(sections).value, raw, decode).bytes, pdb.architecture, decode)
    ensures r.Ok? ==> |r.value.bytes| <= FindText(sections).value.rawDataSize
    ensures r.Ok? ==> LaidOut(r.value.bytes, raw, FindText(sections).value.rawDataOffset, 0x1000)
    ensures r.Ok? ==> DataFromChildren(r.value.bytes, r.value.functions, 0)
    ensures r.Ok? ==> r.value.functions == PeFunctions(pdb)
    ensures r.Ok? ==> forall f :: f in r.value.functions ==> f.size > 0
    ensures r.Ok? ==> r.value.dump == PlainDump(pdb.imageBase, sections, r.value.bytes)
    ensures r.Ok? ==>
      |r.value.dump| == 2 * |sections| + TextSections(sections) * |ByteLines(r.value.bytes, 0, pdb.imageBase)|
  {
    var text :- FindText(sections).ToResult(MissingTextSection);
    var prepared :- PreparePe(pdb, text, raw, decode);
    r := FinishText(prepared.bytes, prepared.functions, prepared.instructions, pdb.architecture, decode,
                    pdb.imageBase, sections, raw, text.rawDataOffset, 0x1000, 0);
  }

  /** After the ELF byte flags and disassembly, the text section is cut out
      and rebased; byte `i` is then file byte `start + i`. */
  lemma ElfCutOut(disassembled: seq<Byte>, trimmed: seq<Byte>, rebased: seq<Byte>,
                  raw: seq<u8>, functions: seq<Function>, start: nat, size: nat, base: nat)
    requires LaidOut(disassembled, raw, 0, 0)
    requires DataFromChildren(disassembled, functions, 0)
    requires Trim(disassembled, start, start + size) == Ok(trimmed)
    requires rebased == Rebase(trimmed, base)
    ensures |rebased| == size
    ensures LaidOut(rebased, raw, start, base)
    ensures DataFromChildren(rebased, functions, start)
  {
    CutOutLaidOut(disassembled, trimmed, rebased, raw, start, size, base);
    forall i | 0 <= i < |rebased|
      ensures Data in rebased[i].flags <==> exists f :: f in functions && Covers(f.data, start + i)
    {
      assert rebased[i].flags == disassembled[start + i].flags;
    }
  }

  /** Cutting and rebasing a vector laid out at its file offsets. */
  lemma CutOutLaidOut(disassembled: seq<Byte>, trimmed: seq<Byte>, rebased: seq<Byte>,
                      raw: seq<u8>, start: nat, size: nat, base: nat)
    requires LaidOut(disassembled, raw, 0, 0)
    requires Trim(disassembled, start, start + size) == Ok(trimmed)
    requires rebased == Rebase(trimmed, base)
    ensures LaidOut(rebased, raw, start, base)
  {
    forall i | 0 <= i < |rebased|
      ensures Placed(rebased[i], raw, start + i, base + i)
    {
      var j := start + i;
      assert j < |disassembled| && trimmed[i] == disassembled[j];
      assert rebased[i].value == disassembled[j].value == raw[j];
    }
  }

  /** The disassembly stages of `elf::ELF::process` succeed: the non-empty
      functions' child data fit in the file, and every function the pass
      reaches decodes. */
  ghost predicate ElfDisassembles(dwarf: Dwarf, raw: seq<u8>, decode: Decoder) {
    var functions := RetainNonEmpty(dwarf.functions);
    && FunctionsFit(functions, |raw|, Elf)
    && FunctionsDecode(SetByteFlags(ReadBytes(raw), functions, Elf).value, functions, dwarf.architecture, Elf, decode)
  }

  /** The whole file with its byte flags and disassembly. */
  ghost function ElfDisassembly(dwarf: Dwarf, raw: seq<u8>, decode: Decoder): (r: Disassembly)
    requires ElfDisassembles(dwarf, raw, decode)
    ensures |r.bytes| == |raw|
  {
    var functions := RetainNonEmpty(dwarf.functions);
    DisassemblePass(SetByteFlags(ReadBytes(raw), functions, Elf).value, functions, dwarf.architecture, Elf, decode).value
  }

  /** The first half of `elf::ELF::process` succeeds: the disassembly
      stages do, and the text section lies inside the file. */
  ghost predicate ElfPrepares(dwarf: Dwarf, text: Section, raw: seq<u8>, decode: Decoder) {
    ElfDisassembles(dwarf, raw, decode) && text.rawDataOffset + text.rawDataSize <= |raw|
  }

  /** The text section cut out of `ElfDisassembly` and rebased. */
  ghost function ElfText(dwarf: Dwarf, text: Section, raw: seq<u8>, decode: Decoder): seq<Byte>
    requires ElfPrepares(dwarf, text, raw, decode)
  {
    var bytes := ElfDisassembly(dwarf, raw, decode).bytes;
    Rebase(Trim(bytes, text.rawDataOffset, text.rawDataOffset + text.rawDataSize).value, text.va)
  }

  /** Every stage of `elf::ELF::process` succeeds. */
  ghost predicate ElfSucceeds(dwarf: Dwarf, sections: seq<Section>, raw: seq<u8>, decode: Decoder) {
    && FindText(sections).Some?
    && ElfPrepares(dwarf, FindText(sections).value, raw, decode)
    && FinishSucceeds(ElfText(dwarf, FindText(sections).value, raw, decode), dwarf.architecture, decode)
  }

  /** The byte flags and the disassembly of the non-empty DWARF functions,
      computed on the whole file. */
  method DisassembleElf(dwarf: Dwarf, raw: seq<u8>, decode: Decoder) returns (r: Result<Disassembly, Fault>)
    ensures r.Ok? <==> ElfDisassembles(dwarf, raw, decode)
    ensures r.Ok? ==> r.value == ElfDisassembly(dwarf, raw, decode)
    ensures r.Ok? ==> LaidOut(r.value.bytes, raw, 0, 0)
    ensures r.Ok? ==> DataFromChildren(r.value.bytes, RetainNonEmpty(dwarf.functions), 0)
  {
    r := FlagAndDisassemble(ReadBytes(raw), RetainNonEmpty(dwarf.functions), dwarf.architecture, Elf, decode, raw, 0, 0);
  }

  /** The first half of `elf::ELF::process`: the byte flags and the
      disassembly of the non-empty DWARF functions are computed on the whole
      file, with symbol offsets as file offsets, and only then is the text
      section cut out and rebased to its virtual address. A section that
      reaches past the end of the file is an index error. */
  method PrepareElf(dwarf: Dwarf, text: Section, raw: seq<u8>, decode: Decoder) returns (r: Result<Prepared, Fault>)
    ensures r.Ok? <==> ElfPrepares(dwarf, text, raw, decode)
    ensures r.Ok? ==> r.value.bytes == ElfText(dwarf, text, raw, decode)
    ensures r.Ok? ==> r.value.instructions == ElfDisassembly(dwarf, raw, decode).instructions
    ensures r.Ok? ==> |r.value.bytes| == text.rawDataSize
    ensures r.Ok? ==> LaidOut(r.value.bytes, raw, text.rawDataOffset, text.va)
    ensures r.Ok? ==> DataFromChildren(r.value.bytes, r.value.functions, text.rawDataOffset)
    ensures r.Ok? ==> r.value.functions == RetainNonEmpty(dwarf.functions)
  {
    var functions := RetainNonEmpty(dwarf.functions);
    var disassembled := DisassembleElf(dwarf, raw, decode);
    if disassembled.Err? {
      return Err(disassembled.error);
    }
    var disassembly := disassembled.value;
    var cut := Trim(disassembly.bytes, text.rawDataOffset, text.rawDataOffset + text.rawDataSize);
    if cut.Err? {
      return Err(cut.error);
    }
    var trimmed := cut.value;
    var rebased := Rebase(trimmed, text.va);
    ElfCutOut(disassembly.bytes, trimmed, rebased, raw, functions, text.rawDataOffset, text.rawDataSize, text.va);
    ElfCutIsText(dwarf, text, raw, decode, disassembly, trimmed);
    r := Ok(Prepared(rebased, functions, disassembly.instructions));
  }

  /** A successful cut of the disassembled file is `ElfText`. */
  lemma ElfCutIsText(dwarf: Dwarf, text: Section, raw: seq<u8>, decode: Decoder, disassembly: Disassembly,
                     trimmed: seq<Byte>)
    requires ElfDisassembles(dwarf, raw, decode) && disassembly == ElfDisassembly(dwarf, raw, decode)
    requires Trim(disassembly.bytes, text.rawDataOffset, text.rawDataOffset + text.rawDataSize) == Ok(trimmed)
    ensures ElfPrepares(dwarf, text, raw, decode)
    ensures Rebase(trimmed, text.va) == ElfText(dwarf, text, raw, decode)
  {
  }

  /** `elf::ELF::process`. Unlike the PE driver, the byte flags and the
      disassembly are computed on the whole file, with symbol offsets as file
      offsets, and only then is the text section cut out and rebased to its
      virtual address. Decoding uses the architecture of the DWARF dump.

      A binary without a text section ends the program; a successful run
      keeps at most the raw size of the text section, each byte at the
      section's address plus its index with the value the file has there,
      only the non-empty functions of the dump, and a byte is DATA exactly
      when some function's child data covers its file offset. */
  method ProcessElf(dwarf: Dwarf, sections: seq<Section>, raw: seq<u8>, decode: Decoder)
    returns (r: Result<Outcome, Fault>)
    ensures FindText(sections).None? ==> r == Err(MissingTextSection)
    ensures r.Ok? <==> ElfSucceeds(dwarf, sections, raw, decode)
    ensures r.Ok? ==> r.value.instructions == ElfDisassembly(dwarf, raw, decode).instructions
    ensures r.Ok? ==> r.value.bytes == Finished(ElfText(dwarf, FindText(sections).value, raw, decode), dwarf.architecture, decode)
    ensures r.Ok? && (forall f :: f in dwarf.functions ==> |f.data| == 0) ==>
      forall i :: 0 <= i < |r.value.bytes| ==> Data !in r.value.bytes[i].flags
    ensures r.Ok? ==> |r.value.bytes| <= FindText(sections).value.rawDataSize
    ensures r.Ok? ==> LaidOut(r.value.bytes, raw, FindText(sections).value.rawDataOffset, FindText(sections).value.va)
    ensures r.Ok? ==> DataFromChildren(r.value.bytes, r.value.functions, FindText(sections).value.rawDataOffset)
    ensures r.Ok? ==> r.value.functions == RetainNonEmpty(dwarf.functions)
    ensures r.Ok? ==> forall f :: f in r.value.functions <==> f in dwarf.functions && f.size > 0
    ensures r.Ok? ==> r.value.dump == PlainDump(dwarf.imageBase, sections, r.value.bytes)
    ensures r.Ok? ==>
      |r.value.dump| == 2 * |sections| + TextSections(sections) * |ByteLines(r.value.bytes, 0, dwarf.imageBase)|
  {
    var text :- FindText(sections).ToResult(MissingTextSection);
    var prepared :- PrepareElf(dwarf, text, raw, decode);
    r := FinishText(prepared.bytes, prepared.functions, prepared.instructions, dwarf.architecture, decode,
                    dwarf.imageBase, sections, raw, text.rawDataOffset, text.va, text.rawDataOffset);
  }

  /** The DWARF loader gives functions no child data, so no byte of an
      ELF run on a loaded dump is DATA: with `ProcessElf`'s DATA clause, every
      byte's DATA flag would need some function's child data to cover it. */
  lemma ElfWithoutChildDataHasNoData(doc: Parser.ElfDocument)
    requires Parser.LoadElf(doc).Ok?
    ensures var dwarf := Parser.LoadElf(doc).value;
      && (forall f :: f in dwarf.functions ==> |f.data| == 0)
      && forall f, i :: f in RetainNonEmpty(dwarf.functions) ==> !Covers(f.data, i)
  {
    Parser.LoadElfGivesNoChildren(doc);
  }
}

=== FILE: symbols.dfy ===
/** The passes over the PDB symbols that run before any byte is flagged:
    dropping empty functions (`preprocess_functions`), attaching labels and
    data to the function that contains them (`create_relationships`) and
    sizing in-line data (`cut_in_line_data_end`, `cut_in_line_data_mid`). */
module Symbols {
  import opened GroundTruth
  import opened Text

  // ------------------------------------------------------------ preprocess

  /** `functions.retain(|f| f.size > 0)`: keeps the non-empty functions in
      their order. */
  function RetainNonEmpty(functions: seq<Function>): (r: seq<Function>)
    ensures forall f :: f in r <==> f in functions && f.size > 0
    ensures forall f :: f in r ==> f.size > 0
    ensures |r| <= |functions|
    ensures |r| == |functions| <==> forall f :: f in functions ==> f.size > 0
    decreases |functions|
  {
    if |functions| == 0 then []
    else
      var rest := RetainNonEmpty(functions[1..]);
      assert forall f :: f in functions <==> f == functions[0] || f in functions[1..];
      if functions[0].size > 0 then [functions[0]] + rest else rest
  }

  /** Retaining twice keeps what retaining once kept. */
  lemma {:induction false} RetainNonEmptyIdempotent(functions: seq<Function>)
    ensures RetainNonEmpty(RetainNonEmpty(functions)) == RetainNonEmpty(functions)
    decreases |functions|
  {
    if |functions| > 0 {
      RetainNonEmptyIdempotent(functions[1..]);
      var rest := RetainNonEmpty(functions[1..]);
      if functions[0].size > 0 {
        assert ([functions[0]] + rest)[1..] == rest;
      }
    }
  }

  /** `retain` works piece by piece: filtering a concatenation filters each
      part and keeps them in order. With the one-element case below this
      fixes the order and multiplicity of what is kept. */
  lemma {:induction false} RetainNonEmptyAppend(a: seq<Function>, b: seq<Function>)
    ensures RetainNonEmpty(a + b) == RetainNonEmpty(a) + RetainNonEmpty(b)
    decreases |a|
  {
    if |a| > 0 {
      assert (a + b)[0] == a[0] && (a + b)[1..] == a[1..] + b;
      RetainNonEmptyAppend(a[1..], b);
    } else {
      assert a + b == b;
    }
  }

  /** One function is kept exactly when it is non-empty. */
  lemma RetainNonEmptySingle(f: Function)
    ensures RetainNonEmpty([f]) == if f.size > 0 then [f] else []
  {
    assert [f][1..] == [];
  }

  /** `preprocess_functions`: only the function list changes. */
  function PreprocessFunctions(pdb: Pdb): (r: Pdb)
    ensures r == pdb.(functions := r.functions)
    ensures forall f :: f in r.functions <==> f in pdb.functions && f.size > 0
  {
    pdb.(functions := RetainNonEmpty(pdb.functions))
  }

  /** The preprocessing keeps the order of the functions: splitting the list
      anywhere, the kept functions of the first part come first. */
  lemma PreprocessKeepsOrder(pdb: Pdb, a: seq<Function>, b: seq<Function>)
    requires pdb.functions == a + b
    ensures PreprocessFunctions(pdb).functions
      == PreprocessFunctions(pdb.(functions := a)).functions + PreprocessFunctions(pdb.(functions := b)).functions
  {
    RetainNonEmptyAppend(a, b);
  }

  // ------------------------------------------------------------ relationships

  /** A symbol at `segment:offset` lies strictly inside the body of `f`: same
      segment, after the entry point and before the end. */
  predicate Inside(f: Function, segment: u8, offset: nat) {
    segment == f.segment && f.offset < offset < f.offset + f.size
  }

  /** The labels of `labels` inside `f`, in order. */
  function LabelsInside(f: Function, labels: seq<Label>): (r: seq<Label>)
    ensures forall l :: l in r <==> l in labels && Inside(f, l.segment, l.offset)
    ensures |r| <= |labels|
    decreases |labels|
  {
    if |labels| == 0 then []
    else
      var rest := LabelsInside(f, labels[1..]);
      assert forall l :: l in labels <==> l == labels[0] || l in labels[1..];
      if Inside(f, labels[0].segment, labels[0].offset) then [labels[0]] + rest else rest
  }

  /** The data symbols of `data` inside `f`, in order. */
  function DataInside(f: Function, data: seq<DataSymbol>): (r: seq<DataSymbol>)
    ensures forall d :: d in r <==> d in data && Inside(f, d.segment, d.offset)
    ensures |r| <= |data|
    decreases |data|
  {
    if |data| == 0 then []
    else
      var rest := DataInside(f, data[1..]);
      assert forall d :: d in data <==> d == data[0] || d in data[1..];
      if Inside(f, data[0].segment, data[0].offset) then [data[0]] + rest else rest
  }

  /** One iteration of `create_relationships`: the labels and then the data
      inside the function are appended to its children; the function itself
      keeps its name, position and size. */
  function Attach(f: Function, labels: seq<Label>, data: seq<DataSymbol>): (r: Function)
    ensures r == f.(labels := r.labels, data := r.data)
    ensures f.labels <= r.labels && f.data <= r.data
    ensures forall l :: l in r.labels[|f.labels|..] <==> l in labels && Inside(f, l.segment, l.offset)
    ensures forall d :: d in r.data[|f.data|..] <==> d in data && Inside(f, d.segment, d.offset)
  {
    var newLabels := LabelsInside(f, labels);
    var newData := DataInside(f, data);
    var r := f.(labels := f.labels + newLabels, data := f.data + newData);
    assert r.labels[|f.labels|..] == newLabels;
    assert r.data[|f.data|..] == newData;
    r
  }

  /** `create_relationships` over every function, against the complete
      label and data lists of the dump. */
  function CreateRelationships(pdb: Pdb): (r: Pdb)
    ensures r == pdb.(functions := r.functions)
    ensures |r.functions| == |pdb.functions|
    ensures forall i :: 0 <= i < |r.functions| ==> r.functions[i] == Attach(pdb.functions[i], pdb.labels, pdb.data)
  {
    pdb.(functions := seq(|pdb.functions|, i requires 0 <= i < |pdb.functions| =>
      Attach(pdb.functions[i], pdb.labels, pdb.data)))
  }

  /** A symbol at a function's entry point is never attached to it: the
      test is strict on both sides. */
  lemma EntryIsNeverAChild(f: Function, labels: seq<Label>, data: seq<DataSymbol>)
    ensures var r := Attach(f, labels, data);
      && (forall l :: l in r.labels[|f.labels|..] ==> l.offset != f.offset)
      && (forall d :: d in r.data[|f.data|..] ==> d.offset != f.offset)
  {
  }

  // ------------------------------------------------------------ cut at the end

  /** The state of `cut_in_line_data_end` for one function: its current
      size and its data so far. */
  datatype Cut = Cut(size: nat, data: seq<DataSymbol>)

  /** The loop over the data of a function at `offset` whose size is
      currently `size`: an unnamed datum starting strictly inside the current
      body gets the rest of the body as its size, and the body ends where the
      datum starts. Named data are left alone. */
  function CutEndScan(offset: nat, size: nat, data: seq<DataSymbol>): (r: Cut)
    ensures |r.data| == |data|
    ensures r.size <= size
    decreases |data|
  {
    if |data| == 0 then Cut(size, [])
    else
      var d := data[0];
      var cut := d.name == "" && offset < d.offset < offset + size;
      var rest := CutEndScan(offset, if cut then d.offset - offset else size, data[1..]);
      Cut(rest.size, [if cut then d.(size := offset + size - d.offset) else d] + rest.data)
  }

  /** Where the scan ends the body: the final size is positive exactly when
      the old one was, lies at or before every unnamed datum after the entry
      point, and is the old size or the distance to one of them. */
  lemma {:induction false} CutEndScanSize(offset: nat, size: nat, data: seq<DataSymbol>)
    ensures var r := CutEndScan(offset, size, data);
      && (r.size > 0 <==> size > 0)
      && (forall j :: 0 <= j < |data| && data[j].name == "" && offset < data[j].offset ==>
            offset + r.size <= data[j].offset)
      && (r.size == size || exists j :: 0 <= j < |data| && data[j].name == "" && data[j].offset == offset + r.size)
    decreases |data|
  {
    if |data| > 0 {
      var d := data[0];
      var cut := d.name == "" && offset < d.offset < offset + size;
      var newSize := if cut then d.offset - offset else size;
      var tail := data[1..];
      CutEndScanSize(offset, newSize, tail);
      var rest := CutEndScan(offset, newSize, tail);
      var r := CutEndScan(offset, size, data);
      assert data == [d] + tail;
      CutEndScanCons(offset, size, d, tail);
      assert r.size == rest.size;
      forall j | 1 <= j < |data| ensures data[j] == tail[j - 1] {
      }
      if r.size != size && r.size != newSize {
        var j :| 0 <= j < |tail| && tail[j].name == "" && tail[j].offset == offset + r.size;
        assert data[j + 1] == tail[j];
      }
    }
  }

  /** What the scan does to the data: only sizes change, and every datum that
      changes was unnamed, starts between the new and the old end and reaches
      at most to the old end. */
  lemma {:induction false} CutEndScanData(offset: nat, size: nat, data: seq<DataSymbol>)
    ensures var r := CutEndScan(offset, size, data);
      && (forall j :: 0 <= j < |data| ==> r.data[j] == data[j].(size := r.data[j].size))
      && (forall j :: 0 <= j < |data| && r.data[j] != data[j] ==>
            && data[j].name == ""
            && offset + r.size <= data[j].offset < offset + size
            && data[j].offset + r.data[j].size <= offset + size)
    decreases |data|
  {
    if |data| > 0 {
      var d := data[0];
      var cut := d.name == "" && offset < d.offset < offset + size;
      var newSize := if cut then d.offset - offset else size;
      var tail := data[1..];
      CutEndScanData(offset, newSize, tail);
      var rest := CutEndScan(offset, newSize, tail);
      var r := CutEndScan(offset, size, data);
      assert data == [d] + tail;
      CutEndScanCons(offset, size, d, tail);
      forall j | 1 <= j < |data| ensures r.data[j] == rest.data[j - 1] && data[j] == tail[j - 1] {
      }
    }
  }

  /** What the scan computes: both of the above. */
  lemma CutEndScanFacts(offset: nat, size: nat, data: seq<DataSymbol>)
    ensures var r := CutEndScan(offset, size, data);
      && (r.size > 0 <==> size > 0)
      && (forall j :: 0 <= j < |data| && data[j].name == "" && offset < data[j].offset ==>
            offset + r.size <= data[j].offset)
      && (r.size == size || exists j :: 0 <= j < |data| && data[j].name == "" && data[j].offset == offset + r.size)
      && (forall j :: 0 <= j < |data| ==> r.data[j] == data[j].(size := r.data[j].size))
      && (forall j :: 0 <= j < |data| && r.data[j] != data[j] ==>
            && data[j].name == ""
            && offset + r.size <= data[j].offset < offset + size
            && data[j].offset + r.data[j].size <= offset + size)
  {
    CutEndScanSize(offset, size, data);
    CutEndScanData(offset, size, data);
  }

  /** `cut_in_line_data_end` for one function. */
  function CutEnd(f: Function): (r: Function)
    ensures r == f.(size := r.size, data := r.data)
    ensures r.size <= f.size && (r.size > 0 <==> f.size > 0)
    ensures |r.data| == |f.data|
    ensures forall j :: 0 <= j < |f.data| && f.data[j].name != "" ==> r.data[j] == f.data[j]
    ensures forall j :: 0 <= j < |f.data| && f.data[j].name == "" && f.offset < f.data[j].offset ==>
      f.offset + r.size <= f.data[j].offset
    ensures r.size == f.size ||
      exists j :: 0 <= j < |f.data| && f.data[j].name == "" && f.data[j].offset == f.offset + r.size
    ensures forall j :: 0 <= j < |f.data| ==> r.data[j] == f.data[j].(size := r.data[j].size)
    ensures forall j :: 0 <= j < |f.data| && r.data[j] != f.data[j] ==>
      && f.data[j].name == ""
      && f.offset + r.size <= f.data[j].offset < f.offset + f.size
      && f.data[j].offset + r.data[j].size <= f.offset + f.size
  {
    CutEndScanFacts(f.offset, f.size, f.data);
    var c := CutEndScan(f.offset, f.size, f.data);
    f.(size := c.size, data := c.data)
  }

  /** With a single unnamed datum strictly inside the body, the scan ends the
      body where the datum starts and gives the datum the rest of the old body. */
  lemma {:induction false} CutEndScanSingle(offset: nat, size: nat, data: seq<DataSymbol>, j: nat)
    requires j < |data| && data[j].name == "" && offset < data[j].offset < offset + size
    requires forall k :: 0 <= k < |data| && k != j ==> data[k].name != ""
    ensures var r := CutEndScan(offset, size, data);
      offset + r.size == data[j].offset && data[j].offset + r.data[j].size == offset + size
    decreases |data|
  {
    var d := data[0];
    var tail := data[1..];
    var r := CutEndScan(offset, size, data);
    if j == 0 {
      var rest := CutEndScan(offset, d.offset - offset, tail);
      assert r == Cut(rest.size, [d.(size := offset + size - d.offset)] + rest.data);
      CutEndScanFacts(offset, d.offset - offset, tail);
      assert rest.size == d.offset - offset by {
        forall k | 0 <= k < |tail| ensures tail[k].name != "" {
          assert tail[k] == data[k + 1];
        }
      }
    } else {
      assert d.name != "";
      var rest := CutEndScan(offset, size, tail);
      assert r == Cut(rest.size, [d] + rest.data);
      forall k | 0 <= k < |tail| && k != j - 1 ensures tail[k].name != "" {
        assert tail[k] == data[k + 1];
      }
      CutEndScanSingle(offset, size, tail, j - 1);
    }
  }

  /** `cut_in_line_data_end` on a function with a single unnamed datum inside
      its body: the function now ends where the datum starts, and the datum
      reaches the old end of the function. */
  lemma CutEndSingleDatum(f: Function, j: nat)
    requires j < |f.data| && f.data[j].name == "" && f.offset < f.data[j].offset < f.offset + f.size
    requires forall k :: 0 <= k < |f.data| && k != j ==> f.data[k].name != ""
    ensures var r := CutEnd(f);
      f.offset + r.size == f.data[j].offset && f.data[j].offset + r.data[j].size == f.offset + f.size
  {
    CutEndScanSingle(f.offset, f.size, f.data, j);
  }

  /** `cut_in_line_data_end` over every function. */
  function CutInLineDataEnd(pdb: Pdb): (r: Pdb)
    ensures r == pdb.(functions := r.functions)
    ensures |r.functions| == |pdb.functions|
    ensures forall i :: 0 <= i < |r.functions| ==> r.functions[i] == CutEnd(pdb.functions[i])
  {
    pdb.(functions := seq(|pdb.functions|, i requires 0 <= i < |pdb.functions| => CutEnd(pdb.functions[i])))
  }

  /** With the data in ascending order (as the dump sorts them), only the
      first unnamed datum inside the body is cut: it receives the whole rest
      of the body, and a later one keeps its size. */
  lemma AscendingDataIsCutOnce()
    ensures var f := Function("f", 0x1000, 1, 0x40, [], [DataSymbol("", 0x1020, 1, 0), DataSymbol("", 0x1030, 1, 0)]);
      CutEnd(f) == f.(size := 0x20, data := [DataSymbol("", 0x1020, 1, 0x20), DataSymbol("", 0x1030, 1, 0)])
  {
    var data := [DataSymbol("", 0x1020, 1, 0), DataSymbol("", 0x1030, 1, 0)];
    assert data[1..][1..] == [];
  }

  // ------------------------------------------------------------ jump tables

  /** The name a jump table's labels are matched against: lower case, with
      every "vec" removed. */
  function BaseName(name: string): string {
    RemoveAll(ToLower(name), "vec")
  }

  predicate LabelMatches(l: Label, base: string) {
    Contains(ToLower(l.name), base)
  }

  /** The number of labels whose lower-case name contains `base`. */
  function CountMatches(labels: seq<Label>, base: string): (r: nat)
    ensures r <= |labels|
    ensures r == 0 <==> forall l :: l in labels ==> !LabelMatches(l, base)
    ensures r == |labels| <==> forall l :: l in labels ==> LabelMatches(l, base)
    decreases |labels|
  {
    if |labels| == 0 then 0
    else
      assert forall l :: l in labels <==> l == labels[0] || l in labels[1..];
      (if LabelMatches(labels[0], base) then 1 else 0) + CountMatches(labels[1..], base)
  }

  /** The positions of the labels whose lower-case name contains `base`,
      from position `lo` on: an independent statement of what the loop
      counts. */
  ghost function MatchingFrom(labels: seq<Label>, base: string, lo: nat): set<nat> {
    set k: nat | lo <= k < |labels| && LabelMatches(labels[k], base)
  }

  /** `CountMatches` counts exactly the matching labels. */
  lemma {:induction false} CountMatchesCountsLabels(labels: seq<Label>, base: string, lo: nat)
    requires lo <= |labels|
    ensures CountMatches(labels[lo..], base) == |MatchingFrom(labels, base, lo)|
    decreases |labels| - lo
  {
    if lo < |labels| {
      CountMatchesCountsLabels(labels, base, lo + 1);
      var here := MatchingFrom(labels, base, lo);
      var later := MatchingFrom(labels, base, lo + 1);
      assert labels[lo..][0] == labels[lo] && labels[lo..][1..] == labels[lo + 1..];
      if LabelMatches(labels[lo], base) {
        assert here == {lo} + later;
        assert lo !in later;
      } else {
        assert here == later;
      }
    } else {
      assert MatchingFrom(labels, base, lo) == {};
    }
  }

  /** One datum of `cut_in_line_data_mid`: a named datum is a jump table of
      four-byte entries, one per matching label of its function. */
  function SizeJumpTable(d: DataSymbol, labels: seq<Label>): (r: DataSymbol)
    ensures r == d.(size := r.size)
    ensures d.name == "" ==> r == d
    ensures d.name != "" ==> r.size == 4 * |MatchingFrom(labels, BaseName(d.name), 0)|
  {
    if d.name == "" then d
    else
      assert labels[0..] == labels;
      CountMatchesCountsLabels(labels, BaseName(d.name), 0);
      d.(size := 4 * CountMatches(labels, BaseName(d.name)))
  }

  /** A named datum's table holds four bytes per matching label: its size is
      four times the number of labels of the function whose lower-case name
      contains the datum's base name. */
  lemma JumpTableSize(d: DataSymbol, labels: seq<Label>)
    requires d.name != ""
    ensures var r := SizeJumpTable(d, labels);
      && r.size == 4 * |MatchingFrom(labels, BaseName(d.name), 0)|
      && r.size <= 4 * |labels|
      && (r.size == 0 <==> forall l :: l in labels ==> !LabelMatches(l, BaseName(d.name)))
  {
    JumpTableEmpty(d, labels);
  }

  /** A named datum's table is empty exactly when no label matches. */
  lemma JumpTableEmpty(d: DataSymbol, labels: seq<Label>)
    requires d.name != ""
    ensures var r := SizeJumpTable(d, labels);
      && r.size <= 4 * |labels|
      && (r.size == 0 <==> forall l :: l in labels ==> !LabelMatches(l, BaseName(d.name)))
  {
    var n := CountMatches(labels, BaseName(d.name));
    assert SizeJumpTable(d, labels).size == 4 * n;
  }

  function SizeJumpTables(data: seq<DataSymbol>, labels: seq<Label>): (r: seq<DataSymbol>)
    ensures |r| == |data|
    ensures forall j :: 0 <= j < |data| ==> r[j] == SizeJumpTable(data[j], labels)
    decreases |data|
  {
    if |data| == 0 then [] else [SizeJumpTable(data[0], labels)] + SizeJumpTables(data[1..], labels)
  }

  /** `cut_in_line_data_mid` for one function: only the sizes of named data
      change. */
  function CutMid(f: Function): (r: Function)
    ensures r == f.(data := r.data)
    ensures |r.data| == |f.data|
    ensures forall j :: 0 <= j < |f.data| ==> r.data[j] == SizeJumpTable(f.data[j], f.labels)
  {
    f.(data := SizeJumpTables(f.data, f.labels))
  }

  /** `cut_in_line_data_mid` over every function. */
  function CutInLineDataMid(pdb: Pdb): (r: Pdb)
    ensures r == pdb.(functions := r.functions)
    ensures |r.functions| == |pdb.functions|
    ensures forall i :: 0 <= i < |r.functions| ==> r.functions[i] == CutMid(pdb.functions[i])
  {
    pdb.(functions := seq(|pdb.functions|, i requires 0 <= i < |pdb.functions| => CutMid(pdb.functions[i])))
  }

  /** A datum whose name is "vec" in any case has an empty base name, which
      every label contains: its size counts all labels of the function. */
  lemma VecNameCountsEveryLabel(d: DataSymbol, labels: seq<Label>)
    requires d.name == "Vec"
    ensures SizeJumpTable(d, labels).size == 4 * |labels|
  {
    assert ToLower("Vec") == "vec";
    assert RemoveAll("vec", "vec") == [] by {
      assert "vec"[3..] == [];
    }
    forall l | l in labels ensures LabelMatches(l, []) {
      assert OccursAt(ToLower(l.name), [], 0);
    }
  }

  /** The two cuts touch disjoint data (unnamed against named) and the
      second reads only names and labels, so their order does not matter. */
  lemma SizeJumpTablesCons(x: DataSymbol, rest: seq<DataSymbol>, labels: seq<Label>)
    ensures SizeJumpTables([x] + rest, labels) == [SizeJumpTable(x, labels)] + SizeJumpTables(rest, labels)
  {
    assert ([x] + rest)[1..] == rest;
  }

  /** One step of the end cut: the first datum is cut or kept, and the scan
      goes on over the rest with the size that leaves. */
  lemma CutEndScanCons(offset: nat, size: nat, d: DataSymbol, tail: seq<DataSymbol>)
    ensures var cut := d.name == "" && offset < d.offset < offset + size;
      var rest := CutEndScan(offset, if cut then d.offset - offset else size, tail);
      CutEndScan(offset, size, [d] + tail)
        == Cut(rest.size, [if cut then d.(size := offset + size - d.offset) else d] + rest.data)
  {
    assert ([d] + tail)[0] == d && ([d] + tail)[1..] == tail;
  }

  /** `CutEndScanCons` with the size the first datum leaves and the datum
      it keeps named by the caller. */
  lemma CutEndScanStep(offset: nat, size: nat, d: DataSymbol, tail: seq<DataSymbol>, newSize: nat, head: DataSymbol)
    requires newSize == if d.name == "" && offset < d.offset < offset + size then d.offset - offset else size
    requires head == if d.name == "" && offset < d.offset < offset + size then d.(size := offset + size - d.offset) else d
    ensures var rest := CutEndScan(offset, newSize, tail);
      CutEndScan(offset, size, [d] + tail) == Cut(rest.size, [head] + rest.data)
  {
    CutEndScanCons(offset, size, d, tail);
  }

  /** The inductive step of `CutsCommuteScan`: if the cuts commute on the
      tail (with whatever size the first datum leaves), they commute on the
      whole sequence. */
  lemma CutsCommuteStep(offset: nat, size: nat, d: DataSymbol, tail: seq<DataSymbol>, labels: seq<Label>, newSize: nat)
    requires newSize == if d.name == "" && offset < d.offset < offset + size then d.offset - offset else size
    requires var c1 := CutEndScan(offset, newSize, tail);
      CutEndScan(offset, newSize, SizeJumpTables(tail, labels)) == Cut(c1.size, SizeJumpTables(c1.data, labels))
    ensures var c := CutEndScan(offset, size, [d] + tail);
      CutEndScan(offset, size, SizeJumpTables([d] + tail, labels)) == Cut(c.size, SizeJumpTables(c.data, labels))
  {
    var cut := d.name == "" && offset < d.offset < offset + size;
    var first := if cut then d.(size := offset + size - d.offset) else d;
    SizedThenCut(offset, size, d, tail, labels, newSize);
    CutThenSized(offset, size, d, tail, labels, newSize);
  }

  /** The left half of `CutsCommuteStep`: sizing first, then one step of the
      end cut. */
  lemma SizedThenCut(offset: nat, size: nat, d: DataSymbol, tail: seq<DataSymbol>, labels: seq<Label>, newSize: nat)
    requires newSize == if d.name == "" && offset < d.offset < offset + size then d.offset - offset else size
    requires var c1 := CutEndScan(offset, newSize, tail);
      CutEndScan(offset, newSize, SizeJumpTables(tail, labels)) == Cut(c1.size, SizeJumpTables(c1.data, labels))
    ensures var cut := d.name == "" && offset < d.offset < offset + size;
      var first := if cut then d.(size := offset + size - d.offset) else d;
      var c1 := CutEndScan(offset, newSize, tail);
      CutEndScan(offset, size, SizeJumpTables([d] + tail, labels))
        == Cut(c1.size, [SizeJumpTable(first, labels)] + SizeJumpTables(c1.data, labels))
  {
    var sized := SizeJumpTable(d, labels);
    assert sized.name == d.name && sized.offset == d.offset;
    var cut := d.name == "" && offset < d.offset < offset + size;
    var first := if cut then d.(size := offset + size - d.offset) else d;
    var first' := if cut then sized.(size := offset + size - d.offset) else sized;
    assert first' == SizeJumpTable(first, labels);
    var sizedTail := SizeJumpTables(tail, labels);
    var rest := CutEndScan(offset, newSize, sizedTail);
    calc {
      CutEndScan(offset, size, SizeJumpTables([d] + tail, labels));
      { SizeJumpTablesCons(d, tail, labels); }
      CutEndScan(offset, size, [sized] + sizedTail);
      { CutEndScanStep(offset, size, sized, sizedTail, newSize, first'); }
      Cut(rest.size, [first'] + rest.data);
    }
    assert rest == Cut(CutEndScan(offset, newSize, tail).size, SizeJumpTables(CutEndScan(offset, newSize, tail).data, labels));
  }

  /** The right half of `CutsCommuteStep`: one step of the end cut, then
      sizing. */
  lemma CutThenSized(offset: nat, size: nat, d: DataSymbol, tail: seq<DataSymbol>, labels: seq<Label>, newSize: nat)
    requires newSize == if d.name == "" && offset < d.offset < offset + size then d.offset - offset else size
    ensures var cut := d.name == "" && offset < d.offset < offset + size;
      var first := if cut then d.(size := offset + size - d.offset) else d;
      var c1 := CutEndScan(offset, newSize, tail);
      var c := CutEndScan(offset, size, [d] + tail);
      Cut(c1.size, [SizeJumpTable(first, labels)] + SizeJumpTables(c1.data, labels))
        == Cut(c.size, SizeJumpTables(c.data, labels))
  {
    var cut := d.name == "" && offset < d.offset < offset + size;
    var first := if cut then d.(size := offset + size - d.offset) else d;
    var c1 := CutEndScan(offset, newSize, tail);
    CutEndScanCons(offset, size, d, tail);
    SizeJumpTablesCons(first, c1.data, labels);
  }

  lemma {:induction false} CutsCommuteScan(offset: nat, size: nat, data: seq<DataSymbol>, labels: seq<Label>)
    ensures var c := CutEndScan(offset, size, data);
      CutEndScan(offset, size, SizeJumpTables(data, labels)) == Cut(c.size, SizeJumpTables(c.data, labels))
    decreases |data|
  {
    if |data| > 0 {
      var d := data[0];
      var tail := data[1..];
      var newSize := if d.name == "" && offset < d.offset < offset + size then d.offset - offset else size;
      CutsCommuteScan(offset, newSize, tail, labels);
      CutsCommuteStep(offset, size, d, tail, labels, newSize);
      assert data == [d] + tail;
    }
  }

  lemma CutsCommute(f: Function)
    ensures CutMid(CutEnd(f)) == CutEnd(CutMid(f))
  {
    CutsCommuteScan(f.offset, f.size, f.data, f.labels);
  }

  /** After dropping empty functions and cutting in-line data, every function
      still has a non-empty body. */
  lemma CutKeepsFunctionsNonEmpty(pdb: Pdb)
    ensures var r := CutInLineDataMid(CutInLineDataEnd(CreateRelationships(PreprocessFunctions(pdb))));
      forall f :: f in r.functions ==> f.size > 0
  {
    var p := PreprocessFunctions(pdb);
    var q := CreateRelationships(p);
    var s := CutInLineDataEnd(q);
    var r := CutInLineDataMid(s);
    forall f | f in r.functions ensures f.size > 0 {
      var i :| 0 <= i < |r.functions| && r.functions[i] == f;
      assert p.functions[i] in p.functions;
    }
  }
}

=== FILE: text.dfy ===
/** The string operations the jump-table pass uses on symbol names:
    `to_lowercase`, `replace(pattern, "")` and `contains`. */
module Text {

  predicate IsAsciiUpper(c: char) {
    'A' <= c <= 'Z'
  }

  function LowerChar(c: char): char {
    if IsAsciiUpper(c) then (c as int + 32) as char else c
  }

  /** `str::to_lowercase` on ASCII text: upper-case letters become lower-case,
      every other character is kept, and the length does not change. */
  function ToLower(s: string): (r: string)
    ensures |r| == |s|
    ensures forall i :: 0 <= i < |r| ==> !IsAsciiUpper(r[i])
    ensures forall i :: 0 <= i < |s| && !IsAsciiUpper(s[i]) ==> r[i] == s[i]
    ensures forall i :: 0 <= i < |s| && IsAsciiUpper(s[i]) ==> r[i] as int == s[i] as int + 32
  {
    seq(|s|, i requires 0 <= i < |s| => LowerChar(s[i]))
  }

  /** `needle` occurs in `hay` starting at index `i`. */
  predicate OccursAt(hay: string, needle: string, i: int) {
    0 <= i && i + |needle| <= |hay| && hay[i..i + |needle|] == needle
  }

  /** `str::contains`: a left-to-right search for `needle`. */
  function Contains(hay: string, needle: string): (r: bool)
    ensures r <==> exists i :: OccursAt(hay, needle, i)
    decreases |hay|
  {
    if needle <= hay then
      assert OccursAt(hay, needle, 0);
      true
    else if |hay| == 0 then
      false
    else
      var rest := Contains(hay[1..], needle);
      assert rest ==> exists i :: OccursAt(hay, needle, i) by {
        if rest {
          var i :| OccursAt(hay[1..], needle, i);
          assert hay[1..][i..i + |needle|] == hay[i + 1..i + 1 + |needle|];
          assert OccursAt(hay, needle, i + 1);
        }
      }
      assert (exists i :: OccursAt(hay, needle, i)) ==> rest by {
        if i :| OccursAt(hay, needle, i) {
          assert i != 0;
          assert hay[1..][i - 1..i - 1 + |needle|] == hay[i..i + |needle|];
          assert OccursAt(hay[1..], needle, i - 1);
        }
      }
      rest
  }

  /** `str::replace(pat, "")`: one left-to-right pass that drops every
      non-overlapping occurrence of `pat`. The result equals the input exactly
      when the input does not contain `pat`. */
  function RemoveAll(s: string, pat: string): (r: string)
    requires |pat| > 0
    ensures |r| <= |s|
    ensures r == s <==> !Contains(s, pat)
    decreases |s|
  {
    if |s| == 0 then []
    else if pat <= s then RemoveAll(s[|pat|..], pat)
    else
      assert Contains(s, pat) <==> Contains(s[1..], pat) by {
        if Contains(s, pat) {
          var i :| OccursAt(s, pat, i);
          assert i != 0;
          assert s[1..][i - 1..i - 1 + |pat|] == s[i..i + |pat|];
          assert OccursAt(s[1..], pat, i - 1);
        }
      }
      [s[0]] + RemoveAll(s[1..], pat)
  }

  /** What the pass leaves: the text before the first occurrence of `pat`,
      followed by what the pass leaves of the text after that occurrence. */
  lemma {:induction false} RemoveAllSplitsAtFirst(s: string, pat: string, i: nat)
    requires |pat| > 0
    requires OccursAt(s, pat, i)
    requires forall j :: 0 <= j < i ==> !OccursAt(s, pat, j)
    ensures RemoveAll(s, pat) == s[..i] + RemoveAll(s[i + |pat|..], pat)
    decreases i
  {
    if i == 0 {
      RemoveAllAtStart(s, pat);
    } else {
      var k: nat := i - 1;
      FirstOccurrenceInTail(s, pat, k, i);
      RemoveAllSplitsAtFirst(s[1..], pat, k);
      RemoveAllSplitStep(s, pat, k, i);
    }
  }

  /** A text that starts with `pat` loses it and keeps the pass over the rest. */
  lemma {:induction false} RemoveAllAtStart(s: string, pat: string)
    requires |pat| > 0 && OccursAt(s, pat, 0)
    ensures RemoveAll(s, pat) == s[..0] + RemoveAll(s[0 + |pat|..], pat)
  {
    RemoveAllStep(s, pat);
    assert s[..|pat|] == pat;
    var after := RemoveAll(s[|pat|..], pat);
    assert RemoveAll(s, pat) == after;
    assert s[..0] + after == after;
  }

  /** The first occurrence at `i > 0` is the first occurrence at `i - 1` of
      the text without its first character. */
  lemma {:induction false} FirstOccurrenceInTail(s: string, pat: string, k: nat, i: nat)
    requires i == k + 1 && |pat| > 0
    requires OccursAt(s, pat, i)
    requires forall j :: 0 <= j < i ==> !OccursAt(s, pat, j)
    ensures !OccursAt(s, pat, 0)
    ensures OccursAt(s[1..], pat, k)
    ensures forall j :: 0 <= j < k ==> !OccursAt(s[1..], pat, j)
  {
    var t := s[1..];
    assert t[k..k + |pat|] == s[i..i + |pat|];
    forall j | 0 <= j < k ensures !OccursAt(t, pat, j) {
      assert t[j..j + |pat|] == s[j + 1..j + 1 + |pat|];
      assert !OccursAt(s, pat, j + 1);
    }
  }

  /** The inductive step of `RemoveAllSplitsAtFirst`: when `pat` does not
      start the text, the split of the rest carries over. */
  lemma {:induction false} RemoveAllSplitStep(s: string, pat: string, k: nat, i: nat)
    requires i == k + 1
    requires |pat| > 0 && k + 1 + |pat| <= |s|
    requires !OccursAt(s, pat, 0)
    requires var t := s[1..];
      RemoveAll(t, pat) == t[..k] + RemoveAll(t[k + |pat|..], pat)
    ensures RemoveAll(s, pat) == s[..i] + RemoveAll(s[i + |pat|..], pat)
  {
    var t := s[1..];
    RemoveAllSkipsHead(s, pat);
    var mid := t[k + |pat|..];
    assert mid == s[i + |pat|..] by {
      DropDrop(s, 1, k + |pat|, i + |pat|);
    }
    TakeCons(s, k, i);
    JoinAfterHead(s[0], t[..k], RemoveAll(mid, pat), RemoveAll(t, pat), RemoveAll(s, pat));
  }

  /** Putting a character back in front of a split text. */
  lemma JoinAfterHead(c: char, front: string, after: string, tail: string, whole: string)
    requires tail == front + after && whole == [c] + tail
    ensures whole == ([c] + front) + after
  {
  }

  /** A text that `pat` does not start keeps its first character. */
  lemma {:induction false} RemoveAllSkipsHead(s: string, pat: string)
    requires |pat| > 0 && |s| > 0 && !OccursAt(s, pat, 0)
    ensures RemoveAll(s, pat) == [s[0]] + RemoveAll(s[1..], pat)
  {
    if |pat| <= |s| {
      assert s[..|pat|] != pat;
    }
    assert !(pat <= s);
    RemoveAllStep(s, pat);
  }

  lemma TakeCons(s: string, k: nat, i: nat)
    requires i == k + 1 && i <= |s|
    ensures s[..i] == [s[0]] + s[1..][..k]
  {
  }

  lemma DropDrop(s: string, a: nat, b: nat, c: nat)
    requires c == a + b && c <= |s|
    ensures s[a..][b..] == s[c..]
  {
  }

  /** One step of the pass over a non-empty text. */
  lemma RemoveAllStep(s: string, pat: string)
    requires |pat| > 0 && |s| > 0
    ensures RemoveAll(s, pat) == if pat <= s then RemoveAll(s[|pat|..], pat) else [s[0]] + RemoveAll(s[1..], pat)
  {
  }

  /** The removal is a single pass: removing an inner occurrence can join the
      characters around it into a new occurrence, which is kept. */
  lemma RemoveAllIsOnePass()
    ensures RemoveAll("vvecec", "vec") == "vec"
    ensures Contains(RemoveAll("vvecec", "vec"), "vec")
  {
    var s := "vvecec";
    assert "vec"[1] != s[1];
    assert s[0] == 'v' && s[1..] == "vecec";
    assert "vecec"[3..] == "ec" && "vec" <= "vecec";
    assert "ec"[0] == 'e' && "ec"[1..] == "c" && "vec"[0] != "ec"[0];
    assert "c"[0] == 'c' && "c"[1..] == "" && "vec"[0] != "c"[0];
    calc {
      RemoveAll(s, "vec");
      ['v'] + RemoveAll("vecec", "vec");
      ['v'] + RemoveAll("ec", "vec");
      ['v'] + (['e'] + RemoveAll("c", "vec"));
      ['v'] + (['e'] + (['c'] + RemoveAll("", "vec")));
      "vec";
    }
    assert OccursAt("vec", "vec", 0);
  }
}

=== FILE: vectors.dfy ===
/** The few `Vec` operations of the Rust standard library the tool relies on,
    stated over Dafny sequences: `iter().any(|x| x == v)`, `dedup()` (which only
    merges ADJACENT equal elements) and the stable `sort_by` on an integer key. */
module Vectors {

  /** No two neighbouring elements are equal: what `dedup` guarantees. */
  predicate NoAdjacentDuplicates<T(==)>(s: seq<T>) {
    forall i :: 0 <= i < |s| - 1 ==> s[i] != s[i + 1]
  }

  /** `s.iter().any(|x| x == v)`: a left-to-right scan that stops at the first hit. */
  function Any<T(==)>(s: seq<T>, v: T): (r: bool)
    ensures r <==> v in s
    decreases |s|
  {
    if |s| == 0 then false
    else if s[0] == v then true
    else Any(s[1..], v)
  }

  /** `Vec::dedup`: removes consecutive repeated elements, keeping the first of
      each run. Equal elements that are not neighbours are all kept. */
  function Dedup<T(==,!new)>(s: seq<T>): (r: seq<T>)
    ensures |r| <= |s|
    ensures forall x :: x in r <==> x in s
    ensures NoAdjacentDuplicates(r)
    ensures |s| > 0 ==> |r| > 0 && r[0] == s[0]
    decreases |s|
  {
    if |s| <= 1 then s
    else if s[0] == s[1] then Dedup(s[1..])
    else [s[0]] + Dedup(s[1..])
  }

  /** A sequence without adjacent duplicates is left as it is. */
  lemma {:induction false} DedupKeepsDuplicateFree<T(!new)>(s: seq<T>)
    requires NoAdjacentDuplicates(s)
    ensures Dedup(s) == s
    decreases |s|
  {
    if |s| > 1 {
      DedupKeepsDuplicateFree(s[1..]);
    }
  }

  /** `dedup` works run by run: where two pieces meet at unequal elements,
      deduplicating the whole is deduplicating each piece. With the contract
      of `Dedup` (one element per run, the first kept) this fixes the result
      on every input: a run of equal elements becomes that element, and
      equal elements in different runs are all kept. */
  lemma {:induction false} DedupAppend<T(!new)>(a: seq<T>, b: seq<T>)
    requires |a| > 0 && |b| > 0 && a[|a| - 1] != b[0]
    ensures Dedup(a + b) == Dedup(a) + Dedup(b)
    decreases |a|
  {
    var ab := a + b;
    if |a| == 1 {
      assert ab[1..] == b;
      DedupStep(ab);
    } else {
      assert ab[1..] == a[1..] + b;
      DedupStep(ab);
      DedupStep(a);
      DedupAppend(a[1..], b);
    }
  }

  /** One step of `Dedup` on a sequence of two or more elements. */
  lemma DedupStep<T(!new)>(s: seq<T>)
    requires |s| >= 2
    ensures Dedup(s) == if s[0] == s[1] then Dedup(s[1..]) else [s[0]] + Dedup(s[1..])
  {
  }

  /** `[C, C, D, C]` becomes `[C, D, C]`: only neighbours are merged. */
  lemma DedupMergesOnlyNeighbours()
    ensures Dedup([1, 1, 2, 1]) == [1, 2, 1]
  {
    DedupAppend([1, 1], [2, 1]);
    assert [1, 1] + [2, 1] == [1, 1, 2, 1];
    assert Dedup([1, 1]) == [1];
    DedupKeepsDuplicateFree([2, 1]);
  }

  /** Running `dedup` twice is the same as running it once. */
  lemma DedupIdempotent<T(!new)>(s: seq<T>)
    ensures Dedup(Dedup(s)) == Dedup(s)
  {
    DedupKeepsDuplicateFree(Dedup(s));
  }

  /** Appending to a duplicate-free sequence and deduplicating never disturbs
      the elements that were there before: they remain a prefix. */
  lemma {:induction false} DedupKeepsPrefix<T(!new)>(a: seq<T>, b: seq<T>)
    requires NoAdjacentDuplicates(a)
    ensures a <= Dedup(a + b)
    decreases |a|
  {
    if |a| >= 2 {
      assert (a + b)[1..] == a[1..] + b;
      DedupKeepsPrefix(a[1..], b);
    }
  }

  /** Keys never decrease from left to right. */
  predicate SortedBy<T>(s: seq<T>, key: T -> nat) {
    forall i, j :: 0 <= i < j < |s| ==> key(s[i]) <= key(s[j])
  }

  /** The elements of `s` whose key is `k`, in their order in `s`. A sort is
      stable exactly when it leaves every such class unchanged. */
  function KeyClass<T>(s: seq<T>, key: T -> nat, k: nat): seq<T>
    decreases |s|
  {
    if |s| == 0 then []
    else KeyClass(s[..|s| - 1], key, k) + (if key(s[|s| - 1]) == k then [s[|s| - 1]] else [])
  }

  /** Places `x` after every element whose key is at most `key(x)`. */
  function InsertByKey<T>(s: seq<T>, x: T, key: T -> nat): (r: seq<T>)
    ensures |r| == |s| + 1
    decreases |s|
  {
    if |s| == 0 || key(s[|s| - 1]) <= key(x) then s + [x]
    else InsertByKey(s[..|s| - 1], x, key) + [s[|s| - 1]]
  }

  /** Stable sort by `key` (the model of `sort_by(|a, b| key(a).cmp(&key(b)))`). */
  function SortByKey<T>(s: seq<T>, key: T -> nat): (r: seq<T>)
    ensures |r| == |s|
    decreases |s|
  {
    if |s| == 0 then []
    else InsertByKey(SortByKey(s[..|s| - 1], key), s[|s| - 1], key)
  }

  lemma {:induction false} InsertByKeyContents<T>(s: seq<T>, x: T, key: T -> nat)
    ensures multiset(InsertByKey(s, x, key)) == multiset(s) + multiset{x}
    decreases |s|
  {
    if |s| > 0 && key(s[|s| - 1]) > key(x) {
      var p := s[..|s| - 1];
      InsertByKeyContents(p, x, key);
      assert s == p + [s[|s| - 1]];
    }
  }

  lemma {:induction false} InsertByKeySorted<T>(s: seq<T>, x: T, key: T -> nat)
    requires SortedBy(s, key)
    ensures SortedBy(InsertByKey(s, x, key), key)
    decreases |s|
  {
    if |s| > 0 && key(s[|s| - 1]) > key(x) {
      var p := s[..|s| - 1];
      var y := s[|s| - 1];
      var q := InsertByKey(p, x, key);
      InsertByKeySorted(p, x, key);
      InsertByKeyContents(p, x, key);
      forall i | 0 <= i < |q|
        ensures key(q[i]) <= key(y)
      {
        assert q[i] in multiset(q);
        if q[i] != x {
          assert q[i] in multiset(p);
          var j :| 0 <= j < |p| && p[j] == q[i];
          assert s[j] == p[j];
        }
      }
    }
  }

  lemma {:induction false} InsertByKeyStable<T>(s: seq<T>, x: T, key: T -> nat, k: nat)
    requires SortedBy(s, key)
    ensures KeyClass(InsertByKey(s, x, key), key, k)
         == KeyClass(s, key, k) + (if key(x) == k then [x] else [])
    decreases |s|
  {
    var r := InsertByKey(s, x, key);
    if |s| == 0 || key(s[|s| - 1]) <= key(x) {
      assert r[..|r| - 1] == s;
    } else {
      var p := s[..|s| - 1];
      var y := s[|s| - 1];
      var q := InsertByKey(p, x, key);
      assert r[..|r| - 1] == q;
      assert s[..|s| - 1] == p;
      InsertByKeyStable(p, x, key, k);
    }
  }

  /** `SortByKey` returns a permutation of its input, ordered by key, in which
      elements with equal keys keep their original relative order. */
  lemma {:induction false} SortByKeyCorrect<T>(s: seq<T>, key: T -> nat)
    ensures SortedBy(SortByKey(s, key), key)
    ensures multiset(SortByKey(s, key)) == multiset(s)
    ensures forall k: nat :: KeyClass(SortByKey(s, key), key, k) == KeyClass(s, key, k)
    decreases |s|
  {
    if |s| > 0 {
      var p := s[..|s| - 1];
      var x := s[|s| - 1];
      SortByKeyCorrect(p, key);
      InsertByKeySorted(SortByKey(p, key), x, key);
      InsertByKeyContents(SortByKey(p, key), x, key);
      assert s == p + [x];
      forall k: nat
        ensures KeyClass(SortByKey(s, key), key, k) == KeyClass(s, key, k)
      {
        InsertByKeyStable(SortByKey(p, key), x, key, k);
      }
    }
  }

  /** `dedup` keeps a sorted sequence sorted. */
  lemma {:induction false} DedupSorted<T(!new)>(s: seq<T>, key: T -> nat)
    requires SortedBy(s, key)
    ensures SortedBy(Dedup(s), key)
    decreases |s|
  {
    if |s| > 1 {
      var d := Dedup(s[1..]);
      DedupSorted(s[1..], key);
      if s[0] != s[1] {
        var r := [s[0]] + d;
        forall i, j | 0 <= i < j < |r|
          ensures key(r[i]) <= key(r[j])
        {
          if i == 0 {
            assert r[j] in s[1..];
          } else {
            assert r[i] == d[i - 1] && r[j] == d[j - 1];
          }
        }
      }
    }
  }

  /** The `sort_by` followed by `dedup` applied to every symbol collection:
      sorted by key, no two neighbours equal, and exactly the input's elements. */
  function SortDedup<T(==,!new)>(s: seq<T>, key: T -> nat): (r: seq<T>)
    ensures SortedBy(r, key)
    ensures NoAdjacentDuplicates(r)
    ensures forall x :: x in r <==> x in s
  {
    SortByKeyCorrect(s, key);
    DedupSorted(SortByKey(s, key), key);
    assert forall x :: x in SortByKey(s, key) <==> x in multiset(SortByKey(s, key));
    Dedup(SortByKey(s, key))
  }
}

=== FILE: wrappers.dfy ===
/** Failure-compatible wrappers used throughout the model: `Option` for values
    that may be absent (a YAML key that is not there, a symbol that is skipped)
    and `Result` for operations that can end the program (a panic or an exit). */
module Wrappers {

  datatype Option<+T> = None | Some(value: T) {

    predicate IsFailure() {
      None?
    }

    function PropagateFailure<U>(): Option<U>
      requires None?
    {
      None
    }

    function Extract(): T
      requires Some?
    {
      value
    }

    /** The `unwrap` of a value that must be there: `Err(e)` when it is not. */
    function ToResult<E>(e: E): (r: Result<T, E>)
      ensures r.Ok? <==> Some?
      ensures r.Ok? ==> r.value == value
      ensures r.Err? ==> r.error == e
    {
      match this
      case Some(v) => Ok(v)
      case None => Err(e)
    }
  }

  datatype Result<+T, +E> = Ok(value: T) | Err(error: E) {

    predicate IsFailure() {
      Err?
    }

    function PropagateFailure<U>(): Result<U, E>
      requires Err?
    {
      Err(error)
    }

    function Extract(): T
      requires Ok?
    {
      value
    }
  }
}
